=== FILE: README.md ===
# OpenCOR's web app: a Dafny model of its core

This project models the logic at the centre of OpenCOR's web app, the Electron and
browser front end of the OpenCOR simulation environment. The model covers:

- how the renderer wraps libOpenCOR: the issue, file and SED-ML simulation
  wrappers, and the constructor of the `File` object with its staged checks;
- the native add-on's bookkeeping, both the current one under the renderer and the
  older one used by the main process. This means the managed files, the per-file
  SED document and instance, and the 64-bit id counters;
- how the UI JSON document that drives a simulation's user interface is cleaned and
  validated, in its renderer and main-process flavours;
- the renderer's small helpers: OS detection from the user agent, `formatTime`,
  message formatting, `isDivisible`, file names, data URLs, the simulation data
  lookup and the version comparison;
- the settings object and its queue of callbacks waiting for initialisation;
- the PostCSS plugin that scopes every CSS selector under the app's root;
- the Cloudflare CORS proxy that fetches COMBINE archives on the browser's behalf.

Values are immutable Dafny datatypes and operations are pure functions, or methods
where the source loops. The JSON tree has an explicit `JUndefined`. JavaScript
numbers are `real`. C++ `size_t` counters wrap modulo 2^64. Things the code calls
but does not define are parameters of the operations that use them:

- libOpenCOR's results;
- the JSON schema validator;
- `atob`, `decodeURIComponent`, `new URL`;
- a hash function;
- the desktop bridge;
- the number printer.

## Model

| member | source | states |
|---|---|---|
| Logger.IssueTypeFromValue | src/renderer/src/libopencor/locLoggerApi.ts:3-7 | exactly the integers 0, 1 and 2 name an issue kind, and the kind read back carries that integer |
| Logger.IssueTypeRoundTrip | src/renderer/src/libopencor/locLoggerApi.ts:3-7 | every kind's discriminant reads back as that kind, so the three discriminants are distinct and at most 2 |
| Logger.WasmIssuesToIssues | src/renderer/src/libopencor/locLoggerApi.ts:24-37 | one issue per engine issue, in the engine's order, each with the engine issue's type value and description |
| Common.OsName | src/renderer/src/common/common.ts:19-47 | the first of Android, iOS, Windows, Linux and macOS whose marker the user agent mentions, ignoring case, is the answer; iOS markers only count without an Android one; no user agent gives Unknown |
| Common.IsDesktop | src/renderer/src/common/common.ts:61-65 | desktop exactly when the OS is Windows, Linux or macOS |
| Common.IosBeforeMac | src/renderer/src/common/common.ts:16-29 | an iPhone, iPad or iPod agent without Android is iOS, and so not desktop, even when it also mentions Mac |
| Common.FormatTimeMatchesReference | src/renderer/src/common/common.ts:113-142 | `formatTime` prints "0ms" when every unit is zero; otherwise it prints the units from the most significant non-zero one to the least significant non-zero one, zeros in between included, separated by single spaces |
| Common.PrintedPiecesAreTheSpan | src/renderer/src/common/common.ts:119-139 | the pieces the five conditions print are exactly the span between the first and the last non-zero unit |
| Common.FormatTimeJoinsPieces | src/renderer/src/common/common.ts:119-141 | the result is the printed pieces joined with single spaces, with no leading or trailing space |
| Common.FormatTimeWrapsDays | src/renderer/src/common/common.ts:118 | days are taken modulo 24, so any whole multiple of 24 days prints "0ms" (see Findings) |
| Common.UnwrappedUnitsRecompose | src/renderer/src/common/common.ts:113-118 | without the modulo on days the five units are mixed-radix digits: hours below 24, minutes and seconds below 60, milliseconds below 1000, and they recompose the time exactly |
| Common.UnwrappedZeroOnlyAtZero | src/renderer/src/common/common.ts:113-142 | without the modulo on days all units are zero exactly when the time is zero, and the corrected `formatTime` prints "0ms" exactly when the time is zero |
| Common.FormatMessage | src/renderer/src/common/common.ts:156-170 | a self-contained message is capitalised and ends with a period, one being added exactly when missing; a message that is not self-contained starts in lower case and loses a single trailing period, but keeps an ellipsis |
| Common.FormatMessageIdempotent | src/renderer/src/common/common.ts:156-170 | formatting an already formatted self-contained message changes nothing |
| Common.FormattedIsFixed | src/renderer/src/common/common.ts:156-170 | a capitalised self-contained message that already ends with a period is left as it is |
| Common.IsDivisibleCharacterised | src/renderer/src/common/common.ts:174-176 | `a / b` is an integer exactly when b is non-zero and a is an integer multiple of b |
| Common.LastComponent | src/renderer/src/common/common.ts:199-200 | the result is a suffix of the path with no `/` or `\` in it, preceded by a separator unless it is the whole path |
| Common.FileName | src/renderer/src/common/common.ts:199-209 | the URI-decoded last component, or the raw last component when decoding throws |
| Common.TrailingSeparatorGivesEmptyName | src/renderer/src/common/common.ts:200 | a path ending in a separator has an empty file name |
| LegacyCommon.FormatTimeAgreesWithRenderer | src/common.ts:39-68 | the main process's `formatTime`, with its different day guard, prints the same as the renderer's for every time, and so meets the same span property |
| LegacyCommon.FormatIssue | src/common.ts:72-76 | the issue is capitalised and ends with a period, which is added exactly when it was missing |
| LegacyCommon.FormatIssueIdempotent | src/common.ts:72-76 | formatting a formatted issue changes nothing |
| FileApi.FirstNamed | src/renderer/src/libopencor/locFileApi.ts:52-60 | the index of the first managed file with the path, or none when no file has it |
| FileApi.Unmanage | src/renderer/src/libopencor/locFileApi.ts:43-63 | the first file with the path is removed and every other file keeps its order; nothing changes when no file has the path |
| FileApi.FileTypeFromValue | src/renderer/src/libopencor/locFileApi.ts:70-76 | exactly 0 to 4 name a file type, and the type read back carries that integer |
| FileApi.TimeIssues | src/renderer/src/libopencor/locFileApi.ts:176-203 | all three time checks run: a warning first when the initial time differs from the output start time, then errors for equal output start and end times and for a non-positive number of steps |
| FileApi.NewFile | src/renderer/src/libopencor/locFileApi.ts:93-214 | with no contents on the WebAssembly path nothing happens; otherwise the file's, then the document's, then the single-model, single-simulation and uniform-time-course checks, then the time checks stop the construction at the first stage that reports; the instance is created exactly when none does, and its issues become the file's |
| SedApi.KindFromValue | src/renderer/src/libopencor/locSedApi.ts:157-162 | exactly 0 to 3 name a simulation kind, and the kind read back carries that integer |
| SedApi.Classify | src/renderer/src/libopencor/locSedApi.ts:74-96 | on WebAssembly the constructor name decides, and any unknown name counts as a uniform time course; natively the engine's discriminant is taken as is |
| SedApi.ClassFor | src/renderer/src/libopencor/locSedApi.ts:98-110 | kinds 0, 1 and 2 get the analysis, steady state and one step wrappers; every other value gets the uniform time course wrapper |
| SedApi.Simulation | src/renderer/src/libopencor/locSedApi.ts:74-111 | the wrapper's class always matches the type it stores; natively that type is the bridge's integer, with every value other than 0, 1 and 2 getting the uniform time course class; on WebAssembly the type is a valid kind and the class matches the engine object's constructor name, any other name getting the uniform time course class |
| SedApi.WrapperDependsOnKindOnly | src/renderer/src/libopencor/locSedApi.ts:168-179 | two simulations of the same kind get the same wrapper, and `type()` gives back that kind |
| SedApi.WasmClassificationTotal | src/renderer/src/libopencor/locSedApi.ts:80-110 | every WebAssembly simulation gets a valid kind whose wrapper class is the one for that kind |
| SedApi.NativeWrapperMatchesEngine | src/renderer/src/libopencor/src/sed.cpp:56-74 | on the native path the wrapper class matches the engine simulation's own type, and unlisted engine types fall back to uniform time course |
| NativeCommon.Increment | src/renderer/src/libopencor/src/sed.cpp:10-12 | the pre-increment of a `size_t` counter wraps from SIZE_MAX to 0 |
| NativeCommon.FirstPathMatch | src/renderer/src/libopencor/src/common.cpp:6-9 | the position of the first managed file with the path, or none when no file has it |
| NativeCommon.ValueToFile | src/renderer/src/libopencor/src/common.cpp:6-9 | the file found is managed and has the path; none means no managed file has it |
| NativeCommon.ValueToSedDocument | src/renderer/src/libopencor/src/common.cpp:11-14 | a known file yields its document and leaves the state alone; `operator[]` on an unknown file inserts an empty entry and yields a null document |
| NativeCommon.ValueToSedInstance | src/renderer/src/libopencor/src/common.cpp:16-19 | as for documents: a known file yields its instance; an unknown one gains an empty entry and yields null |
| NativeCommon.ValueToSedDocumentOnlyAdds | src/renderer/src/libopencor/src/common.cpp:11-14 | a lookup never changes an existing entry and adds at most one |
| NativeCommon.UntrackFileData | src/renderer/src/libopencor/src/common.cpp:36-39 | the file's entry is erased and every other entry and all other state is unchanged |
| NativeCommon.Issues | src/renderer/src/libopencor/src/common.cpp:41-56 | one host issue per engine issue, in order, carrying the issue type's integer and the description |
| NativeCommon.DoublesToNapiArray | src/renderer/src/libopencor/src/common.cpp:58-67 | the array holds the doubles, element by element |
| NativeFile.FileManagerUnmanage | src/renderer/src/libopencor/src/file.cpp:8-21 | the first managed file with the path is unmanaged and its `files` entry erased; nothing changes when no file has the path; SED documents and instances are untouched |
| NativeFile.UnmanageDropsReference | src/renderer/src/libopencor/src/file.cpp:13-16 | after unmanaging, the path has no reference, one file fewer is managed and every other path keeps its file |
| NativeFile.FileCreate | src/renderer/src/libopencor/src/file.cpp:33-45 | the new file is kept under its path and appended to the managed files, with the given contents when there are some; the other paths, the SED documents and instances, the id counters and the file data are unchanged |
| NativeFile.FileCreateOverwrites | src/renderer/src/libopencor/src/file.cpp:44 | creating a second file at the same path replaces the first's reference instead of adding one |
| NativeFile.FileContents | src/renderer/src/libopencor/src/file.cpp:25-31 | the bytes of the file managed under the path |
| NativeFile.CreatedFileReadsBack | src/renderer/src/libopencor/src/file.cpp:25-45 | after creating a file at a path no managed file has, the path reads back that file: its contents are the buffer passed in, or the engine's own without one, and its children are the created file's |
| NativeFile.EarlierFileShadows | src/renderer/src/libopencor/src/file.cpp:25-45 | creating a file at a path already managed leaves the path reading back the earlier managed file |
| NativeFile.FileUiJson | src/renderer/src/libopencor/src/file.cpp:59-71 | the contents of the archive's `simulation.json` child, or undefined exactly when there is no such child |
| NativeSed.SedDocumentCreate | src/renderer/src/libopencor/src/sed.cpp:8-19 | the document is stored under the next document id, which wraps modulo 2^64, and nothing else changes |
| NativeSed.SedDocumentInstantiate | src/renderer/src/libopencor/src/sed.cpp:21-32 | the instance is stored under the next instance id, which wraps modulo 2^64, and nothing else changes |
| NativeSed.FirstIdsAreZero | src/renderer/src/libopencor/src/sed.cpp:10-12 | both counters start at SIZE_MAX, so the first document and the first instance both get id 0 |
| NativeSed.InstantiateTwice | src/renderer/src/libopencor/src/sed.cpp:21-32 | instantiating twice gives two distinct ids, and both instances stay stored |
| NativeSed.KeyspacesIndependent | src/renderer/src/libopencor/src/sed.cpp:8-32 | creating a document does not move the instance counter, and instantiating does not move the document counter |
| NativeSed.CreateAllIds | src/renderer/src/libopencor/src/sed.cpp:8-19 | the k-th of a series of created documents gets the starting id plus k plus one, modulo 2^64 |
| NativeSed.CreateAllDistinct | src/renderer/src/libopencor/src/sed.cpp:8-19 | up to 2^64 documents created in a row all get distinct ids |
| NativeSed.SimulationType | src/renderer/src/libopencor/src/sed.cpp:56-74 | analysis, steady state and one step are 0, 1 and 2; uniform time course and any other simulation type are 3 |
| NativeSed.SedDocumentSimulationType | src/renderer/src/libopencor/src/sed.cpp:56-74 | the type of the document's simulation at the index, always between 0 and 3; an index with no simulation reads as 3, since the null pointer fails every cast |
| NativeSed.SedUniformTimeCourseSetInitialTime | src/renderer/src/libopencor/src/sed.cpp:127-134 | the getter then returns the value; only that field of that simulation changes; the files, the instances, the id counters, every other document and the document's models and other simulations are unchanged |
| NativeSed.SedUniformTimeCourseSetOutputStartTime | src/renderer/src/libopencor/src/sed.cpp:145-152 | the getter then returns the value; only that field of that simulation changes; the files, the instances, the id counters, every other document and the document's models and other simulations are unchanged |
| NativeSed.SedUniformTimeCourseSetOutputEndTime | src/renderer/src/libopencor/src/sed.cpp:163-170 | the getter then returns the value; only that field of that simulation changes; the files, the instances, the id counters, every other document and the document's models and other simulations are unchanged |
| NativeSed.SedUniformTimeCourseSetNumberOfSteps | src/renderer/src/libopencor/src/sed.cpp:181-188 | the getter then returns the value; only that field of that simulation changes; the files, the instances, the id counters, every other document and the document's models and other simulations are unchanged |
| NativeSed.SettersAreIndependent | src/renderer/src/libopencor/src/sed.cpp:127-188 | setting one time-course field leaves the other fields' getters unchanged |
| NativeSed.SolverCvodeSetMaximumStep | src/renderer/src/libopencor/src/sed.cpp:202-209 | the getter then returns the value, the solver stays CVODE and the rest of the simulation, including its type, is kept; the files, the instances, the id counters, every other document and the document's models and other simulations are unchanged |
| NativeSed.SedModelAddChange | src/renderer/src/libopencor/src/sed.cpp:86-95 | an attribute change with the component, variable and value is appended to the model's changes, which keeps its file; the files, the instances, the id counters, every other document and the document's simulations and other models are unchanged |
| NativeSed.SedModelRemoveAllChanges | src/renderer/src/libopencor/src/sed.cpp:97-103 | the model has no changes left and keeps its file; the files, the instances, the id counters, every other document and the document's simulations and other models are unchanged |
| NativeSed.SedDocumentIssues | src/renderer/src/libopencor/src/sed.cpp:34-37 | one host issue per document issue, in order, carrying the issue type's integer and the description |
| NativeSed.SedInstanceIssues | src/renderer/src/libopencor/src/sed.cpp:220-225 | one host issue per instance issue, in order, carrying the issue type's integer and the description |
| LegacyNativeFile.UntrackFile | src/libopencor/src/file.cpp:15 | the file is no longer tracked, every other tracked file still is, and nothing new is tracked |
| LegacyNativeFile.FileManagerUnmanage | src/libopencor/src/file.cpp:8-23 | the first file with the path is untracked while every other tracked file stays tracked and none is added; it loses its SED document and is unmanaged, other documents are kept, and nothing changes when no file has the path |
| LegacyNativeFile.FileCreate | src/libopencor/src/file.cpp:35-47 | the new file, with the given contents when there are some, is pushed after the tracked files and after the managed files; the tracked documents are unchanged |
| LegacyNativeFile.CreateTwiceTracksTwice | src/libopencor/src/file.cpp:46 | creating two files at the same path tracks both, unlike the renderer's map |
| LocCommon.Bytes | src/renderer/src/common/locCommon.ts:48 | one byte per UTF-16 code unit, holding its low eight bits |
| LocCommon.ZipDataFromDataUrl | src/renderer/src/common/locCommon.ts:17-67 | only a path can be a data URL, and only when it starts with the data URL prefix, possibly after `#`; the data returned always starts with the ZIP signature |
| LocCommon.ZipDataIsTheDecodedPayload | src/renderer/src/common/locCommon.ts:28-66 | for a data URL whose payload decodes, the result is the decoded bytes when they start like a ZIP file, and an error otherwise |
| LocCommon.CombineArchiveDataUrl | src/renderer/src/common/locCommon.ts:131-153 | the data returned starts with the ZIP signature, and only paths are examined |
| Common.CounterNameIsDataUrlOmexFileName | src/renderer/src/common/common.ts:80-85 | `isDataUrlOmexFileName` recognises the name built from any data URL counter, "OMEX #" and the counter, and not the counter's digits alone |
| LocCommon.RemotePathIsNotDataUrl | src/renderer/src/common/locCommon.ts:155-157 | an `http://` or `https://` path is never taken for a data URL, whatever the MIME type |
| LocCommon.FilePath | src/renderer/src/common/locCommon.ts:159-175 | a non-empty data URL file name wins; then a non-zero counter gives "OMEX #" and the counter in decimal; then the desktop path or browser name of a file, the path itself, or the contents' hash |
| LocCommon.Find | src/renderer/src/common/locCommon.ts:294-301 | the loop finds the first index holding the name, or none |
| LocCommon.SimulationDataInfoOf | src/renderer/src/common/locCommon.ts:279-343 | an empty name is unknown; the variable of integration is checked first; then the first category among states, rates, constants, computed constants and algebraics holding the name, at its first index |
| LocCommon.LookedUpSeries | src/renderer/src/common/locCommon.ts:279-364 | looking a name up and asking for its data gives the series at the first index where the name's category holds it; the result is unknown, and the data empty, exactly when the name is empty or held by no category and is not the variable of integration |
| LocCommon.SimulationData | src/renderer/src/common/locCommon.ts:347-364 | unknown data is empty, the variable of integration gives its series, and every other kind gives the series its category holds at the info's index, each category having one series per name |
| Json.Defined | src/renderer/src/libopencor/locUiJsonApi.ts:81 | the filter keeps exactly the elements that are not undefined |
| Json.CleanValue | src/renderer/src/libopencor/locUiJsonApi.ts:74-102 | undefined, null and the empty string clean to undefined, and nothing else does; what remains holds no such value at any depth; other scalars are unchanged |
| Json.CleanValueOfClean | src/renderer/src/libopencor/locUiJsonApi.ts:74-102 | a value that is already clean comes back unchanged |
| Json.CleanValueIdempotent | src/renderer/src/libopencor/locUiJsonApi.ts:74-102 | cleaning twice is cleaning once |
| Json.CleanArrayKeepsOrder | src/renderer/src/libopencor/locUiJsonApi.ts:80-82 | cleaning an array works element by element, in order |
| Json.CleanObjectKeepsOrder | src/renderer/src/libopencor/locUiJsonApi.ts:84-96 | cleaning an object works entry by entry, in order |
| Json.CleanEntriesKeys | src/renderer/src/libopencor/locUiJsonApi.ts:84-96 | a key survives cleaning exactly when some entry with it holds a value that is not removable |
| Json.CleanedInputKind | src/renderer/src/libopencor/locUiJsonApi.ts:66-72 | after cleaning, an input is scalar exactly when its bounds were present and not null or empty, and discrete exactly when its possible values were |
| UiJsonChecks.Warnings | src/renderer/src/libopencor/locUiJsonApi.ts:326-540 | one warning per finding, in order, each starting with the UI JSON prefix and ending with a period |
| UiJsonChecks.IdFindings | src/renderer/src/libopencor/locUiJsonApi.ts:327-341 | the renderer reports a missing or empty id as empty, and the main process (src/libopencor/locUiJsonApi.ts:255-271) only an empty one; nothing else is reported but repeats |
| UiJsonChecks.IdFindingsRepeats | src/renderer/src/libopencor/locUiJsonApi.ts:328-335 | an input draws at most one repeat warning, exactly when its id is recorded and was recorded before |
| UiJsonChecks.InputIdRepeatsCounted | src/renderer/src/libopencor/locUiJsonApi.ts:326-459 | over all the inputs, an id recorded n times draws exactly n - 1 "must be unique" warnings |
| UiJsonChecks.CheckInputs | src/renderer/src/libopencor/locUiJsonApi.ts:326-459 | the input loop reports what each input's checks report, in order, against the ids recorded before it |
| UiJsonChecks.EmptyNameFindings | src/renderer/src/libopencor/locUiJsonApi.ts:351-358 | only empty-name findings, none of them exactly when every possible value has a name |
| UiJsonChecks.RepeatFindingsCount | src/renderer/src/libopencor/locUiJsonApi.ts:360-377 | a value repeated n times among the possible values draws n - 1 warnings |
| UiJsonChecks.RepeatedValues | src/renderer/src/libopencor/locUiJsonApi.ts:360-377 | the loop reports each repeat of a possible value, in order |
| UiJsonChecks.DiscreteFindings | src/renderer/src/libopencor/locUiJsonApi.ts:350-390 | a non-discrete input draws nothing; for a discrete one the default value is reported exactly when it is not a possible value, and otherwise only empty names and repeats are reported |
| UiJsonChecks.ScalarBoundsChecks | src/renderer/src/libopencor/locUiJsonApi.ts:393-417 | a reversed range is reported, and the default value is reported exactly when it lies outside the range |
| UiJsonChecks.ScalarStepChecks | src/renderer/src/libopencor/locUiJsonApi.ts:419-450 | a step that is not positive or exceeds the range is reported, and so is one that the range is not a whole multiple of; without a step, the default step of 1 is reported exactly when the range is not a whole number |
| UiJsonChecks.BoundsFindings | src/renderer/src/libopencor/locUiJsonApi.ts:393-417 | a minimum not below the maximum is reported, and a default value outside the range is reported, each exactly when it happens, and nothing else |
| UiJsonChecks.StepFindings | src/renderer/src/libopencor/locUiJsonApi.ts:419-450 | a given step is reported as out of range exactly when it is not positive or exceeds the range, and as not a factor exactly when the range is not a whole multiple of it; a missing step is reported exactly when the range is not whole |
| UiJsonChecks.OutputBlock | src/renderer/src/libopencor/locUiJsonApi.ts:465-488 | an empty id is reported (a missing one too in the renderer, which tests for falsiness; the main process at src/libopencor/locUiJsonApi.ts:402-425 does not), and so is an empty name, each exactly when it happens |
| UiJsonChecks.OutputBlockRepeats | src/renderer/src/libopencor/locUiJsonApi.ts:473-480 | an output data draws a repeat warning exactly when its key, "undefined" for a missing id, was recorded before |
| UiJsonChecks.OutputIdRepeatsCounted | src/renderer/src/libopencor/locUiJsonApi.ts:463-488 | over all output data, an id used n times draws exactly n - 1 "must be unique" warnings |
| UiJsonChecks.EmptyOutputIdsTwice | src/renderer/src/libopencor/locUiJsonApi.ts:466-480 | two output data with empty ids are both reported as empty, and the second also as a repeat |
| UiJsonChecks.CheckOutputData | src/renderer/src/libopencor/locUiJsonApi.ts:463-488 | the output data loop reports what each item's checks report, in order |
| UiJsonChecks.TraceFindings | src/renderer/src/libopencor/locUiJsonApi.ts:505-521 | only empty trace value findings, none of them exactly when every trace has both values |
| UiJsonChecks.PlotBlockChecks | src/renderer/src/libopencor/locUiJsonApi.ts:490-522 | both flavours report empty X and Y values; only the main process reports empty axis titles; only the renderer reports empty trace values, exactly when some trace has one |
| UiJsonChecks.RendererPlotChecks | src/renderer/src/libopencor/locUiJsonApi.ts:490-522 | the renderer reports empty plot and trace values and never axis titles |
| UiJsonChecks.MainProcessPlotChecks | src/libopencor/locUiJsonApi.ts:427-455 | the main process reports empty values and empty axis titles and never trace values |
| UiJsonChecks.PlotsFindingsAppend | src/renderer/src/libopencor/locUiJsonApi.ts:490-522 | plots are checked independently, in order |
| UiJsonChecks.ParametersFindings | src/renderer/src/libopencor/locUiJsonApi.ts:526-540 | only empty parameter name or value findings, none of them exactly when every parameter has both |
| UiJsonChecks.CheckDocument | src/renderer/src/libopencor/locUiJsonApi.ts:321-543 | the document's report is its inputs', then its output data's, then its plots', then its parameters' |
| UiJsonChecks.SchemaWarnings | src/renderer/src/libopencor/locUiJsonApi.ts:306-319 | at most one warning per line of the schema report, each with the UI JSON prefix, and none exactly when every line is empty |
| UiJsonChecks.InheritedKeyReportedAsRepeat | src/renderer/src/libopencor/locUiJsonApi.ts:328 | the first input with id "toString", or the first output with id "constructor", is reported as a repeat (see Findings) |
| UiJsonApi.ValidateUiJson | src/renderer/src/libopencor/locUiJsonApi.ts:104-543 | a falsy document gives a single "no UI JSON" warning; otherwise the cleaned document is either the schema's report, line by line, or the renderer's semantic findings; every issue is a warning |
| LegacyUiJsonApi.UiJsonIssues | src/libopencor/locUiJsonApi.ts:60-478 | an undefined document gives a single "no UI JSON" warning; otherwise the uncleaned document is either the schema's report or the main process's semantic findings; every issue is a warning |
| Version.ComponentValue | src/renderer/src/common/version.ts:66 | a component that is not a decimal number reads as 0 |
| Version.Parts | src/renderer/src/common/version.ts:66-67 | one number per dot-separated component |
| Version.FirstDifferenceDecides | src/renderer/src/common/version.ts:69-80 | at the first position where the components differ, with missing ones read as 0, the larger one is the newer |
| Version.AgreementIsNotNewer | src/renderer/src/common/version.ts:82 | versions that agree everywhere are not newer than each other |
| Version.CompareParts | src/renderer/src/common/version.ts:69-82 | the loop answers exactly the lexicographic "newer" order on the components |
| Version.IsNewerVersion | src/renderer/src/common/version.ts:65-83 | true exactly when the first version is newer than the second in that order |
| Version.NewerIsIrreflexive | src/renderer/src/common/version.ts:65-83 | no version is newer than itself |
| Version.NewerIsAsymmetric | src/renderer/src/common/version.ts:65-83 | two versions are never each newer than the other |
| Version.TrailingZeroVersionIsEqual | src/renderer/src/common/version.ts:70-71 | "x" and "x.0" are neither newer than the other |
| ScopePlugin.Scope | src/renderer/scripts/postcss-scope-plugin.js:7 | the scope in use is never empty |
| ScopePlugin.Selectors | src/renderer/scripts/postcss-scope-plugin.js:22 | one trimmed selector per comma-separated part, none holding a comma |
| ScopePlugin.ScopeSelector | src/renderer/scripts/postcss-scope-plugin.js:55-79 | pseudo selectors attach to the scope; simple class and id selectors give the compound form followed by the descendant form; everything else becomes a descendant |
| ScopePlugin.ScopeAll | src/renderer/scripts/postcss-scope-plugin.js:55-79 | every output selector is the scope followed by one of the input selectors, directly or after a space; the count is one per selector plus one per expanded selector |
| ScopePlugin.ScopeAllAppend | src/renderer/scripts/postcss-scope-plugin.js:55-79 | scoping a concatenation of selector lists is the concatenation of the scoped lists, so the output keeps the order of the input selectors, as `flatMap` does |
| ScopePlugin.ScopeRule | src/renderer/scripts/postcss-scope-plugin.js:13-82 | a filtered rule, one in keyframes or font-face, or one already fully scoped is left alone; `:root`, `html` and `body` become the scope; any other rule's selector becomes its comma-separated selectors, trimmed, each scoped in order, joined with ", " |
| ScopePlugin.ScopedOutputIsScoped | src/renderer/scripts/postcss-scope-plugin.js:55-81 | every selector of the rewritten rule starts with the scope |
| ScopePlugin.ScopeRuleIdempotent | src/renderer/scripts/postcss-scope-plugin.js:13-82 | running the plugin on its own output changes nothing |
| ScopePlugin.FixedWhenScoped | src/renderer/scripts/postcss-scope-plugin.js:22-26 | a rule whose selectors all start with the scope is never rewritten |
| ScopePlugin.ScopeIsScoped | src/renderer/scripts/postcss-scope-plugin.js:39-51 | the scope itself counts as scoped, so the rewritten root rules stay put |
| ScopePlugin.DefaultScopeIsWellFormed | src/renderer/scripts/postcss-scope-plugin.js:7 | the default scope is non-empty, has no comma and no outer space |
| CorsProxy.SetHeader | src/extern/corsProxy.js:81-84 | after `set`, the name has exactly that value and every other name keeps its values |
| CorsProxy.ForwardedHeaders | src/extern/corsProxy.js:52-67 | the stripped headers (credentials, cookies and hop-by-hop ones) are gone and all others keep their values |
| CorsProxy.WithCors | src/extern/corsProxy.js:79-84 | the four CORS headers have exactly their fixed values and every other header is as upstream sent it |
| CorsProxy.ProxiedResponse | src/extern/corsProxy.js:79-90 | the upstream status, status text and body; the four CORS headers hold exactly `*`, `GET, POST`, `Content-Type, Authorization` and `false`; every other header keeps its upstream values |
| CorsProxy.ErrorDetail | src/extern/corsProxy.js:94-98 | the message with a lower-case first letter, ending with a period that is added exactly when the message has none |
| CorsProxy.ErrorDetailIdempotent | src/extern/corsProxy.js:94-98 | formatting an error detail twice is formatting it once |
| CorsProxy.ErrorText | src/extern/corsProxy.js:100 | the 500 body is the error prefix followed by the error detail |
| CorsProxy.Decide | src/extern/corsProxy.js:8-75 | no url gives 400, an unparsable one gives 500, a disallowed host gives 403; OPTIONS gets 204 with the CORS headers; GET and POST are forwarded to the target with the stripped headers and, for POST only, the body; any other method gets 405 |
| CorsProxy.HostBeforeScheme | src/extern/corsProxy.js:17-26 | the host is checked before the scheme, so a non-HTTP URL on a disallowed host gets 403 and on an allowed host 400 |
| CorsProxy.StrictIsNarrower | src/extern/corsProxy.js:18-20 | every host the intended test admits, the written suffix test admits too |
| CorsProxy.StrictAdmitsSubdomains | src/extern/corsProxy.js:18-20 | the intended test admits each allowed host and all of its subdomains |
| CorsProxy.LookalikeHostForwarded | src/extern/corsProxy.js:20 | "https://evilgithub.com/" is forwarded by the written test and refused with 403 by the intended one (see Findings) |
| Settings.Reset | src/renderer/src/common/settings.ts:78-84 | the defaults check for updates at startup, and the callback queue is untouched |
| Settings.EmitInitialised | src/renderer/src/common/settings.ts:28-36 | the settings become initialised and every waiting callback runs once, in registration order |
| Settings.OnInitialised | src/renderer/src/common/settings.ts:38-44 | the callback runs at once if the settings are initialised and waits behind the others otherwise |
| Settings.Load | src/renderer/src/common/settings.ts:46-68 | the desktop bridge's settings, or the cookie's if it parses, or the defaults if it does not, or the current ones without a cookie; then the waiting callbacks run |
| Settings.Fresh | src/renderer/src/common/settings.ts:12-20 | a new object has the defaults, is not initialised, and has nothing waiting or run |
| Settings.Instance | src/renderer/src/common/settings.ts:22-26 | an object already made is returned as is; otherwise the new one is kept |
| Settings.InstanceIsShared | src/renderer/src/common/settings.ts:22-26 | asking twice gives the same object |
| Settings.RunKeepsRegistrationOrder | src/renderer/src/common/settings.ts:28-68 | over any sequence of registrations and loads, the callbacks run followed by those waiting are exactly those registered, in order, so none is lost, repeated or reordered |
| Settings.AllRunAfterLoad | src/renderer/src/common/settings.ts:28-68 | once loaded, every callback registered so far has run, in order |
| Settings.NothingRunsBeforeLoad | src/renderer/src/common/settings.ts:38-44 | before a load, every callback waits and none runs |
| Settings.UnparsableCookieFallsBack | src/renderer/src/common/settings.ts:54-66 | a cookie that does not parse leaves the defaults, and the waiting callbacks still run |

## Findings

| source | as written | input that shows it | evidently intended | confidence | as-written member | corrected member |
|---|---|---|---|---|---|---|
| src/renderer/src/common/common.ts:118 | the days component is `Math.floor(time / 86400000) % 24` (likewise src/common.ts:44) | 2073600000 ms, which is 24 days, prints "0ms" | days are not wrapped, so every non-zero time prints something non-zero | medium, not executed; a 24-day duration is unusual for a simulation timer | Common.FormatTimeWrapsDays | Common.UnwrappedZeroOnlyAtZero |
| src/renderer/src/libopencor/locUiJsonApi.ts:328 | ids used so far are kept in a plain object literal and tested with `obj[id]`, which also finds inherited `Object.prototype` members (likewise lines 473 and src/libopencor/locUiJsonApi.ts:263 and 410) | the first input with id "toString", or the first output with id "constructor", is reported as "used more than once" | only ids recorded earlier count as repeats | high, not executed | UiJsonChecks.InheritedKeyReportedAsRepeat | UiJsonChecks.InputIdRepeatsCounted |
| src/extern/corsProxy.js:20 | an allowed host matches any host name that merely ends with it | "https://evilgithub.com/" passes the host check and is forwarded | the host is an allowed host or a subdomain of one | high, not executed | CorsProxy.LookalikeHostForwarded | CorsProxy.StrictAdmitsSubdomains |

The corrected definitions are `Common.FormatTimeUnwrapped`, the id checks that look only at the
ids recorded before (`UiJsonChecks.IdFindings` and `UiJsonChecks.OutputBlock`, with
`UiJsonChecks.OutputIdRepeatsCounted`), and `CorsProxy.FetchStrict` (with
`CorsProxy.StrictIsNarrower`). Where another member builds on a corrected
operation it uses the corrected one: the UI JSON entry points are built on the corrected id
checks, as their lines under "Left out" say. `formatTime` and the proxy's decision are not
used by any other member, so each is modelled as written, with its corrected twin beside it.

## Left out

- Zipping and unzipping with JSZip, and every asynchronous file read: they are I/O. Their results are inputs.
- IEEE doubles, NaN and -0: numbers are mathematical reals. `formatTime` works on whole milliseconds.
- Common.OsName: case-insensitive matching and trimming cover ASCII only, because Unicode case mapping is outside the model.
- Common.FormatMessage: capitalising and lower-casing the first character cover ASCII letters only. JavaScript's `toUpperCase` and `toLowerCase` map every Unicode letter, so "élément" is capitalised by the source and left alone by the model. Unicode case tables are outside the model.
- LegacyCommon.FormatIssue: capitalising the first character covers ASCII letters only, where `toUpperCase` maps every Unicode letter, for the same reason.
- CorsProxy.ErrorDetail: lower-casing the first character covers ASCII letters only, where `toLowerCase` maps every Unicode letter, for the same reason.
- ScopePlugin.Selectors: trimming removes ASCII white space only. JavaScript's `trim` also removes Unicode white space and line terminators such as U+00A0, U+FEFF and U+2028, which the model keeps.
- The JSON schema validator, `atob`, `decodeURIComponent`, `new URL`, the hash of the contents and the desktop bridge are parameters. Their own behaviour is not modelled.
- Object key order is the order of entries in the model. Duplicate keys that JSON parsing merges are not modelled.
- CorsProxy.SetHeader: `Headers.set` is modelled as deleting the name and appending a new header. Only the values read back by name are stated, not the position in iteration order.
- The upstream `fetch` and the body stream: forwarding ends in a decision, and the upstream response is an input.
- Settings: what a callback does is not modelled, and neither is re-entrancy. A callback is a number recorded when it runs.
- Settings.Fresh: the constructor's own call to `load` is a separate `Loaded` event, because on the desktop the bridge answers later. Saving the settings, `toString` and the `general` getter are not modelled.
- ScopePlugin.ScopeRule: the `shouldScope` filter option is a boolean per rule. The PostCSS tree walk is one call per rule.
- Version.ComponentValue: only digit strings, after trimming, read as numbers, and every other component reads as 0. `Number` also accepts forms such as "1e3", "0x10" and "1.5", which are not modelled. Trimming removes ASCII white space only, where `Number` also skips Unicode white space.
- NativeFile.ToFile / FileContents / FileUiJson: these require a managed path. The source dereferences a null pointer otherwise. `toFile` itself is declared in the native layer's `common.h`, which is not part of this model, and is taken to look the path up among the managed files.
- NativeFile.FileCreate: what libOpenCOR's `File::create` does with a path its file manager already manages is not part of this model. The model takes it to build a new file every time, so the file manager's list holds both files and the path keeps reading back the earlier one (`NativeFile.EarlierFileShadows`), while `files` holds the new one.
- NativeSed.SedDocumentSimulationType: libOpenCOR's `SedDocument::simulation` is not part of this model. An index it holds no simulation for, negative or too large, is taken to give a null pointer.
- NativeSed accessors require the simulation or solver to be of the type the source casts it to. The source dereferences a null pointer otherwise.
- LocCommon.SimulationData: requires an in-range index for the categories with indices. The source would read past the end of the array.
- LegacyNativeFile.UntrackFile: the bodies of `untrackFile` and `untrackSedDocument` are not part of this model. `untrackFile` removes every occurrence of the file, and `untrackSedDocument` erases the file's map entry. The older `common.cpp` defines `untrackFileData` and `fileData` instead of what its header declares, and that mismatch is not modelled.
- The wiring between layers is not modelled: the IPC bridge, Vue components and the WebAssembly loader.
- Double and Int32 conversions of N-API values are not modelled: values arrive with the right type.
- UiJsonApi.ValidateUiJson: the renderer's schema requires `parameters`, so its loop always has a list to walk. The model takes the schema validator as a parameter. If that validator passes a document without parameters, the model reports nothing for them, where the renderer's loop would throw.
- UiJsonApi.ValidateUiJson: built on the corrected id checks, so a first input id such as "toString", or a first output id such as "constructor", draws no "used more than once" warning, where the renderer's `obj[id]` lookup draws one (see Findings). The as-written lookup is `UiJsonChecks.LookupAsWritten`.
- LegacyUiJsonApi.UiJsonIssues: built on the corrected id checks in the same way, where the main process's `obj[id]` lookup reports inherited `Object.prototype` names as repeats (see Findings).

=== FILE: common.dfy ===
/** The renderer's general helpers: operating system detection from the user
    agent, the data-URL OMEX file name test, duration formatting, message
    formatting, the divisibility test and the file name of a path.

    The user agent is a parameter (`None` when reading it throws), and so is
    `decodeURIComponent`, as a partial function. */
module Common {
  import opened Wrappers
  import Text

  /** What `osName` returns. */
  datatype Os = Android | Ios | Windows | Linux | MacOs | Unknown

  predicate MentionsIos(userAgent: string) {
    Text.ContainsIgnoringCase(userAgent, "iPhone") || Text.ContainsIgnoringCase(userAgent, "iPad")
    || Text.ContainsIgnoringCase(userAgent, "iPod")
  }

  /** `osName`: the first of Android, iOS, Windows, Linux and Mac that the user
      agent mentions, ignoring case; Unknown when none does or when the agent
      cannot be read. */
  function OsName(userAgent: Option<string>): (os: Os)
    ensures userAgent.None? ==> os == Unknown
    ensures userAgent.Some? ==>
              var ua := userAgent.value;
              && (os == Android <==> Text.ContainsIgnoringCase(ua, "Android"))
              && (os == Ios <==> !Text.ContainsIgnoringCase(ua, "Android") && MentionsIos(ua))
              && (os == Windows <==> !Text.ContainsIgnoringCase(ua, "Android") && !MentionsIos(ua)
                                     && Text.ContainsIgnoringCase(ua, "Windows"))
              && (os == Linux <==> !Text.ContainsIgnoringCase(ua, "Android") && !MentionsIos(ua)
                                   && !Text.ContainsIgnoringCase(ua, "Windows")
                                   && Text.ContainsIgnoringCase(ua, "Linux"))
              && (os == MacOs <==> !Text.ContainsIgnoringCase(ua, "Android") && !MentionsIos(ua)
                                   && !Text.ContainsIgnoringCase(ua, "Windows")
                                   && !Text.ContainsIgnoringCase(ua, "Linux")
                                   && Text.ContainsIgnoringCase(ua, "Mac"))
  {
    match userAgent
    case None => Unknown
    case Some(ua) =>
      if Text.ContainsIgnoringCase(ua, "Android") then Android
      else if MentionsIos(ua) then Ios
      else if Text.ContainsIgnoringCase(ua, "Windows") then Windows
      else if Text.ContainsIgnoringCase(ua, "Linux") then Linux
      else if Text.ContainsIgnoringCase(ua, "Mac") then MacOs
      else Unknown
  }

  /** `isDesktop`: Windows, Linux or macOS. */
  function IsDesktop(userAgent: Option<string>): (r: bool)
    ensures r ==> userAgent.Some?
    ensures r <==> OsName(userAgent) in {Windows, Linux, MacOs}
  {
    var os := OsName(userAgent);
    os == Windows || os == Linux || os == MacOs
  }

  /** An agent that names an iOS device is iOS, whatever else it mentions
      (iPhone agents also say "Mac"), unless it mentions Android; so it is
      never a desktop. */
  lemma {:induction false} IosBeforeMac(ua: string)
    requires MentionsIos(ua) && !Text.ContainsIgnoringCase(ua, "Android")
    ensures OsName(Some(ua)) == Ios
    ensures !IsDesktop(Some(ua))
  {
  }

  const OMEX_PREFIX: string := "OMEX #"

  /** `isDataUrlOmexFileName`. */
  predicate IsDataUrlOmexFileName(fileName: string) {
    Text.StartsWith(fileName, OMEX_PREFIX)
  }

  /** The name built from a data URL counter is recognised as one, and its
      digits alone are not. */
  lemma {:induction false} CounterNameIsDataUrlOmexFileName(counter: nat)
    ensures IsDataUrlOmexFileName(OMEX_PREFIX + Text.NatToString(counter))
    ensures !IsDataUrlOmexFileName(Text.NatToString(counter))
  {
    var name := OMEX_PREFIX + Text.NatToString(counter);
    assert name[..|OMEX_PREFIX|] == OMEX_PREFIX;
    var digits := Text.NatToString(counter);
    assert |digits| >= |OMEX_PREFIX| ==> digits[..|OMEX_PREFIX|][0] == digits[0] != 'O';
  }

  /** Milliseconds per day, hour, minute and second. */
  const MS_PER_DAY: nat := 1000 * 60 * 60 * 24
  const MS_PER_HOUR: nat := 1000 * 60 * 60
  const MS_PER_MINUTE: nat := 1000 * 60
  const MS_PER_SECOND: nat := 1000

  /** The five units `formatTime` prints, most significant first: days (taken
      modulo 24, as the source does), hours, minutes, seconds, milliseconds. */
  function Units(time: nat): (u: seq<nat>)
    ensures |u| == 5
  {
    [(time / MS_PER_DAY) % 24, (time / MS_PER_HOUR) % 24, (time / MS_PER_MINUTE) % 60,
     (time / MS_PER_SECOND) % 60, time % 1000]
  }

  const UNIT_LABELS: seq<string> := ["d", "h", "m", "s", "ms"]

  /** The printed form of unit `i` of `units`, such as `3h`. */
  function Piece(units: seq<nat>, i: nat): (p: string)
    requires |units| == 5 && i < 5
    ensures |p| > 0
  {
    Text.NatToString(units[i]) + UNIT_LABELS[i]
  }

  /** One step of `formatTime`: append a piece, preceded by a space unless
      nothing was printed yet. */
  function Append(res: string, piece: string): string {
    res + (if res != "" then " " else "") + piece
  }

  /** `formatTime` as written. */
  function FormatTime(time: nat): string {
    FormatUnits(Units(time))
  }

  /** The body of `formatTime` once the five units are computed. */
  function FormatUnits(u: seq<nat>): string
    requires |u| == 5
  {
    var d, h, m, s, ms := u[0], u[1], u[2], u[3], u[4];
    var r1 := Step("", d != 0, Piece(u, 0));
    var r2 := Step(r1, h != 0 || ((m != 0 || s != 0 || ms != 0) && r1 != ""), Piece(u, 1));
    var r3 := Step(r2, m != 0 || ((s != 0 || ms != 0) && r2 != ""), Piece(u, 2));
    var r4 := Step(r3, s != 0 || (ms != 0 && r3 != ""), Piece(u, 3));
    Step(r4, ms != 0 || r4 == "", Piece(u, 4))
  }

  /** One guarded `res += ...` of `formatTime`. */
  function Step(res: string, shown: bool, piece: string): string {
    if shown then Append(res, piece) else res
  }

  predicate AllZero(units: seq<nat>) {
    forall i :: 0 <= i < |units| ==> units[i] == 0
  }

  /** Index of the most significant non-zero unit. */
  function FirstNonZero(units: seq<nat>): (i: nat)
    requires !AllZero(units)
    ensures i < |units| && units[i] != 0
    ensures forall j :: 0 <= j < i ==> units[j] == 0
    decreases |units|
  {
    if units[0] != 0 then 0 else FirstNonZero(units[1..]) + 1
  }

  /** Index of the least significant non-zero unit. */
  function LastNonZero(units: seq<nat>): (i: nat)
    requires !AllZero(units)
    ensures i < |units| && units[i] != 0
    ensures forall j :: i < j < |units| ==> units[j] == 0
    decreases |units|
  {
    if units[|units| - 1] != 0 then |units| - 1 else LastNonZero(units[..|units| - 1])
  }

  /** The intended meaning of `formatTime`: "0ms" when every unit is zero,
      otherwise the units from the most significant non-zero one down to the
      least significant non-zero one, zeros in between included, separated by
      single spaces. */
  function FormatTimeReference(time: nat): string {
    UnitsReference(Units(time))
  }

  function UnitsReference(u: seq<nat>): string
    requires |u| == 5
  {
    if AllZero(u) then "0ms"
    else
      Text.Join(" ", Span(u, FirstNonZero(u), LastNonZero(u)))
  }

  /** Appending to a join of non-empty pieces is joining one piece more. */
  lemma {:induction false} JoinAppend(parts: seq<string>, piece: string)
    requires forall k :: 0 <= k < |parts| ==> parts[k] != ""
    ensures Text.Join(" ", parts) == "" <==> parts == []
    ensures Append(Text.Join(" ", parts), piece) == Text.Join(" ", parts + [piece])
    decreases |parts|
  {
    if |parts| == 0 {
      assert parts + [piece] == [piece];
    } else if |parts| == 1 {
      assert Text.Join(" ", parts) == parts[0];
      assert (parts + [piece])[1..] == [piece];
    } else {
      JoinAppend(parts[1..], piece);
      assert (parts + [piece])[1..] == parts[1..] + [piece];
    }
  }

  /** The pieces `formatTime` prints, as a list. */
  function PrintedPieces(u: seq<nat>): (ps: seq<string>)
    requires |u| == 5
    ensures forall k :: 0 <= k < |ps| ==> ps[k] != ""
  {
    var d, h, m, s, ms := u[0], u[1], u[2], u[3], u[4];
    var p1 := StepPieces([], d != 0, Piece(u, 0));
    var p2 := StepPieces(p1, h != 0 || ((m != 0 || s != 0 || ms != 0) && p1 != []), Piece(u, 1));
    var p3 := StepPieces(p2, m != 0 || ((s != 0 || ms != 0) && p2 != []), Piece(u, 2));
    var p4 := StepPieces(p3, s != 0 || (ms != 0 && p3 != []), Piece(u, 3));
    StepPieces(p4, ms != 0 || p4 == [], Piece(u, 4))
  }

  function StepPieces(ps: seq<string>, shown: bool, piece: string): seq<string> {
    if shown then ps + [piece] else ps
  }

  /** A guarded step on the text is the same step on the list of pieces. */
  lemma {:induction false} StepJoins(ps: seq<string>, shown: bool, piece: string)
    requires forall k :: 0 <= k < |ps| ==> ps[k] != ""
    requires piece != ""
    ensures Text.Join(" ", ps) != "" <==> ps != []
    ensures Step(Text.Join(" ", ps), shown, piece) == Text.Join(" ", StepPieces(ps, shown, piece))
    ensures forall k :: 0 <= k < |StepPieces(ps, shown, piece)| ==> StepPieces(ps, shown, piece)[k] != ""
  {
    JoinAppend(ps, piece);
  }

  /** The five guarded steps, on the text and on the list of pieces, agree
      for any non-empty pieces and any non-zero flags. */
  lemma {:induction false} StepsJoin(d: bool, h: bool, m: bool, s: bool, ms: bool,
                                     q0: string, q1: string, q2: string, q3: string, q4: string)
    requires q0 != "" && q1 != "" && q2 != "" && q3 != "" && q4 != ""
    ensures var r1 := Step("", d, q0);
            var r2 := Step(r1, h || ((m || s || ms) && r1 != ""), q1);
            var r3 := Step(r2, m || ((s || ms) && r2 != ""), q2);
            var r4 := Step(r3, s || (ms && r3 != ""), q3);
            var p1 := StepPieces([], d, q0);
            var p2 := StepPieces(p1, h || ((m || s || ms) && p1 != []), q1);
            var p3 := StepPieces(p2, m || ((s || ms) && p2 != []), q2);
            var p4 := StepPieces(p3, s || (ms && p3 != []), q3);
            Step(r4, ms || r4 == "", q4) == Text.Join(" ", StepPieces(p4, ms || p4 == [], q4))
  {
    var p1 := StepPieces([], d, q0);
    StepJoins([], d, q0);
    var r1 := Text.Join(" ", p1);
    StepJoins(p1, h || ((m || s || ms) && p1 != []), q1);
    var p2 := StepPieces(p1, h || ((m || s || ms) && p1 != []), q1);
    StepJoins(p2, m || ((s || ms) && p2 != []), q2);
    var p3 := StepPieces(p2, m || ((s || ms) && p2 != []), q2);
    StepJoins(p3, s || (ms && p3 != []), q3);
    var p4 := StepPieces(p3, s || (ms && p3 != []), q3);
    StepJoins(p4, ms || p4 == [], q4);
  }

  /** `formatTime` prints exactly the pieces of `PrintedPieces`, spaced. */
  lemma {:induction false} FormatTimeJoinsPieces(u: seq<nat>)
    requires |u| == 5
    ensures FormatUnits(u) == Text.Join(" ", PrintedPieces(u))
  {
    StepsJoin(u[0] != 0, u[1] != 0, u[2] != 0, u[3] != 0, u[4] != 0,
              Piece(u, 0), Piece(u, 1), Piece(u, 2), Piece(u, 3), Piece(u, 4));
  }

  /** The units `first` to `last` of `u`, printed. */
  function Span(u: seq<nat>, first: nat, last: nat): (ps: seq<string>)
    requires |u| == 5 && first <= last < 5
    ensures |ps| == last - first + 1
    ensures forall k :: 0 <= k < |ps| ==> ps[k] == Piece(u, first + k)
    decreases last - first
  {
    if first == last then [Piece(u, first)] else [Piece(u, first)] + Span(u, first + 1, last)
  }

  lemma {:induction false} SpanFromDays(u: seq<nat>)
    requires |u| == 5 && u[0] != 0 && !AllZero(u)
    ensures PrintedPieces(u) == Span(u, 0, LastNonZero(u))
  {
    var last := LastNonZero(u);
    if last == 0 { assert u[1] == 0 && u[2] == 0 && u[3] == 0 && u[4] == 0; }
    else if last == 1 { assert u[2] == 0 && u[3] == 0 && u[4] == 0; }
    else if last == 2 { assert u[3] == 0 && u[4] == 0; }
    else if last == 3 { assert u[4] == 0; }
  }

  lemma {:induction false} SpanFromHours(u: seq<nat>)
    requires |u| == 5 && u[0] == 0 && u[1] != 0 && !AllZero(u)
    ensures PrintedPieces(u) == Span(u, 1, LastNonZero(u))
  {
    var last := LastNonZero(u);
    if last == 1 { assert u[2] == 0 && u[3] == 0 && u[4] == 0; }
    else if last == 2 { assert u[3] == 0 && u[4] == 0; }
    else if last == 3 { assert u[4] == 0; }
  }

  lemma {:induction false} SpanFromMinutes(u: seq<nat>)
    requires |u| == 5 && u[0] == 0 && u[1] == 0 && u[2] != 0 && !AllZero(u)
    ensures PrintedPieces(u) == Span(u, 2, LastNonZero(u))
  {
    var last := LastNonZero(u);
    if last == 2 { assert u[3] == 0 && u[4] == 0; }
    else if last == 3 { assert u[4] == 0; }
  }

  lemma {:induction false} SpanFromSeconds(u: seq<nat>)
    requires |u| == 5 && u[0] == 0 && u[1] == 0 && u[2] == 0 && u[3] != 0 && !AllZero(u)
    ensures PrintedPieces(u) == Span(u, 3, LastNonZero(u))
  {
    var last := LastNonZero(u);
    if last == 3 { assert u[4] == 0; }
  }

  /** The printed pieces are those of the units from the first non-zero one to
      the last, or just the milliseconds when all are zero. */
  lemma {:induction false} PrintedPiecesAreTheSpan(u: seq<nat>)
    requires |u| == 5
    ensures AllZero(u) ==> PrintedPieces(u) == [Piece(u, 4)]
    ensures !AllZero(u) ==> PrintedPieces(u) == Span(u, FirstNonZero(u), LastNonZero(u))
  {
    if AllZero(u) {
      assert u[0] == 0 && u[1] == 0 && u[2] == 0 && u[3] == 0 && u[4] == 0;
    } else {
      var first := FirstNonZero(u);
      if first == 0 { SpanFromDays(u); }
      else if first == 1 { assert u[0] == 0; SpanFromHours(u); }
      else if first == 2 { assert u[0] == 0 && u[1] == 0; SpanFromMinutes(u); }
      else if first == 3 { assert u[0] == 0 && u[1] == 0 && u[2] == 0; SpanFromSeconds(u); }
      else { assert u[0] == 0 && u[1] == 0 && u[2] == 0 && u[3] == 0 && LastNonZero(u) == 4; }
    }
  }

  /** `formatTime` prints what its reference describes. */
  lemma {:induction false} FormatTimeMatchesReference(time: nat)
    ensures FormatTime(time) == FormatTimeReference(time)
  {
    var u := Units(time);
    FormatTimeJoinsPieces(u);
    PrintedPiecesAreTheSpan(u);
    if AllZero(u) {
      assert u[4] == 0;
      assert Piece(u, 4) == "0ms";
    }
  }

  /** A whole number of 24-day periods prints as "0ms". */
  lemma {:induction false} FormatTimeWrapsDays(k: nat)
    ensures FormatTime(k * 24 * MS_PER_DAY) == "0ms"
  {
    var time := k * 24 * MS_PER_DAY;
    var u := Units(time);
    assert time / MS_PER_DAY == k * 24;
    assert time / MS_PER_HOUR == k * 24 * 24;
    assert time / MS_PER_MINUTE == k * 24 * 24 * 60;
    assert time / MS_PER_SECOND == k * 24 * 24 * 60 * 60;
    assert AllZero(u);
    FormatTimeMatchesReference(time);
  }

  /** The five units as evidently intended: whole days are not wrapped. */
  function UnitsUnwrapped(time: nat): (u: seq<nat>)
    ensures |u| == 5
  {
    [time / MS_PER_DAY, (time / MS_PER_HOUR) % 24, (time / MS_PER_MINUTE) % 60,
     (time / MS_PER_SECOND) % 60, time % 1000]
  }

  /** `formatTime` without the wrap of the days. */
  function FormatTimeUnwrapped(time: nat): string {
    FormatUnits(UnitsUnwrapped(time))
  }

  /** The value of five units in milliseconds. */
  function Milliseconds(u: seq<nat>): nat
    requires |u| == 5
  {
    u[0] * MS_PER_DAY + u[1] * MS_PER_HOUR + u[2] * MS_PER_MINUTE + u[3] * MS_PER_SECOND + u[4]
  }

  /** Without the wrap, the units are the mixed-radix digits of the time: they
      add back up to it, each below its radix. */
  lemma {:induction false} UnwrappedUnitsRecompose(time: nat)
    ensures Milliseconds(UnitsUnwrapped(time)) == time
    ensures var u := UnitsUnwrapped(time); u[1] < 24 && u[2] < 60 && u[3] < 60 && u[4] < 1000
  {
    assert time == (time / MS_PER_DAY) * MS_PER_DAY + time % MS_PER_DAY;
    Digit(time, MS_PER_DAY, MS_PER_HOUR, 24);
    Digit(time, MS_PER_HOUR, MS_PER_MINUTE, 60);
    Digit(time, MS_PER_MINUTE, MS_PER_SECOND, 60);
  }

  /** With `big == small * k`, what is left after the whole `big` units is
      the count of `small` units modulo `k`, in `small` units, plus what is
      left after the whole `small` units. */
  lemma Digit(time: nat, big: nat, small: nat, k: nat)
    requires small > 0 && k > 0 && big == small * k
    ensures time % big == ((time / small) % k) * small + time % small
  {
    var q, r := time / big, time % big;
    var c, e := r / small, r % small;
    assert r == c * small + e;
    assert time == (q * k + c) * small + e;
    DivUnique(time, small, q * k + c, e);
    DivModStep(time, big, small, k);
  }

  /** A multiple of a positive number that is smaller than it in magnitude
      is zero times it. */
  lemma SmallMultiple(x: int, s: int)
    requires s > 0 && -s < x * s < s
    ensures x == 0
  {
  }

  /** Division is determined by any decomposition with a remainder in range. */
  lemma DivUnique(t: int, s: int, a: int, b: int)
    requires s > 0 && 0 <= b < s && t == a * s + b
    ensures t / s == a && t % s == b
  {
    var q, r := t / s, t % s;
    assert t == q * s + r;
    assert (q - a) * s == q * s - a * s;
    SmallMultiple(q - a, s);
  }

  /** With `big == small * k`, the count of `small` units left over after the
      whole `big` units is the count of `small` units modulo `k`. */
  lemma DivModStep(time: nat, big: nat, small: nat, k: nat)
    requires small > 0 && k > 0 && big == small * k
    ensures (time / small) % k == (time % big) / small
  {
    var q, r := time / big, time % big;
    var c, e := r / small, r % small;
    assert r == c * small + e;
    assert time == (q * k + c) * small + e;
    DivUnique(time, small, q * k + c, e);
    DivUnique(time / small, k, q, c);
  }

  /** Two or more pieces joined with spaces contain a space. */
  lemma {:induction false} JoinHasSpace(parts: seq<string>)
    requires |parts| >= 2
    ensures ' ' in Text.Join(" ", parts)
  {
    var j := Text.Join(" ", parts);
    assert j == parts[0] + " " + Text.Join(" ", parts[1..]);
    assert j[|parts[0]|] == ' ';
  }

  /** The printed form of a non-zero unit is never "0ms". */
  lemma {:induction false} NonZeroPieceIsNotZero(u: seq<nat>, i: nat)
    requires |u| == 5 && i < 5 && u[i] != 0
    ensures Piece(u, i) != "0ms"
  {
    var n := Text.NatToString(u[i]);
    var unit := UNIT_LABELS[i];
    var p := n + unit;
    assert Piece(u, i) == p;
    assert p[|p| - 1] == unit[|unit| - 1];
    if i == 3 && |p| == 3 {
      assert p[1] == n[1] && '0' <= n[1] <= '9';
    }
    if i == 4 && |p| == 3 {
      Text.NatToStringRoundTrip(u[i]);
      assert Text.DigitsValue("0") == 0;
      assert n != "0";
      assert p[..1] == n;
    }
  }

  /** Units with a non-zero one never print as "0ms": more than one piece
      brings a space, and a single piece is a non-zero unit. */
  lemma {:induction false} NonZeroUnitsPrintNonZero(u: seq<nat>)
    requires |u| == 5 && !AllZero(u)
    ensures FormatUnits(u) != "0ms"
  {
    FormatTimeJoinsPieces(u);
    PrintedPiecesAreTheSpan(u);
    NonZeroSpanIsNotZero(u);
  }

  /** The span of a non-zero time is not "0ms". */
  lemma {:induction false} NonZeroSpanIsNotZero(u: seq<nat>)
    requires |u| == 5 && !AllZero(u)
    ensures Text.Join(" ", Span(u, FirstNonZero(u), LastNonZero(u))) != "0ms"
  {
    var first, last := FirstNonZero(u), LastNonZero(u);
    var ps := Span(u, first, last);
    if |ps| >= 2 {
      JoinHasSpace(ps);
      assert ' ' !in "0ms";
    } else {
      assert ps == [Piece(u, last)];
      NonZeroPieceIsNotZero(u, last);
    }
  }

  /** Without the wrap, only time 0 has no non-zero unit, so only time 0
      prints as "0ms". */
  lemma {:induction false} UnwrappedZeroOnlyAtZero(time: nat)
    ensures AllZero(UnitsUnwrapped(time)) <==> time == 0
    ensures FormatTimeUnwrapped(time) == "0ms" <==> time == 0
  {
    UnwrappedUnitsRecompose(time);
    var u := UnitsUnwrapped(time);
    if AllZero(u) {
      assert u[0] == 0 && u[1] == 0 && u[2] == 0 && u[3] == 0 && u[4] == 0;
    }
    if time == 0 {
      assert AllZero(u);
      FormatTimeJoinsPieces(u);
      PrintedPiecesAreTheSpan(u);
      assert Piece(u, 4) == "0ms";
    } else {
      NonZeroUnitsPrintNonZero(u);
    }
  }


  /** `formatMessage(message, selfContained)`: capitalise (self-contained) or
      decapitalise the first character; text ending in "..." is left as is;
      otherwise a self-contained message is given a final "." and a
      non-self-contained one loses it. */
  function FormatMessage(message: string, selfContained: bool): (r: string)
    ensures selfContained ==> Text.EndsWith(r, ".")
    ensures selfContained ==> r == Text.Capitalise(message) || r == Text.Capitalise(message) + "."
    ensures selfContained ==> (r == Text.Capitalise(message) <==> Text.EndsWith(message, "."))
    ensures selfContained && |r| > 0 ==> Text.UpperChar(r[0]) == r[0]
    ensures !selfContained && Text.EndsWith(message, ".") && !Text.EndsWith(message, "...") ==>
              r + "." == Text.Decapitalise(message)
    ensures !selfContained && (!Text.EndsWith(message, ".") || Text.EndsWith(message, "...")) ==>
              r == Text.Decapitalise(message)
  {
    var m := if selfContained then Text.Capitalise(message) else Text.Decapitalise(message);
    KeepsEnding(message, selfContained);
    Text.UpperCharIdempotent(if |message| > 0 then message[0] else '.');
    FormatEnding(m, selfContained)
  }

  /** The ending rule of `formatMessage`, on the re-cased message. */
  function FormatEnding(m: string, selfContained: bool): (r: string)
    ensures selfContained ==> Text.EndsWith(r, ".") && (r == m || r == m + ".")
    ensures selfContained && Text.EndsWith(m, ".") ==> r == m
    ensures selfContained ==> (|m| > 0 ==> r[0] == m[0]) && (|m| == 0 ==> r == ".")
    ensures !selfContained && Text.EndsWith(m, ".") && !Text.EndsWith(m, "...") ==> r + "." == m
    ensures !selfContained && (!Text.EndsWith(m, ".") || Text.EndsWith(m, "...")) ==> r == m
  {
    if Text.EndsWith(m, "...") then
      assert m[|m| - 1..] == m[|m| - 3..][2..];
      m
    else if Text.EndsWith(m, ".") then (if selfContained then m else m[..|m| - 1])
    else if selfContained then
      assert (m + ".")[|m|..] == ".";
      m + "."
    else m
  }

  /** Re-casing the first character leaves the ending alone. */
  lemma KeepsEnding(message: string, selfContained: bool)
    ensures var m := if selfContained then Text.Capitalise(message) else Text.Decapitalise(message);
            |m| == |message| && (Text.EndsWith(m, ".") <==> Text.EndsWith(message, "."))
            && (Text.EndsWith(m, "...") <==> Text.EndsWith(message, "..."))
            && (|message| > 0 ==> m[0] == (if selfContained then Text.UpperChar(message[0]) else Text.LowerChar(message[0])))
  {
    var m := if selfContained then Text.Capitalise(message) else Text.Decapitalise(message);
    if |message| > 0 {
      assert m[1..] == message[1..];
      assert forall i :: 1 <= i < |m| ==> m[i] == m[1..][i - 1] == message[i];
      assert m[0] == '.' <==> message[0] == '.';
      DotEnding(m);
      DotEnding(message);
    }
  }

  /** Ending with "." or "..." is a matter of the last characters. */
  lemma DotEnding(s: string)
    ensures Text.EndsWith(s, ".") <==> |s| >= 1 && s[|s| - 1] == '.'
    ensures Text.EndsWith(s, "...") <==> |s| >= 3 && s[|s| - 3] == '.' && s[|s| - 2] == '.' && s[|s| - 1] == '.'
  {
    if |s| >= 1 && s[|s| - 1] == '.' {
      assert s[|s| - 1..] == ".";
    }
    if |s| >= 3 && s[|s| - 3] == '.' && s[|s| - 2] == '.' && s[|s| - 1] == '.' {
      assert s[|s| - 3..] == "...";
    }
  }

  /** A message that starts with a capital (or no letter) and ends with "."
      is already formatted. */
  lemma FormattedIsFixed(r: string)
    requires Text.EndsWith(r, ".") && Text.UpperChar(r[0]) == r[0]
    ensures FormatMessage(r, true) == r
  {
    Text.CapitaliseFixed(r);
    assert FormatMessage(r, true) == FormatEnding(Text.Capitalise(r), true);
  }

  /** Self-contained formatting is idempotent. */
  lemma {:induction false} FormatMessageIdempotent(message: string)
    ensures FormatMessage(FormatMessage(message, true), true) == FormatMessage(message, true)
  {
    var r := FormatMessage(message, true);
    FormattedIsFixed(r);
  }

  /** `isDivisible(a, b)`: `a / b` is a whole number; dividing by zero gives
      an infinity or NaN, neither of which is. */
  predicate IsDivisible(a: real, b: real) {
    b != 0.0 && (a / b).Floor as real == a / b
  }

  function Multiple(k: int, b: real): real {
    (k as real) * b
  }

  /** Whole multiples of a non-zero divisor are divisible by it and nothing is
      divisible by zero. */
  lemma {:induction false} IsDivisibleCharacterised(a: real, b: real)
    ensures IsDivisible(a, b) <==> b != 0.0 && exists k: int :: a == Multiple(k, b)
  {
    if b != 0.0 && exists k: int :: a == Multiple(k, b) {
      var k: int :| a == Multiple(k, b);
      assert a / b == k as real;
    }
    if IsDivisible(a, b) {
      var k := (a / b).Floor;
      assert a == Multiple(k, b);
    }
  }

  predicate IsSeparator(c: char) {
    c == '/' || c == '\\'
  }

  /** The text after the last `/` or `\`, as the last element of a split on
      either separator. */
  function LastComponent(path: string): (r: string)
    ensures forall i :: 0 <= i < |r| ==> !IsSeparator(r[i])
    ensures Text.EndsWith(path, r)
    ensures |r| == |path| || IsSeparator(path[|path| - |r| - 1])
    decreases |path|
  {
    if |path| == 0 || IsSeparator(path[|path| - 1]) then ""
    else
      var init := path[..|path| - 1];
      var before := LastComponent(init);
      var r := before + [path[|path| - 1]];
      assert path[|path| - |r|..] == init[|init| - |before|..] + [path[|path| - 1]];
      assert |r| < |path| ==> path[|path| - |r| - 1] == init[|init| - |before| - 1];
      r
  }

  /** `fileName`: the decoded last component, or the raw one when decoding
      fails. */
  function FileName(path: string, decode: string -> Option<string>): (r: string)
    ensures decode(LastComponent(path)).Some? ==> r == decode(LastComponent(path)).value
    ensures decode(LastComponent(path)).None? ==> r == LastComponent(path)
  {
    var component := LastComponent(path);
    match decode(component)
    case Some(decoded) => decoded
    case None => component
  }

  /** A path ending in a separator has an empty file name before decoding. */
  lemma {:induction false} TrailingSeparatorGivesEmptyName(path: string)
    requires |path| > 0 && IsSeparator(path[|path| - 1])
    ensures LastComponent(path) == ""
  {
  }
}

=== FILE: cors_proxy.dfy ===
/** The CORS proxy that runs as a Cloudflare worker: which requests it
    answers itself, which it forwards and with which headers, and the headers
    it puts on what comes back.

    Parsing the target URL and the upstream `fetch` are outside the model:
    the parser is a parameter (its TypeError becomes `ParseError`), and
    forwarding ends in a `Forward` decision; the upstream response is an
    input of `ProxiedResponse`. Header names compare without regard to ASCII
    case, as the `Headers` class does. */
module CorsProxy {
  import opened Wrappers
  import Text

  datatype Header = Header(name: string, value: string)

  /** The parts of a parsed URL the proxy looks at; `protocol` keeps its
      colon, as in `https:`. */
  datatype Url = Url(hostname: string, protocol: string)

  /** `new URL(target)`: the URL, or the message of the error it throws. */
  datatype Parsed = ParsedUrl(url: Url) | ParseError(message: string)

  /** An incoming request: its `url` query parameter, its method and its
      headers. */
  datatype Request = Request(urlParam: Option<string>, verb: string, headers: seq<Header>)

  /** No body, a text body, or the upstream body passed through. */
  datatype Body = NoBody | TextBody(text: string) | UpstreamBody

  datatype Response = Response(status: nat, statusText: string, body: Body, headers: seq<Header>)

  /** What the worker does with a request: answer it, or forward it. */
  datatype Decision =
    | Respond(response: Response)
    | Forward(target: string, verb: string, headers: seq<Header>, withBody: bool)

  const MISSING_URL: string := "Missing \"url\" query parameter."
  const NOT_ALLOWED: string := "Target URL is not allowed."
  const INVALID_SCHEME: string := "Invalid target URL scheme."
  const METHOD_NOT_ALLOWED: string := "Method not allowed."
  const ERROR_PREFIX: string := "An error occurred: "

  const ALLOWED_HOSTS: seq<string> := ["cellml.org", "github.com", "githubusercontent.com", "opencor.ws", "physiomeproject.org"]

  /** The request headers that are never forwarded, in lower case. */
  const STRIPPED: seq<string> := ["authorization", "cookie", "connection", "keep-alive", "proxy-authenticate",
                                  "proxy-authorization", "te", "trailers", "transfer-encoding", "upgrade"]

  const ALLOW_ORIGIN: string := "Access-Control-Allow-Origin"
  const ALLOW_METHODS: string := "Access-Control-Allow-Methods"
  const ALLOW_HEADERS: string := "Access-Control-Allow-Headers"
  const ALLOW_CREDENTIALS: string := "Access-Control-Allow-Credentials"

  /** The four CORS headers the proxy sends. */
  const CORS_HEADERS: seq<Header> := [Header(ALLOW_ORIGIN, "*"), Header(ALLOW_METHODS, "GET, POST"),
                                      Header(ALLOW_HEADERS, "Content-Type, Authorization"),
                                      Header(ALLOW_CREDENTIALS, "false")]

  function Plain(status: nat, text: string): Response {
    Response(status, "", TextBody(text), [])
  }

  /** The values of the headers called `name`, in order. */
  function Values(headers: seq<Header>, name: string): (vs: seq<string>)
    ensures |vs| <= |headers|
    decreases |headers|
  {
    if |headers| == 0 then []
    else Values(headers[..|headers| - 1], name)
         + (if Text.Lower(headers[|headers| - 1].name) == Text.Lower(name) then [headers[|headers| - 1].value] else [])
  }

  lemma {:induction false} ValuesAppend(a: seq<Header>, b: seq<Header>, name: string)
    ensures Values(a + b, name) == Values(a, name) + Values(b, name)
    decreases |b|
  {
    if |b| == 0 {
      assert a + b == a;
    } else {
      assert (a + b)[..|a + b| - 1] == a + b[..|b| - 1];
      ValuesAppend(a, b[..|b| - 1], name);
    }
  }

  /** `headers.delete(name)`: every header called `name` goes. */
  function Delete(headers: seq<Header>, name: string): (r: seq<Header>)
    ensures |r| <= |headers|
    decreases |headers|
  {
    if |headers| == 0 then []
    else Delete(headers[..|headers| - 1], name)
         + (if Text.Lower(headers[|headers| - 1].name) == Text.Lower(name) then [] else [headers[|headers| - 1]])
  }

  /** Deleting a name empties it and leaves every other name's values as
      they were. */
  lemma {:induction false} DeleteValues(headers: seq<Header>, name: string, other: string)
    ensures Values(Delete(headers, name), other) ==
              if Text.Lower(other) == Text.Lower(name) then [] else Values(headers, other)
    decreases |headers|
  {
    if |headers| > 0 {
      var init, last := headers[..|headers| - 1], headers[|headers| - 1];
      DeleteValues(init, name, other);
      var tail := if Text.Lower(last.name) == Text.Lower(name) then [] else [last];
      ValuesAppend(Delete(init, name), tail, other);
    }
  }

  /** `headers.set(name, value)`: the name ends up with exactly that value. */
  function SetHeader(headers: seq<Header>, name: string, value: string): (r: seq<Header>)
    ensures Values(r, name) == [value]
    ensures forall other {:trigger Values(r, other)} :: Text.Lower(other) != Text.Lower(name) ==>
              Values(r, other) == Values(headers, other)
  {
    var kept := Delete(headers, name);
    var r := kept + [Header(name, value)];
    ValuesAppend(kept, [Header(name, value)], name);
    DeleteValues(headers, name, name);
    assert [Header(name, value)][..0] == [];
    forall other | Text.Lower(other) != Text.Lower(name)
      ensures Values(r, other) == Values(headers, other)
    {
      ValuesAppend(kept, [Header(name, value)], other);
      DeleteValues(headers, name, other);
    }
    r
  }

  /** Whether a name is one of `names`, ignoring case. */
  predicate NamedIn(name: string, names: seq<string>) {
    exists k :: 0 <= k < |names| && Text.Lower(name) == Text.Lower(names[k])
  }

  /** The loop that deletes each of `names` in turn. */
  function DeleteAll(headers: seq<Header>, names: seq<string>): (r: seq<Header>)
    ensures forall other {:trigger Values(r, other)} ::
              Values(r, other) == if NamedIn(other, names) then [] else Values(headers, other)
    decreases |names|
  {
    if |names| == 0 then headers
    else
      var once := Delete(headers, names[0]);
      var r := DeleteAll(once, names[1..]);
      forall other
        ensures Values(r, other) == if NamedIn(other, names) then [] else Values(headers, other)
      {
        DeleteValues(headers, names[0], other);
        if NamedIn(other, names[1..]) {
          var k :| 0 <= k < |names[1..]| && Text.Lower(other) == Text.Lower(names[1..][k]);
          assert names[k + 1] == names[1..][k];
        } else if Text.Lower(other) != Text.Lower(names[0]) {
          forall k | 0 <= k < |names|
            ensures Text.Lower(other) != Text.Lower(names[k])
          {
            if k > 0 {
              assert names[k] == names[1..][k - 1];
            }
          }
        }
      }
      r
  }

  /** The headers forwarded upstream: the request's, without the ten
      stripped names and with everything else as it was. */
  function ForwardedHeaders(headers: seq<Header>): (r: seq<Header>)
    ensures forall other {:trigger Values(r, other)} ::
              Values(r, other) == if NamedIn(other, STRIPPED) then [] else Values(headers, other)
  {
    DeleteAll(headers, STRIPPED)
  }

  /** The four `newHeaders.set(...)` calls on the upstream headers. */
  function WithCors(headers: seq<Header>): (r: seq<Header>)
    ensures Values(r, ALLOW_ORIGIN) == ["*"]
    ensures Values(r, ALLOW_METHODS) == ["GET, POST"]
    ensures Values(r, ALLOW_HEADERS) == ["Content-Type, Authorization"]
    ensures Values(r, ALLOW_CREDENTIALS) == ["false"]
    ensures forall other {:trigger Values(r, other)} :: !NamedIn(other, CORS_NAMES) ==>
              Values(r, other) == Values(headers, other)
  {
    var h1 := SetHeader(headers, ALLOW_ORIGIN, "*");
    var h2 := SetHeader(h1, ALLOW_METHODS, "GET, POST");
    var h3 := SetHeader(h2, ALLOW_HEADERS, "Content-Type, Authorization");
    var h4 := SetHeader(h3, ALLOW_CREDENTIALS, "false");
    CorsNamesDistinct();
    assert Values(h4, ALLOW_ORIGIN) == Values(h3, ALLOW_ORIGIN) == Values(h2, ALLOW_ORIGIN) == Values(h1, ALLOW_ORIGIN);
    assert Values(h4, ALLOW_METHODS) == Values(h3, ALLOW_METHODS) == Values(h2, ALLOW_METHODS);
    assert Values(h4, ALLOW_HEADERS) == Values(h3, ALLOW_HEADERS);
    forall other | !NamedIn(other, CORS_NAMES)
      ensures Values(h4, other) == Values(headers, other)
    {
      assert Text.Lower(other) != Text.Lower(CORS_NAMES[0]);
      assert Text.Lower(other) != Text.Lower(CORS_NAMES[1]);
      assert Text.Lower(other) != Text.Lower(CORS_NAMES[2]);
      assert Text.Lower(other) != Text.Lower(CORS_NAMES[3]);
    }
    h4
  }

  const CORS_NAMES: seq<string> := [ALLOW_ORIGIN, ALLOW_METHODS, ALLOW_HEADERS, ALLOW_CREDENTIALS]

  /** The four CORS header names differ, whatever the case: they differ at
      the first character after "Access-Control-Allow-". */
  lemma CorsNamesDistinct()
    ensures Text.Lower(ALLOW_ORIGIN) != Text.Lower(ALLOW_METHODS)
    ensures Text.Lower(ALLOW_ORIGIN) != Text.Lower(ALLOW_HEADERS)
    ensures Text.Lower(ALLOW_ORIGIN) != Text.Lower(ALLOW_CREDENTIALS)
    ensures Text.Lower(ALLOW_METHODS) != Text.Lower(ALLOW_HEADERS)
    ensures Text.Lower(ALLOW_METHODS) != Text.Lower(ALLOW_CREDENTIALS)
    ensures Text.Lower(ALLOW_HEADERS) != Text.Lower(ALLOW_CREDENTIALS)
  {
    assert Text.Lower(ALLOW_ORIGIN)[21] == 'o';
    assert Text.Lower(ALLOW_METHODS)[21] == 'm';
    assert Text.Lower(ALLOW_HEADERS)[21] == 'h';
    assert Text.Lower(ALLOW_CREDENTIALS)[21] == 'c';
  }

  /** The response sent back for a forwarded request: the upstream status,
      status text and body, with the CORS headers set on the upstream
      headers. */
  function ProxiedResponse(upstream: Response): (r: Response)
    ensures r.status == upstream.status && r.statusText == upstream.statusText && r.body == upstream.body
    ensures Values(r.headers, ALLOW_ORIGIN) == ["*"] && Values(r.headers, ALLOW_CREDENTIALS) == ["false"]
    ensures Values(r.headers, ALLOW_METHODS) == ["GET, POST"]
    ensures Values(r.headers, ALLOW_HEADERS) == ["Content-Type, Authorization"]
    ensures forall other {:trigger Values(r.headers, other)} :: !NamedIn(other, CORS_NAMES) ==>
              Values(r.headers, other) == Values(upstream.headers, other)
  {
    Response(upstream.status, upstream.statusText, upstream.body, WithCors(upstream.headers))
  }

  /** The error message as reported: its first character in lower case, and
      a final "." if it has none. */
  function ErrorDetail(message: string): (r: string)
    ensures Text.EndsWith(r, ".")
    ensures r == Text.Decapitalise(message) || r == Text.Decapitalise(message) + "."
    ensures r == Text.Decapitalise(message) <==> Text.EndsWith(message, ".")
    ensures |message| > 0 ==> r[0] == Text.LowerChar(message[0])
  {
    var m := Text.Decapitalise(message);
    Text.DecapitaliseKeepsPeriod(message);
    if Text.EndsWith(m, ".") then m else m + "."
  }

  /** Reporting an already reported message changes nothing. */
  lemma ErrorDetailIdempotent(message: string)
    ensures ErrorDetail(ErrorDetail(message)) == ErrorDetail(message)
  {
    var r := ErrorDetail(message);
    assert Text.LowerChar(Text.LowerChar(r[0])) == Text.LowerChar(r[0]);
    assert Text.Decapitalise(r) == [r[0]] + r[1..] == r;
  }

  /** The body of the 500 response. */
  function ErrorText(message: string): (r: string)
    ensures Text.StartsWith(r, ERROR_PREFIX) && r[|ERROR_PREFIX|..] == ErrorDetail(message)
  {
    ERROR_PREFIX + ErrorDetail(message)
  }

  /** The host test as written: the host name ends with one of the allowed
      hosts. */
  predicate HostAllowed(hostname: string) {
    exists k :: 0 <= k < |ALLOWED_HOSTS| && Text.EndsWith(hostname, ALLOWED_HOSTS[k])
  }

  /** The host test as intended: the host name is one of the allowed hosts
      or a subdomain of one. */
  predicate HostAllowedStrict(hostname: string) {
    exists k :: 0 <= k < |ALLOWED_HOSTS| &&
      (hostname == ALLOWED_HOSTS[k] || Text.EndsWith(hostname, "." + ALLOWED_HOSTS[k]))
  }

  predicate IsHttp(url: Url) {
    url.protocol == "http:" || url.protocol == "https:"
  }

  /** The request has a target URL that parses, whose host passes `allowed`
      and whose scheme is HTTP or HTTPS. */
  predicate Validated(request: Request, parse: string -> Parsed, allowed: string -> bool) {
    request.urlParam.Some? && parse(request.urlParam.value).ParsedUrl?
    && allowed(parse(request.urlParam.value).url.hostname) && IsHttp(parse(request.urlParam.value).url)
  }

  /** `fetch`, up to the forwarding: the checks in their order, each with its
      status. The host test is a parameter so that the test as written and
      the test as intended share the rest. */
  function Decide(request: Request, parse: string -> Parsed, allowed: string -> bool): (d: Decision)
    ensures request.urlParam.None? ==> d == Respond(Plain(400, MISSING_URL))
    ensures request.urlParam.Some? && parse(request.urlParam.value).ParseError? ==>
              d == Respond(Plain(500, ErrorText(parse(request.urlParam.value).message)))
    ensures request.urlParam.Some? && parse(request.urlParam.value).ParsedUrl?
            && !allowed(parse(request.urlParam.value).url.hostname) ==>
              d == Respond(Plain(403, NOT_ALLOWED))
    ensures d.Respond? && d.response.status == 204 <==> Validated(request, parse, allowed) && request.verb == "OPTIONS"
    ensures d.Respond? && d.response.status == 204 ==> d.response.headers == CORS_HEADERS && d.response.body == NoBody
    ensures d.Respond? && d.response.status == 405 <==>
              Validated(request, parse, allowed) && request.verb !in {"GET", "POST", "OPTIONS"}
    ensures d.Forward? <==> Validated(request, parse, allowed) && request.verb in {"GET", "POST"}
    ensures d.Forward? ==> d.target == request.urlParam.value && d.verb == request.verb
    ensures d.Forward? ==> (d.withBody <==> request.verb == "POST")
    ensures d.Forward? ==> forall other {:trigger Values(d.headers, other)} ::
              Values(d.headers, other) == if NamedIn(other, STRIPPED) then [] else Values(request.headers, other)
  {
    match request.urlParam
    case None => Respond(Plain(400, MISSING_URL))
    case Some(target) =>
      match parse(target)
      case ParseError(message) => Respond(Plain(500, ErrorText(message)))
      case ParsedUrl(url) =>
        if !allowed(url.hostname) then Respond(Plain(403, NOT_ALLOWED))
        else if !IsHttp(url) then Respond(Plain(400, INVALID_SCHEME))
        else if request.verb == "OPTIONS" then Respond(Response(204, "", NoBody, CORS_HEADERS))
        else if request.verb != "GET" && request.verb != "POST" then Respond(Plain(405, METHOD_NOT_ALLOWED))
        else Forward(target, request.verb, ForwardedHeaders(request.headers),
                     request.verb != "GET" && request.verb != "HEAD")
  }

  /** The worker as written. */
  function Fetch(request: Request, parse: string -> Parsed): Decision {
    Decide(request, parse, HostAllowed)
  }

  /** The worker with the intended host test. */
  function FetchStrict(request: Request, parse: string -> Parsed): Decision {
    Decide(request, parse, HostAllowedStrict)
  }

  /** The host is checked before the scheme: a URL on a host that is not
      allowed is refused with 403 whatever its scheme, and a non-HTTP URL on
      an allowed host with 400. */
  lemma HostBeforeScheme(request: Request, parse: string -> Parsed, allowed: string -> bool)
    requires request.urlParam.Some? && parse(request.urlParam.value).ParsedUrl?
    requires !IsHttp(parse(request.urlParam.value).url)
    ensures Decide(request, parse, allowed).response.status ==
              if allowed(parse(request.urlParam.value).url.hostname) then 400 else 403
  {
  }

  /** Every host the intended test admits, the written one admits too. */
  lemma StrictIsNarrower(hostname: string)
    ensures HostAllowedStrict(hostname) ==> HostAllowed(hostname)
  {
    if HostAllowedStrict(hostname) {
      var k :| 0 <= k < |ALLOWED_HOSTS| &&
        (hostname == ALLOWED_HOSTS[k] || Text.EndsWith(hostname, "." + ALLOWED_HOSTS[k]));
      if hostname != ALLOWED_HOSTS[k] {
        var a := ALLOWED_HOSTS[k];
        assert hostname[|hostname| - |a|..] == ("." + a)[1..] == a;
      }
    }
  }

  /** The intended test admits every allowed host and all of its
      subdomains. */
  lemma StrictAdmitsSubdomains(sub: string, k: nat)
    requires k < |ALLOWED_HOSTS|
    ensures HostAllowedStrict(ALLOWED_HOSTS[k])
    ensures HostAllowedStrict(sub + "." + ALLOWED_HOSTS[k])
  {
    var h := sub + "." + ALLOWED_HOSTS[k];
    assert h[|h| - |"." + ALLOWED_HOSTS[k]|..] == "." + ALLOWED_HOSTS[k];
  }

  const LOOKALIKE_TARGET: string := "https://evilgithub.com/"
  const LOOKALIKE_HOST: string := "evilgithub.com"

  /** A host that merely ends with "github.com" gets through the written
      test, and the request is forwarded; the intended test refuses it. */
  lemma LookalikeHostForwarded(parse: string -> Parsed)
    requires parse(LOOKALIKE_TARGET) == ParsedUrl(Url(LOOKALIKE_HOST, "https:"))
    ensures Fetch(Request(Some(LOOKALIKE_TARGET), "GET", []), parse).Forward?
    ensures FetchStrict(Request(Some(LOOKALIKE_TARGET), "GET", []), parse) == Respond(Plain(403, NOT_ALLOWED))
  {
    assert Text.EndsWith(LOOKALIKE_HOST, ALLOWED_HOSTS[1]);
    forall k | 0 <= k < |ALLOWED_HOSTS|
      ensures LOOKALIKE_HOST != ALLOWED_HOSTS[k] && !Text.EndsWith(LOOKALIKE_HOST, "." + ALLOWED_HOSTS[k])
    {
      var s := "." + ALLOWED_HOSTS[k];
      if |s| <= |LOOKALIKE_HOST| {
        assert LOOKALIKE_HOST[|LOOKALIKE_HOST| - |s|] != s[0];
      }
    }
  }
}

=== FILE: file_api.dfy ===
/** The host-side file API: releasing a file from the WebAssembly file manager,
    the file type discriminants, and the `File` constructor's validation chain,
    which decides whether a SED-ML document and an instance get created and
    what issues the file reports.

    The engine is not modelled: the file's own issues, the document the engine
    builds for it (as the handful of values the chain reads) and the
    instance's issues are parameters, and so is the printing of a time value
    (`String(number)` on a double). */
module FileApi {
  import opened Wrappers
  import opened Logger
  import Text
  import NativeCommon

  /** Index of the first file named `path` in the manager's file list. */
  function FirstNamed(names: seq<string>, path: string): (r: Option<nat>)
    ensures r.Some? ==> r.value < |names| && names[r.value] == path
    ensures r.Some? ==> forall j :: 0 <= j < r.value ==> names[j] != path
    ensures r.None? ==> path !in names
    decreases |names|
  {
    if |names| == 0 then None
    else if names[0] == path then Some(0)
    else match FirstNamed(names[1..], path)
      case None => None
      case Some(k) => Some(k + 1)
  }

  /** `FileManager.unmanage` on the WebAssembly path: walk the manager's files
      by index and release the first one whose `fileName` is `path`, then
      stop; with no such file nothing changes. Later files with the same name
      stay managed. */
  method Unmanage(names: seq<string>, path: string) returns (r: seq<string>)
    ensures FirstNamed(names, path).None? ==> r == names
    ensures FirstNamed(names, path).Some? ==>
              var i := FirstNamed(names, path).value;
              |r| == |names| - 1 && r[..i] == names[..i] && r[i..] == names[i + 1..]
  {
    r := names;
    var i := 0;
    while i < |names|
      invariant 0 <= i <= |names|
      invariant forall j :: 0 <= j < i ==> names[j] != path
      invariant r == names
    {
      if names[i] == path {
        r := names[..i] + names[i + 1..];
        return;
      }
      i := i + 1;
    }
  }

  /** `EFileType`. */
  datatype FileType = UnknownFile | CellmlFile | SedmlFile | CombineArchive | IrretrievableFile {

    function Value(): nat {
      match this
      case UnknownFile => 0
      case CellmlFile => 1
      case SedmlFile => 2
      case CombineArchive => 3
      case IrretrievableFile => 4
    }
  }

  /** The file type carrying discriminant `n`, if any. */
  function FileTypeFromValue(n: int): (r: Option<FileType>)
    ensures r.Some? <==> 0 <= n <= 4
    ensures r.Some? ==> r.value.Value() == n
  {
    if n == 0 then Some(UnknownFile)
    else if n == 1 then Some(CellmlFile)
    else if n == 2 then Some(SedmlFile)
    else if n == 3 then Some(CombineArchive)
    else if n == 4 then Some(IrretrievableFile)
    else None
  }

  /** Which engine the host talks to. */
  datatype Backend = Native | Wasm

  /** The values of the uniform time course simulation the chain reads. */
  datatype TimeCourse = TimeCourse(initialTime: real, outputStartTime: real, outputEndTime: real,
                                   numberOfSteps: int)

  /** What the chain reads from the SED-ML document built for the file: its
      issues, its model and simulation counts, the kind of simulation 0 and,
      when that is a uniform time course, its values. */
  datatype DocumentView = DocumentView(issues: seq<Issue>, modelCount: int, simulationCount: int,
                                       firstSimulationKind: int, timeCourse: TimeCourse)

  /** The constructed `File`: its issues, the document if one was created, and
      whether an instance was created. */
  datatype Construction = Construction(issues: seq<Issue>, document: Option<DocumentView>, instantiated: bool)

  const UNIFORM_TIME_COURSE: int := 3

  const ONE_MODEL_MESSAGE: string := "Only SED-ML files with one model are currently supported."
  const ONE_SIMULATION_MESSAGE: string := "Only SED-ML files with one simulation are currently supported."
  const UNIFORM_TIME_COURSE_MESSAGE: string := "Only uniform time course simulations are currently supported."

  const INITIAL_TIME_PREFIX: string := "Only uniform time course simulations with the same values for 'initialTime' ("
  const INITIAL_TIME_MIDDLE: string := ") and 'outputStartTime' ("
  const INITIAL_TIME_SUFFIX: string := ") are currently supported."
  const OUTPUT_TIMES_PREFIX: string := "The uniform time course simulation must have different values for 'outputStartTime' ("
  const OUTPUT_TIMES_MIDDLE: string := ") and 'outputEndTime' ("
  const OUTPUT_TIMES_SUFFIX: string := ")."
  const NUMBER_OF_STEPS_PREFIX: string := "The uniform time course simulation must have a positive value for 'numberOfSteps' ("
  const NUMBER_OF_STEPS_SUFFIX: string := ")."

  function InitialTimeMessage(t: TimeCourse, show: real -> string): string {
    INITIAL_TIME_PREFIX + show(t.initialTime) + INITIAL_TIME_MIDDLE + show(t.outputStartTime) + INITIAL_TIME_SUFFIX
  }

  function OutputTimesMessage(t: TimeCourse, show: real -> string): string {
    OUTPUT_TIMES_PREFIX + show(t.outputStartTime) + OUTPUT_TIMES_MIDDLE + show(t.outputEndTime) + OUTPUT_TIMES_SUFFIX
  }

  function NumberOfStepsMessage(t: TimeCourse): string {
    NUMBER_OF_STEPS_PREFIX + Text.IntToString(t.numberOfSteps) + NUMBER_OF_STEPS_SUFFIX
  }

  /** The three time checks, which all run: a warning when the initial time is
      not the output start time, an error when the output start and end times
      coincide, an error when the number of steps is not positive. */
  function TimeIssues(t: TimeCourse, show: real -> string): (r: seq<Issue>)
    ensures |r| == (if t.initialTime != t.outputStartTime then 1 else 0)
                 + (if t.outputStartTime == t.outputEndTime then 1 else 0)
                 + (if t.numberOfSteps <= 0 then 1 else 0)
    ensures t.initialTime != t.outputStartTime ==> r[0] == Issue(Warning, InitialTimeMessage(t, show))
    ensures forall i :: 0 <= i < |r| && (i > 0 || t.initialTime == t.outputStartTime) ==> r[i].kind == Error
    ensures t.numberOfSteps <= 0 ==> r[|r| - 1] == Issue(Error, NumberOfStepsMessage(t))
  {
    var warnings := if t.initialTime != t.outputStartTime then [Issue(Warning, InitialTimeMessage(t, show))] else [];
    var errors := (if t.outputStartTime == t.outputEndTime then [Issue(Error, OutputTimesMessage(t, show))] else [])
                  + (if t.numberOfSteps <= 0 then [Issue(Error, NumberOfStepsMessage(t))] else []);
    assert forall i :: 0 <= i < |errors| ==> errors[i].kind == Error;
    warnings + errors
  }

  /** The document shape the host supports: one model, one simulation, and
      that simulation a uniform time course. */
  predicate SupportedShape(d: DocumentView) {
    d.modelCount == 1 && d.simulationCount == 1 && d.firstSimulationKind == UNIFORM_TIME_COURSE
  }

  /** The `File` constructor. Without contents on the WebAssembly path it
      gives up at once. Otherwise each stage runs only if the previous one
      left no issue: the file's issues, then the document's, then the shape
      checks (each failure adds one warning and stops), then the three time
      checks (which accumulate), and finally the instance, whose issues become
      the file's. */
  method NewFile(backend: Backend, contents: Option<seq<NativeCommon.byte>>, fileIssues: seq<Issue>,
                 document: DocumentView, instanceIssues: seq<Issue>, show: real -> string)
    returns (r: Construction)
    ensures backend == Wasm && contents.None? ==> r == Construction([], None, false)
    ensures !(backend == Wasm && contents.None?) && fileIssues != [] ==>
              r == Construction(fileIssues, None, false)
    ensures !(backend == Wasm && contents.None?) && fileIssues == [] ==> r.document == Some(document)
    ensures r.document.Some? && document.issues != [] ==> r.issues == document.issues && !r.instantiated
    ensures r.document.Some? && document.issues == [] && document.modelCount != 1 ==>
              r.issues == [Issue(Warning, ONE_MODEL_MESSAGE)]
    ensures r.document.Some? && document.issues == [] && document.modelCount == 1
              && document.simulationCount != 1 ==>
              r.issues == [Issue(Warning, ONE_SIMULATION_MESSAGE)]
    ensures r.document.Some? && document.issues == [] && document.modelCount == 1
              && document.simulationCount == 1 && document.firstSimulationKind != UNIFORM_TIME_COURSE ==>
              r.issues == [Issue(Warning, UNIFORM_TIME_COURSE_MESSAGE)]
    ensures r.document.Some? && document.issues == [] && SupportedShape(document)
              && !r.instantiated ==>
              r.issues == TimeIssues(document.timeCourse, show) && r.issues != []
    ensures r.instantiated <==>
              !(backend == Wasm && contents.None?) && fileIssues == [] && document.issues == []
              && SupportedShape(document) && TimeIssues(document.timeCourse, show) == []
    ensures r.instantiated ==> r.issues == instanceIssues && r.document == Some(document)
  {
    if backend == Wasm && contents.None? {
      return Construction([], None, false);
    }
    var issues := fileIssues;
    if |issues| != 0 {
      return Construction(issues, None, false);
    }
    issues := document.issues;
    if |issues| != 0 {
      return Construction(issues, Some(document), false);
    }
    if document.modelCount != 1 {
      return Construction(issues + [Issue(Warning, ONE_MODEL_MESSAGE)], Some(document), false);
    }
    if document.simulationCount != 1 {
      return Construction(issues + [Issue(Warning, ONE_SIMULATION_MESSAGE)], Some(document), false);
    }
    if document.firstSimulationKind != UNIFORM_TIME_COURSE {
      return Construction(issues + [Issue(Warning, UNIFORM_TIME_COURSE_MESSAGE)], Some(document), false);
    }
    var t := document.timeCourse;
    if t.initialTime != t.outputStartTime {
      issues := issues + [Issue(Warning, InitialTimeMessage(t, show))];
    }
    if t.outputStartTime == t.outputEndTime {
      issues := issues + [Issue(Error, OutputTimesMessage(t, show))];
    }
    if t.numberOfSteps <= 0 {
      issues := issues + [Issue(Error, NumberOfStepsMessage(t))];
    }
    if |issues| != 0 {
      return Construction(issues, Some(document), false);
    }
    return Construction(instanceIssues, Some(document), true);
  }
}

=== FILE: json.dfy ===
/** JSON values as the UI JSON validators see them, and the renderer's
    recursive cleaning of a UI JSON document: every `null`, `undefined` and
    empty-string value is dropped, at any depth, from arrays (the remaining
    elements keeping their order) and from objects (the remaining entries
    keeping theirs). */
module Json {

  /** A JavaScript value read from JSON; `JUndefined` stands for a value that
      is not there. Object entries are kept in insertion order. */
  datatype Json =
    | JUndefined
    | JNull
    | JBool(b: bool)
    | JNum(n: real)
    | JStr(s: string)
    | JArr(items: seq<Json>)
    | JObj(entries: seq<Member>)

  /** An object entry. */
  datatype Member = Member(key: string, value: Json)

  /** The values `cleanUiJson` drops. */
  predicate Removable(j: Json) {
    j.JUndefined? || j.JNull? || (j.JStr? && j.s == "")
  }

  /** The values JavaScript treats as false in `if (!value)`; a NaN number is
      not modelled. */
  predicate Falsy(j: Json) {
    j.JUndefined? || j.JNull? || j == JBool(false) || j == JNum(0.0) || j == JStr("")
  }

  /** No removable value anywhere inside `j`: every array element and every
      object entry's value is itself not removable and clean. */
  predicate Clean(j: Json)
    decreases j
  {
    match j
    case JArr(items) => forall i :: 0 <= i < |items| ==> !Removable(items[i]) && Clean(items[i])
    case JObj(entries) =>
      forall i :: 0 <= i < |entries| ==> !Removable(entries[i].value) && Clean(entries[i].value)
    case _ => true
  }

  /** The array elements that are there, in their order. */
  function Defined(items: seq<Json>): (r: seq<Json>)
    ensures forall i :: 0 <= i < |r| ==> !r[i].JUndefined?
    ensures forall x :: x in r <==> x in items && !x.JUndefined?
    ensures |r| <= |items|
    decreases |items|
  {
    if |items| == 0 then []
    else Defined(items[..|items| - 1])
         + (if items[|items| - 1].JUndefined? then [] else [items[|items| - 1]])
  }

  /** Filtering keeps the order: filtering two halves and concatenating is
      filtering the whole. */
  lemma {:induction false} DefinedAppend(a: seq<Json>, b: seq<Json>)
    ensures Defined(a + b) == Defined(a) + Defined(b)
    decreases |b|
  {
    if |b| == 0 {
      assert a + b == a;
    } else {
      assert (a + b)[..|a + b| - 1] == a + b[..|b| - 1];
      DefinedAppend(a, b[..|b| - 1]);
    }
  }

  /** `cleanUiJsonRec`: a removable value becomes undefined; an array keeps its
      cleaned elements that are not undefined; an object keeps its entries
      whose cleaned value is not undefined; any other value is returned as
      is. */
  function CleanValue(j: Json): (r: Json)
    ensures Removable(j) <==> r.JUndefined?
    ensures !r.JUndefined? ==> !Removable(r) && Clean(r)
    ensures !Removable(j) && !j.JArr? && !j.JObj? ==> r == j
    ensures j.JArr? ==> r.JArr? && |r.items| <= |j.items|
    ensures j.JObj? ==> r.JObj? && |r.entries| <= |j.entries|
    decreases j, 1
  {
    if Removable(j) then JUndefined
    else match j
      case JArr(items) => JArr(CleanArray(items))
      case JObj(entries) => JObj(CleanEntries(entries))
      case _ => j
  }

  /** `items.map(cleanUiJsonRec).filter(...)`: the cleaned elements that are
      not undefined, in order. */
  function CleanArray(items: seq<Json>): (r: seq<Json>)
    ensures |r| <= |items|
    ensures forall i :: 0 <= i < |r| ==> !Removable(r[i]) && Clean(r[i])
    decreases items, 1
  {
    Defined(CleanItems(items))
  }

  /** `items.map(cleanUiJsonRec)`. */
  function CleanItems(items: seq<Json>): (r: seq<Json>)
    ensures |r| == |items|
    ensures forall i :: 0 <= i < |r| ==> (Removable(items[i]) <==> r[i].JUndefined?)
    ensures forall i :: 0 <= i < |r| ==> r[i].JUndefined? || (!Removable(r[i]) && Clean(r[i]))
    decreases items, 0
  {
    if |items| == 0 then []
    else CleanItems(items[..|items| - 1]) + [CleanValue(items[|items| - 1])]
  }

  /** The loop over `Object.entries`: each entry whose cleaned value is not
      undefined is copied, in order. */
  function CleanEntries(entries: seq<Member>): (r: seq<Member>)
    ensures forall i :: 0 <= i < |r| ==> !Removable(r[i].value) && Clean(r[i].value)
    ensures |r| <= |entries|
    decreases entries, 0
  {
    if |entries| == 0 then []
    else
      var last := entries[|entries| - 1];
      var cleaned := CleanValue(last.value);
      CleanEntries(entries[..|entries| - 1]) + (if cleaned.JUndefined? then [] else [Member(last.key, cleaned)])
  }

  /** Cleaning a value that is already clean changes nothing. */
  lemma {:induction false} CleanValueOfClean(j: Json)
    requires !Removable(j) && Clean(j)
    ensures CleanValue(j) == j
    decreases j, 1
  {
    match j
    case JArr(items) =>
      CleanItemsOfClean(items);
      DefinedOfDefined(items);
    case JObj(entries) =>
      CleanEntriesOfClean(entries);
    case _ =>
  }

  lemma {:induction false} CleanItemsOfClean(items: seq<Json>)
    requires forall i :: 0 <= i < |items| ==> !Removable(items[i]) && Clean(items[i])
    ensures CleanItems(items) == items
    decreases items, 0
  {
    if |items| > 0 {
      var init := items[..|items| - 1];
      CleanItemsOfClean(init);
      CleanValueOfClean(items[|items| - 1]);
      assert init + [items[|items| - 1]] == items;
    }
  }

  lemma {:induction false} CleanEntriesOfClean(entries: seq<Member>)
    requires forall i :: 0 <= i < |entries| ==> !Removable(entries[i].value) && Clean(entries[i].value)
    ensures CleanEntries(entries) == entries
    decreases entries, 0
  {
    if |entries| > 0 {
      var init := entries[..|entries| - 1];
      CleanEntriesOfClean(init);
      CleanValueOfClean(entries[|entries| - 1].value);
      assert init + [entries[|entries| - 1]] == entries;
    }
  }

  lemma {:induction false} DefinedOfDefined(items: seq<Json>)
    requires forall i :: 0 <= i < |items| ==> !items[i].JUndefined?
    ensures Defined(items) == items
    decreases |items|
  {
    if |items| > 0 {
      DefinedOfDefined(items[..|items| - 1]);
      assert items[..|items| - 1] + [items[|items| - 1]] == items;
    }
  }

  /** Cleaning is idempotent. */
  lemma {:induction false} CleanValueIdempotent(j: Json)
    ensures CleanValue(CleanValue(j)) == CleanValue(j)
  {
    var r := CleanValue(j);
    if !r.JUndefined? {
      CleanValueOfClean(r);
    }
  }

  lemma {:induction false} CleanItemsAppend(a: seq<Json>, b: seq<Json>)
    ensures CleanItems(a + b) == CleanItems(a) + CleanItems(b)
    decreases |b|
  {
    if |b| == 0 {
      assert a + b == a;
    } else {
      assert (a + b)[..|a + b| - 1] == a + b[..|b| - 1];
      CleanItemsAppend(a, b[..|b| - 1]);
    }
  }

  /** The same for the entries of an object. */
  lemma {:induction false} CleanObjectKeepsOrder(a: seq<Member>, b: seq<Member>)
    ensures CleanEntries(a + b) == CleanEntries(a) + CleanEntries(b)
    decreases |b|
  {
    if |b| == 0 {
      assert a + b == a;
    } else {
      assert (a + b)[..|a + b| - 1] == a + b[..|b| - 1];
      CleanObjectKeepsOrder(a, b[..|b| - 1]);
    }
  }

  /** Cleaning keeps the order of what it keeps: cleaning an array made of
      two parts gives the cleaned first part followed by the cleaned second
      part. */
  lemma {:induction false} CleanArrayKeepsOrder(a: seq<Json>, b: seq<Json>)
    ensures CleanArray(a + b) == CleanArray(a) + CleanArray(b)
  {
    CleanItemsAppend(a, b);
    DefinedAppend(CleanItems(a), CleanItems(b));
  }

  /** Whether an object has an entry with the given key (`key in object`). */
  predicate HasKey(entries: seq<Member>, key: string) {
    exists i :: 0 <= i < |entries| && entries[i].key == key
  }

  /** Whether an object has an entry with the given key whose value cleaning
      does not drop. */
  predicate HasKept(entries: seq<Member>, key: string) {
    exists i :: 0 <= i < |entries| && entries[i].key == key && !Removable(entries[i].value)
  }

  /** Cleaning an object keeps exactly the keys whose value is not removable. */
  lemma {:induction false} CleanEntriesKeys(entries: seq<Member>, key: string)
    ensures HasKey(CleanEntries(entries), key) <==> HasKept(entries, key)
    decreases |entries|
  {
    if |entries| > 0 {
      var init, last := entries[..|entries| - 1], entries[|entries| - 1];
      CleanEntriesKeys(init, key);
      var tail := if CleanValue(last.value).JUndefined? then [] else [Member(last.key, CleanValue(last.value))];
      assert CleanEntries(entries) == CleanEntries(init) + tail;
      HasKeyAppend(CleanEntries(init), tail, key);
      HasKeptLast(entries, key);
      if tail != [] {
        assert HasKey(tail, key) <==> tail[0].key == key;
      }
    }
  }

  lemma HasKeyAppend(a: seq<Member>, b: seq<Member>, key: string)
    ensures HasKey(a + b, key) <==> HasKey(a, key) || HasKey(b, key)
  {
    if HasKey(a + b, key) {
      var i :| 0 <= i < |a + b| && (a + b)[i].key == key;
      if i >= |a| {
        assert b[i - |a|] == (a + b)[i];
      }
    }
    if HasKey(a, key) {
      var i :| 0 <= i < |a| && a[i].key == key;
      assert (a + b)[i] == a[i];
    }
    if HasKey(b, key) {
      var i :| 0 <= i < |b| && b[i].key == key;
      assert (a + b)[|a| + i] == b[i];
    }
  }

  lemma HasKeptLast(entries: seq<Member>, key: string)
    requires |entries| > 0
    ensures var init, last := entries[..|entries| - 1], entries[|entries| - 1];
            HasKept(entries, key) <==> HasKept(init, key) || (last.key == key && !Removable(last.value))
  {
    var init := entries[..|entries| - 1];
    if HasKept(entries, key) {
      var i :| 0 <= i < |entries| && entries[i].key == key && !Removable(entries[i].value);
      if i < |init| {
        assert init[i] == entries[i];
      }
    }
    if HasKept(init, key) {
      var i :| 0 <= i < |init| && init[i].key == key && !Removable(init[i].value);
      assert entries[i] == init[i];
    }
  }

  /** `isScalarInput`: the input has both a maximum and a minimum value. */
  predicate IsScalarInput(entries: seq<Member>) {
    HasKey(entries, "maximumValue") && HasKey(entries, "minimumValue")
  }

  /** `isDiscreteInput`: the input has possible values. */
  predicate IsDiscreteInput(entries: seq<Member>) {
    HasKey(entries, "possibleValues")
  }

  /** After cleaning, an input counts as scalar exactly when its maximum and
      minimum values were there and were neither `null` nor empty, and as
      discrete exactly when its possible values were. */
  lemma {:induction false} CleanedInputKind(entries: seq<Member>)
    ensures IsScalarInput(CleanEntries(entries)) <==>
              HasKept(entries, "maximumValue") && HasKept(entries, "minimumValue")
    ensures IsDiscreteInput(CleanEntries(entries)) <==> HasKept(entries, "possibleValues")
  {
    CleanEntriesKeys(entries, "maximumValue");
    CleanEntriesKeys(entries, "minimumValue");
    CleanEntriesKeys(entries, "possibleValues");
  }
}

=== FILE: legacy_common.dfy ===
/** The main process's older helpers: duration formatting (whose days step is
    guarded by a condition the renderer's version drops) and issue formatting. */
module LegacyCommon {
  import Text
  import Common

  /** `formatTime` as written in the older helper: the days piece is printed
      when the days are non-zero, or when a later unit is non-zero and
      something was already printed, which at that point nothing has been. */
  function FormatTime(time: nat): string {
    var u := Common.Units(time);
    var d, h, m, s, ms := u[0], u[1], u[2], u[3], u[4];
    var r1 := Common.Step("", d != 0 || ((h != 0 || m != 0 || s != 0 || ms != 0) && "" != ""), Common.Piece(u, 0));
    var r2 := Common.Step(r1, h != 0 || ((m != 0 || s != 0 || ms != 0) && r1 != ""), Common.Piece(u, 1));
    var r3 := Common.Step(r2, m != 0 || ((s != 0 || ms != 0) && r2 != ""), Common.Piece(u, 2));
    var r4 := Common.Step(r3, s != 0 || (ms != 0 && r3 != ""), Common.Piece(u, 3));
    Common.Step(r4, ms != 0 || r4 == "", Common.Piece(u, 4))
  }

  /** The older `formatTime` prints what the renderer's prints, so it too
      lists the units from the most significant non-zero one to the least
      significant non-zero one, and "0ms" for zero. */
  lemma {:induction false} FormatTimeAgreesWithRenderer(time: nat)
    ensures FormatTime(time) == Common.FormatTime(time)
    ensures FormatTime(time) == Common.FormatTimeReference(time)
  {
    Common.FormatTimeMatchesReference(time);
  }

  /** `formatIssue`: capitalise the first character and make sure the text
      ends with a ".". */
  function FormatIssue(issue: string): (r: string)
    ensures Text.EndsWith(r, ".")
    ensures |r| > 0 && Text.UpperChar(r[0]) == r[0]
    ensures r == Text.Capitalise(issue) || r == Text.Capitalise(issue) + "."
    ensures r == Text.Capitalise(issue) <==> Text.EndsWith(issue, ".")
  {
    var capitalised := Text.Capitalise(issue);
    if Text.EndsWith(capitalised, ".") then capitalised else capitalised + "."
  }

  /** Formatting an issue twice is formatting it once. */
  lemma {:induction false} FormatIssueIdempotent(issue: string)
    ensures FormatIssue(FormatIssue(issue)) == FormatIssue(issue)
  {
    var r := FormatIssue(issue);
    Text.CapitaliseFixed(r);
    assert Text.EndsWith(Text.Capitalise(r), ".");
  }
}

=== FILE: legacy_native_file.dfy ===
/** The earlier native add-on's file API, which keeps files alive in a vector
    (so the same path can be tracked twice) and tracks each file's SED-ML
    document in a map keyed by file. The bodies of `untrackFile` and
    `untrackSedDocument` are not part of this model; they are read as "drop
    every tracked occurrence of the file" and "erase the file's document". */
module LegacyNativeFile {
  import opened Wrappers
  import opened NativeCommon

  datatype LegacyState = LegacyState(
    managed: seq<NativeFile>,
    trackedFiles: seq<NativeFile>,
    trackedSedDocuments: map<FileRef, SedDocument>)

  /** The tracked files other than `file`, in their original order. */
  function UntrackFile(tracked: seq<NativeFile>, file: NativeFile): (r: seq<NativeFile>)
    ensures file !in r
    ensures forall f :: f in tracked && f != file ==> f in r
    ensures forall f :: f in r ==> f in tracked
    decreases |tracked|
  {
    if |tracked| == 0 then []
    else if tracked[0] == file then UntrackFile(tracked[1..], file)
    else [tracked[0]] + UntrackFile(tracked[1..], file)
  }

  /** The state after the unmanage step of a matched file. */
  function Released(st: LegacyState, i: nat): (r: LegacyState)
    requires i < |st.managed|
  {
    var file := st.managed[i];
    LegacyState(st.managed[..i] + st.managed[i + 1..],
                UntrackFile(st.trackedFiles, file),
                st.trackedSedDocuments - {file.ref})
  }

  /** `fileManagerUnmanage`: at the first managed file with the path, untrack
      the file and its document, then release it from the manager and stop.
      With no match nothing is untracked or released. */
  method FileManagerUnmanage(st: LegacyState, path: string) returns (r: LegacyState)
    ensures FirstPathMatch(st.managed, path).None? ==> r == st
    ensures FirstPathMatch(st.managed, path).Some? ==>
              var file := st.managed[FirstPathMatch(st.managed, path).value];
              && file !in r.trackedFiles
              && (forall f :: f in st.trackedFiles && f != file ==> f in r.trackedFiles)
              && (forall f :: f in r.trackedFiles ==> f in st.trackedFiles)
              && file.ref !in r.trackedSedDocuments
              && r.managed == st.managed[..FirstPathMatch(st.managed, path).value]
                              + st.managed[FirstPathMatch(st.managed, path).value + 1..]
              && (forall k :: k in st.trackedSedDocuments && k != file.ref ==>
                    k in r.trackedSedDocuments && r.trackedSedDocuments[k] == st.trackedSedDocuments[k])
  {
    var files := st.managed;
    r := st;
    var i := 0;
    while i < |files|
      invariant 0 <= i <= |files|
      invariant forall j :: 0 <= j < i ==> files[j].path != path
      invariant r == st
    {
      if files[i].path == path {
        r := Released(st, i);
        return;
      }
      i := i + 1;
    }
  }

  /** `fileCreate`: the (possibly filled) file is appended to the tracked
      vector, whatever is already tracked for the same path. */
  function FileCreate(st: LegacyState, created: NativeFile, contents: Option<seq<byte>>): (r: LegacyState)
    ensures |r.trackedFiles| == |st.trackedFiles| + 1
    ensures r.trackedFiles[..|st.trackedFiles|] == st.trackedFiles
    ensures contents.Some? ==> r.trackedFiles[|st.trackedFiles|] == created.(contents := contents.value)
    ensures contents.None? ==> r.trackedFiles[|st.trackedFiles|] == created
    ensures r.trackedSedDocuments == st.trackedSedDocuments
    ensures r.managed == st.managed + [r.trackedFiles[|st.trackedFiles|]]
  {
    var file := match contents
      case Some(bytes) => created.(contents := bytes)
      case None => created;
    st.(managed := st.managed + [file], trackedFiles := st.trackedFiles + [file])
  }

  /** Creating the same path twice leaves two tracked entries for it. */
  lemma {:induction false} CreateTwiceTracksTwice(st: LegacyState, a: NativeFile, b: NativeFile)
    requires a.path == b.path
    ensures var r := FileCreate(FileCreate(st, a, None), b, None);
            |r.trackedFiles| == |st.trackedFiles| + 2
            && r.trackedFiles[|st.trackedFiles|].path == a.path
            && r.trackedFiles[|st.trackedFiles| + 1].path == a.path
  {
    var first := FileCreate(st, a, None);
    assert first.trackedFiles[|st.trackedFiles|] == a;
    var second := FileCreate(first, b, None);
    assert second.trackedFiles[..|first.trackedFiles|] == first.trackedFiles;
    assert second.trackedFiles[|st.trackedFiles|] == first.trackedFiles[|st.trackedFiles|];
  }
}

=== FILE: legacy_ui_json_api.dfy ===
/** The main process's older `uiJsonIssues`: only an undefined UI JSON counts
    as missing; the document is not cleaned before the schema check; the
    schema report's lines are formatted with `formatIssue`; and the semantic
    checks are the main process's flavour.

    As for the renderer, the JSON schema validator is a parameter. */
module LegacyUiJsonApi {
  import opened Logger
  import Text
  import Json
  import LegacyCommon
  import opened UiJsonChecks

  /** `common.formatIssue(line)`. */
  function SentenceForm(line: string): string {
    LegacyCommon.FormatIssue(line)
  }

  /** `uiJsonIssues`. */
  method UiJsonIssues(uiJson: Json.Json, schema: Json.Json -> SchemaVerdict, show: real -> string)
    returns (issues: seq<Issue>)
    ensures uiJson.JUndefined? ==> issues == [Issue(Warning, NO_UI_JSON)]
    ensures AllWarnings(issues)
    ensures !uiJson.JUndefined? ==>
              match schema(uiJson)
              case Invalid(report) => issues == SchemaWarnings(Text.Split(report, '\n'), SentenceForm)
              case Valid(doc) => issues == Warnings(DocumentFindings(MainProcess, doc), show)
  {
    if uiJson.JUndefined? {
      return [Issue(Warning, NO_UI_JSON)];
    }
    match schema(uiJson)
    case Invalid(report) =>
      issues := SchemaWarnings(Text.Split(report, '\n'), SentenceForm);
    case Valid(doc) =>
      var findings := CheckDocument(MainProcess, doc);
      issues := Warnings(findings, show);
  }
}

=== FILE: loc_common.dfy ===
/** The renderer's file helpers: recognising a base64 data URL that carries a
    ZIP file, choosing the path a file is opened under, and looking simulation
    data up by name in an instance task.

    The base64 decoder (`atob`), the hash of file contents (`sha256`) and the
    desktop bridge's path lookup are parameters; the instance task is the
    handful of name lists and series it exposes. */
module LocCommon {
  import opened Wrappers
  import Text
  import Common
  import NativeCommon
  import FileApi

  /** What a file is opened from: a path or URL, raw contents, or a browser
      `File` (its name, and the path the desktop bridge reports for it). */
  datatype FileSource =
    | FromPath(path: string)
    | FromContents(contents: seq<NativeCommon.byte>)
    | FromFile(name: string, desktopPath: string)

  /** `IDataUriInfo`: not a data URL of the MIME type (`res: false`), a data
      URL whose contents are unusable (`res: true` with an error), or a data
      URL with its decoded contents (`res: true` with data). */
  datatype DataUriInfo =
    | NotDataUrl
    | DataUrlError(error: string)
    | DataUrlData(data: seq<NativeCommon.byte>)

  /** What `atob` gives: the decoded binary string, or the message of the
      exception it throws. */
  datatype Decoded = Decoded(text: string) | DecodeFailed(message: string)

  /** The four bytes a ZIP file starts with: "PK", ETX, EOT. */
  const ZIP_MAGIC: seq<NativeCommon.byte> := [0x50, 0x4b, 0x03, 0x04]

  const INVALID_BASE64_PREFIX: string := "The data URL contains invalid Base64 encoding ("
  const INVALID_BASE64_SUFFIX: string := ")."
  const NOT_ZIP_PREFIX: string := "The data URL of MIME type "
  const NOT_ZIP_SUFFIX: string := " does not contain a ZIP file."
  const COMBINE_ARCHIVE_MIME_TYPE: string := "application/zip"

  /** `data:<mimeType>;base64,`. */
  function DataUrlPrefix(mimeType: string): string {
    "data:" + mimeType + ";base64,"
  }

  /** `Uint8Array.from(text, (c) => c.charCodeAt(0))`: each UTF-16 code unit,
      truncated to its low eight bits. */
  function Bytes(text: string): (bytes: seq<NativeCommon.byte>)
    ensures |bytes| == |text|
    ensures forall i :: 0 <= i < |text| ==> bytes[i] as int == text[i] as int % 256
  {
    seq(|text|, i requires 0 <= i < |text| => (text[i] as int % 256) as NativeCommon.byte)
  }

  /** Whether `data` starts with the ZIP magic bytes. */
  predicate IsZip(data: seq<NativeCommon.byte>) {
    |data| >= 4 && data[..4] == ZIP_MAGIC
  }

  /** `zipDataFromDataUrl`: only text can be a data URL; it must start with
      the data URL prefix of the MIME type, possibly after a `#`; the rest must
      decode as base64; and the decoded bytes must start like a ZIP file. */
  function ZipDataFromDataUrl(source: FileSource, mimeType: string, atob: string -> Decoded): (r: DataUriInfo)
    ensures !source.FromPath? ==> r == NotDataUrl
    ensures source.FromPath? ==>
              (r != NotDataUrl <==>
                 Text.StartsWith(source.path, "#" + DataUrlPrefix(mimeType))
                 || Text.StartsWith(source.path, DataUrlPrefix(mimeType)))
    ensures r.DataUrlData? ==> IsZip(r.data)
  {
    match source
    case FromPath(dataUrl) =>
      var prefix := DataUrlPrefix(mimeType);
      if !(Text.StartsWith(dataUrl, "#" + prefix) || Text.StartsWith(dataUrl, prefix)) then NotDataUrl
      else
        (match atob(Payload(dataUrl, mimeType))
         case DecodeFailed(message) =>
           DataUrlError(INVALID_BASE64_PREFIX + Common.FormatMessage(message, false) + INVALID_BASE64_SUFFIX)
         case Decoded(text) =>
           var data := Bytes(text);
           if !IsZip(data) then DataUrlError(NOT_ZIP_PREFIX + mimeType + NOT_ZIP_SUFFIX)
           else DataUrlData(data))
    case FromContents(_) => NotDataUrl
    case FromFile(_, _) => NotDataUrl
  }

  /** The base64 text of a data URL that starts with the prefix of the MIME
      type, possibly after a `#`. */
  function Payload(dataUrl: string, mimeType: string): string
    requires Text.StartsWith(dataUrl, "#" + DataUrlPrefix(mimeType)) || Text.StartsWith(dataUrl, DataUrlPrefix(mimeType))
  {
    var prefix := DataUrlPrefix(mimeType);
    assert Text.StartsWith(dataUrl, prefix) ==> dataUrl[0] == dataUrl[..|prefix|][0] == prefix[0] == 'd';
    dataUrl[|prefix| + (if Text.StartsWith(dataUrl, "#") then 1 else 0)..]
  }

  /** A data URL whose payload decodes to bytes starting like a ZIP file gives
      exactly those bytes, whether or not it starts with a `#`. */
  lemma {:induction false} ZipDataIsTheDecodedPayload(dataUrl: string, mimeType: string, atob: string -> Decoded)
    requires Text.StartsWith(dataUrl, "#" + DataUrlPrefix(mimeType)) || Text.StartsWith(dataUrl, DataUrlPrefix(mimeType))
    requires atob(Payload(dataUrl, mimeType)).Decoded?
    ensures IsZip(Bytes(atob(Payload(dataUrl, mimeType)).text)) ==>
              ZipDataFromDataUrl(FromPath(dataUrl), mimeType, atob)
                == DataUrlData(Bytes(atob(Payload(dataUrl, mimeType)).text))
    ensures !IsZip(Bytes(atob(Payload(dataUrl, mimeType)).text)) ==>
              ZipDataFromDataUrl(FromPath(dataUrl), mimeType, atob).DataUrlError?
  {
  }

  /** `combineArchiveDataUrl`: the ZIP data of an `application/zip` data URL. */
  function CombineArchiveDataUrl(source: FileSource, atob: string -> Decoded): (r: DataUriInfo)
    ensures r.DataUrlData? ==> IsZip(r.data)
    ensures !source.FromPath? ==> r == NotDataUrl
  {
    match ZipDataFromDataUrl(source, COMBINE_ARCHIVE_MIME_TYPE, atob)
    case DataUrlData(data) => DataUrlData(data)
    case DataUrlError(error) => DataUrlError(error)
    case NotDataUrl => NotDataUrl
  }

  /** `isRemoteFilePath`. */
  predicate IsRemoteFilePath(filePath: string) {
    Text.StartsWith(filePath, "http://") || Text.StartsWith(filePath, "https://")
  }

  /** A remote path is never taken for a data URL, so `file` can test for
      the former first without hiding one of the latter. */
  lemma {:induction false} RemotePathIsNotDataUrl(path: string, mimeType: string, atob: string -> Decoded)
    requires IsRemoteFilePath(path)
    ensures ZipDataFromDataUrl(FromPath(path), mimeType, atob) == NotDataUrl
  {
    var prefix := DataUrlPrefix(mimeType);
    assert path[0] == 'h';
    assert !Text.StartsWith(path, prefix) by {
      if |prefix| <= |path| {
        assert path[..|prefix|][0] == 'h' != 'd' == prefix[0];
      }
    }
    assert !Text.StartsWith(path, "#" + prefix) by {
      if |"#" + prefix| <= |path| {
        assert path[..|"#" + prefix|][0] == 'h' != '#' == ("#" + prefix)[0];
      }
    }
  }

  /** `filePath`: a non-empty data URL file name wins; then a non-zero data
      URL counter, as "OMEX #<counter>"; then, for a browser file, the
      desktop bridge's path for it (or its name in a browser); then the path
      itself; and for raw contents their hash. */
  function FilePath(source: FileSource, dataUrlFileName: string, dataUrlCounter: int, desktop: bool,
                    hash: seq<NativeCommon.byte> -> string): (r: string)
    ensures dataUrlFileName != "" ==> r == dataUrlFileName
    ensures dataUrlFileName == "" && dataUrlCounter != 0 ==> Common.IsDataUrlOmexFileName(r)
    ensures dataUrlFileName == "" && dataUrlCounter > 0 ==>
              var digits := r[|Common.OMEX_PREFIX|..];
              Text.IsDigits(digits) && Text.DigitsValue(digits) == dataUrlCounter
    ensures dataUrlFileName == "" && dataUrlCounter == 0 ==>
              match source
              case FromFile(name, desktopPath) => r == (if desktop then desktopPath else name)
              case FromPath(path) => r == path
              case FromContents(contents) => r == hash(contents)
  {
    if dataUrlFileName != "" then dataUrlFileName
    else if dataUrlCounter != 0 then
      var r := Common.OMEX_PREFIX + Text.IntToString(dataUrlCounter);
      assert r[|Common.OMEX_PREFIX|..] == Text.IntToString(dataUrlCounter);
      if dataUrlCounter > 0 then Text.NatToStringRoundTrip(dataUrlCounter); r else r
    else match source
      case FromFile(name, desktopPath) => if desktop then desktopPath else name
      case FromPath(path) => path
      case FromContents(contents) => hash(contents)
  }

  /** `ESimulationDataInfoType`. */
  datatype SimulationDataInfoType = Unknown | Voi | State | Rate | Constant | ComputedConstant | Algebraic {

    function Value(): nat {
      match this
      case Unknown => 0
      case Voi => 1
      case State => 2
      case Rate => 3
      case Constant => 4
      case ComputedConstant => 5
      case Algebraic => 6
    }
  }

  /** `ISimulationDataInfo`. */
  datatype SimulationDataInfo = SimulationDataInfo(kind: SimulationDataInfoType, index: int)

  /** What an instance task exposes: the name of the variable of integration
      and its series, and for each category of variable the names and the
      series, index by index. */
  datatype InstanceTask = InstanceTask(
    voiName: string, voi: seq<real>,
    stateNames: seq<string>, states: seq<seq<real>>,
    rateNames: seq<string>, rates: seq<seq<real>>,
    constantNames: seq<string>, constants: seq<seq<real>>,
    computedConstantNames: seq<string>, computedConstants: seq<seq<real>>,
    algebraicNames: seq<string>, algebraics: seq<seq<real>>)
  {
    /** Each category has one series per name. */
    predicate Valid() {
      |states| == |stateNames| && |rates| == |rateNames| && |constants| == |constantNames|
      && |computedConstants| == |computedConstantNames| && |algebraics| == |algebraicNames|
    }

    /** The names of a category, none for the other kinds. */
    function Names(kind: SimulationDataInfoType): seq<string> {
      match kind
      case State => stateNames
      case Rate => rateNames
      case Constant => constantNames
      case ComputedConstant => computedConstantNames
      case Algebraic => algebraicNames
      case _ => []
    }

    /** The series of a category, index by index, none for the other kinds. */
    function Series(kind: SimulationDataInfoType): seq<seq<real>> {
      match kind
      case State => states
      case Rate => rates
      case Constant => constants
      case ComputedConstant => computedConstants
      case Algebraic => algebraics
      case _ => []
    }
  }

  const UNKNOWN_INFO: SimulationDataInfo := SimulationDataInfo(Unknown, -1)

  /** Reference for the lookup: the first category, in the order states,
      rates, constants, computed constants, algebraics, that holds the name,
      at the lowest index that holds it. */
  function SimulationDataInfoReference(task: InstanceTask, name: string): SimulationDataInfo {
    if name == "" then UNKNOWN_INFO
    else if name == task.voiName then SimulationDataInfo(Voi, -1)
    else if name in task.stateNames then SimulationDataInfo(State, FileApi.FirstNamed(task.stateNames, name).value)
    else if name in task.rateNames then SimulationDataInfo(Rate, FileApi.FirstNamed(task.rateNames, name).value)
    else if name in task.constantNames then
      SimulationDataInfo(Constant, FileApi.FirstNamed(task.constantNames, name).value)
    else if name in task.computedConstantNames then
      SimulationDataInfo(ComputedConstant, FileApi.FirstNamed(task.computedConstantNames, name).value)
    else if name in task.algebraicNames then
      SimulationDataInfo(Algebraic, FileApi.FirstNamed(task.algebraicNames, name).value)
    else UNKNOWN_INFO
  }

  /** The index of the first occurrence of `name` in `names`, walking the
      indices in order. */
  method Find(names: seq<string>, name: string) returns (r: Option<nat>)
    ensures r == FileApi.FirstNamed(names, name)
  {
    var i := 0;
    while i < |names|
      invariant 0 <= i <= |names|
      invariant forall j :: 0 <= j < i ==> names[j] != name
    {
      if names[i] == name {
        FirstNamedAt(names, name, i);
        return Some(i);
      }
      i := i + 1;
    }
    return None;
  }

  /** The first index holding `name` is the one `FirstNamed` gives. */
  lemma {:induction false} FirstNamedAt(names: seq<string>, name: string, i: nat)
    requires i < |names| && names[i] == name
    requires forall j :: 0 <= j < i ==> names[j] != name
    ensures FileApi.FirstNamed(names, name) == Some(i)
  {
    assert name in names;
  }

  /** `simulationDataInfo`: an empty name is unknown; the variable of
      integration's name is the VOI; otherwise the categories are searched in
      order, each index by index, and the first match wins. */
  method SimulationDataInfoOf(task: InstanceTask, name: string) returns (r: SimulationDataInfo)
    ensures r == SimulationDataInfoReference(task, name)
    ensures r.index == -1 || 0 <= r.index < |task.Names(r.kind)|
    ensures r.index >= 0 ==> task.Names(r.kind)[r.index] == name
    ensures r.kind == Unknown ==> r.index == -1
  {
    if name == "" {
      return UNKNOWN_INFO;
    }
    if name == task.voiName {
      return SimulationDataInfo(Voi, -1);
    }
    var found := Find(task.stateNames, name);
    if found.Some? {
      return SimulationDataInfo(State, found.value);
    }
    found := Find(task.rateNames, name);
    if found.Some? {
      return SimulationDataInfo(Rate, found.value);
    }
    found := Find(task.constantNames, name);
    if found.Some? {
      return SimulationDataInfo(Constant, found.value);
    }
    found := Find(task.computedConstantNames, name);
    if found.Some? {
      return SimulationDataInfo(ComputedConstant, found.value);
    }
    found := Find(task.algebraicNames, name);
    if found.Some? {
      return SimulationDataInfo(Algebraic, found.value);
    }
    return UNKNOWN_INFO;
  }

  /** `simulationData`: the series the information designates, and an empty
      series for an unknown one. The index must be one the lookup can give. */
  function SimulationData(task: InstanceTask, info: SimulationDataInfo): (r: seq<real>)
    requires task.Valid()
    requires info.kind !in {Unknown, Voi} ==> 0 <= info.index < |task.Names(info.kind)|
    ensures info.kind == Unknown ==> r == []
    ensures info.kind == Voi ==> r == task.voi
    ensures info.kind !in {Unknown, Voi} ==>
              |task.Series(info.kind)| == |task.Names(info.kind)| && r == task.Series(info.kind)[info.index]
  {
    match info.kind
    case Unknown => []
    case Voi => task.voi
    case State => task.states[info.index]
    case Rate => task.rates[info.index]
    case Constant => task.constants[info.index]
    case ComputedConstant => task.computedConstants[info.index]
    case Algebraic => task.algebraics[info.index]
  }

  /** Looking a name up and then asking for its data gives the series that
      sits, in its category, at the index of the name's first occurrence; a
      name no category holds, other than the variable of integration, gives
      no data. */
  lemma {:induction false} LookedUpSeries(task: InstanceTask, name: string)
    requires task.Valid()
    ensures var info := SimulationDataInfoReference(task, name);
            (info.kind !in {Unknown, Voi} ==> 0 <= info.index < |task.Names(info.kind)|)
            && var r := SimulationData(task, info);
            (info.kind == Unknown <==>
               name == "" || (name != task.voiName && name !in task.stateNames && name !in task.rateNames
                              && name !in task.constantNames && name !in task.computedConstantNames
                              && name !in task.algebraicNames))
            && (info.kind == Unknown ==> r == [])
            && (info.kind == Voi <==> name != "" && name == task.voiName)
            && (info.kind == Voi ==> r == task.voi)
            && (info.kind !in {Unknown, Voi} ==>
                  name in task.Names(info.kind)
                  && task.Names(info.kind)[info.index] == name
                  && (forall j :: 0 <= j < info.index ==> task.Names(info.kind)[j] != name)
                  && r == task.Series(info.kind)[info.index])
  {
    var info := SimulationDataInfoReference(task, name);
    if info.kind !in {Unknown, Voi} {
      var found := FileApi.FirstNamed(task.Names(info.kind), name);
      assert found.Some? && info.index == found.value;
    }
  }
}

=== FILE: logger.dfy ===
/** The host-side logger API: issue kinds with their fixed discriminants, issue
    records, and the conversion of the WebAssembly engine's issue collection into
    host issues. */
module Logger {
  import opened Wrappers

  /** `EIssueType`; the discriminants are a wire contract with the engine. */
  datatype IssueType = Error | Warning | Information {

    function Value(): nat {
      match this
      case Error => 0
      case Warning => 1
      case Information => 2
    }
  }

  /** The issue kind carrying discriminant `n`, if any. */
  function IssueTypeFromValue(n: int): (r: Option<IssueType>)
    ensures r.Some? <==> 0 <= n <= 2
    ensures r.Some? ==> r.value.Value() == n
  {
    if n == 0 then Some(Error)
    else if n == 1 then Some(Warning)
    else if n == 2 then Some(Information)
    else None
  }

  /** Discriminants are distinct, so reading one back recovers the kind. */
  lemma IssueTypeRoundTrip(t: IssueType)
    ensures IssueTypeFromValue(t.Value()) == Some(t)
    ensures t.Value() <= 2
  {
  }

  /** `IIssue`. */
  datatype Issue = Issue(kind: IssueType, description: string)

  /** One element of the engine's issue vector: `type.value` and `description`. */
  datatype WasmIssue = WasmIssue(typeValue: IssueType, description: string)

  /** Every issue of `issues` is a warning. */
  predicate AllWarnings(issues: seq<Issue>) {
    forall i :: 0 <= i < |issues| ==> issues[i].kind == Warning
  }

  /** `wasmIssuesToIssues`: walks indices 0 .. size()-1 and copies each element,
      so the result has the same length and order as the engine's vector. */
  method WasmIssuesToIssues(wasmIssues: seq<WasmIssue>) returns (res: seq<Issue>)
    ensures |res| == |wasmIssues|
    ensures forall i :: 0 <= i < |wasmIssues| ==>
              res[i].kind == wasmIssues[i].typeValue && res[i].description == wasmIssues[i].description
  {
    res := [];
    var i := 0;
    while i < |wasmIssues|
      invariant 0 <= i <= |wasmIssues|
      invariant |res| == i
      invariant forall j :: 0 <= j < i ==>
                  res[j].kind == wasmIssues[j].typeValue && res[j].description == wasmIssues[j].description
    {
      var issue := wasmIssues[i];
      res := res + [Issue(issue.typeValue, issue.description)];
      i := i + 1;
    }
  }
}

=== FILE: native_common.dfy ===
/** The native add-on's shared state and helpers: the abstract engine objects
    (files, SED-ML documents, instances), the process-wide registries, the
    wrapping `size_t` id counters, and the conversions of issue vectors and
    double vectors into host values.

    Engine objects are modelled as immutable records; whatever the engine
    computes (parsing a file, building a document, instantiating it) is passed
    in as a parameter. */
module NativeCommon {
  import opened Wrappers
  import Logger

  newtype byte = x: int | 0 <= x < 256

  /** A double as its IEEE-754 bit pattern, so that "copied unchanged" means
      bit for bit. */
  type Float64 = bv64

  newtype Int32 = x: int | -0x8000_0000 <= x < 0x8000_0000

  const SIZE_MAX: int := 0xFFFF_FFFF_FFFF_FFFF

  newtype SizeT = x: int | 0 <= x <= 0xFFFF_FFFF_FFFF_FFFF

  /** `++counter` on a `size_t`: arithmetic modulo 2^64. */
  function Increment(c: SizeT): (r: SizeT)
    ensures r as int == (c as int + 1) % (SIZE_MAX + 1)
  {
    if c as int == SIZE_MAX then 0 else c + 1
  }

  /** The identity (address) of a native File object. */
  type FileRef = nat

  /** An issue as the engine reports it. */
  datatype NativeIssue = NativeIssue(kind: Logger.IssueType, description: string)

  /** The `{type, description}` object handed to the host. */
  datatype HostIssue = HostIssue(typeValue: int, description: string)

  datatype NativeFile = NativeFile(
    ref: FileRef,
    path: string,
    contents: seq<byte>,
    issues: seq<NativeIssue>,
    fileType: int,
    children: map<string, seq<byte>>)

  datatype Solver = Cvode(maximumStep: Float64) | OtherSolver

  /** The engine's simulation class hierarchy. `Unlisted` stands for any
      subclass the bridge's cast chain does not name. */
  datatype Simulation =
    | Analysis(odeSolver: Solver)
    | SteadyState(odeSolver: Solver)
    | OneStep(step: Float64, odeSolver: Solver)
    | UniformTimeCourse(initialTime: Float64, outputStartTime: Float64, outputEndTime: Float64,
                        numberOfSteps: Int32, odeSolver: Solver)
    | Unlisted(odeSolver: Solver)

  datatype SedChange = ChangeAttribute(componentName: string, variableName: string, newValue: string)

  datatype SedModel = SedModel(filePath: string, changes: seq<SedChange>)

  datatype SedDocument = SedDocument(
    file: FileRef,
    issues: seq<NativeIssue>,
    models: seq<SedModel>,
    simulations: seq<Simulation>,
    serialised: string)

  datatype SedInstance = SedInstance(issues: seq<NativeIssue>)

  /** Per-file auxiliary data: the file's document and instance, if any. */
  datatype FileData = FileData(sedDocument: Option<SedDocument>, sedInstance: Option<SedInstance>)

  /** The add-on's process-wide state. `fileData` is keyed by file pointer,
      `None` standing for the null pointer. */
  datatype NativeState = NativeState(
    managed: seq<NativeFile>,
    files: map<string, NativeFile>,
    sedDocuments: map<SizeT, SedDocument>,
    sedInstances: map<SizeT, SedInstance>,
    documentId: SizeT,
    instanceId: SizeT,
    fileData: map<Option<FileRef>, FileData>)

  /** Both counters start at SIZE_MAX so that the first id handed out is 0. */
  const Initial: NativeState :=
    NativeState([], map[], map[], map[], SIZE_MAX as SizeT, SIZE_MAX as SizeT, map[])

  /** Index of the first managed file with the given path. */
  function FirstPathMatch(managed: seq<NativeFile>, path: string): (r: Option<nat>)
    ensures r.Some? ==> r.value < |managed| && managed[r.value].path == path
    ensures r.Some? ==> forall j :: 0 <= j < r.value ==> managed[j].path != path
    ensures r.None? ==> forall j :: 0 <= j < |managed| ==> managed[j].path != path
    decreases |managed|
  {
    if |managed| == 0 then None
    else if managed[0].path == path then Some(0)
    else match FirstPathMatch(managed[1..], path)
      case None => None
      case Some(k) => Some(k + 1)
  }

  /** `fileManager.file(path)`: the managed file with that path, or null. */
  function ValueToFile(st: NativeState, path: string): (r: Option<NativeFile>)
    ensures r.Some? ==> r.value in st.managed && r.value.path == path
    ensures r.None? ==> forall j :: 0 <= j < |st.managed| ==> st.managed[j].path != path
  {
    match FirstPathMatch(st.managed, path)
    case None => None
    case Some(i) => Some(st.managed[i])
  }

  function FileKey(st: NativeState, path: string): Option<FileRef> {
    match ValueToFile(st, path)
    case None => None
    case Some(f) => Some(f.ref)
  }

  datatype DocumentLookup = DocumentLookup(state: NativeState, document: Option<SedDocument>)

  datatype InstanceLookup = InstanceLookup(state: NativeState, instance: Option<SedInstance>)

  /** `fileData[valueToFile(path)].sedDocument`: `operator[]` inserts an empty
      entry for a file it has not seen and then yields a null document. */
  function ValueToSedDocument(st: NativeState, path: string): (r: DocumentLookup)
    ensures FileKey(st, path) in st.fileData ==>
              r.state == st && r.document == st.fileData[FileKey(st, path)].sedDocument
    ensures FileKey(st, path) !in st.fileData ==>
              r.document.None? &&
              r.state == st.(fileData := st.fileData[FileKey(st, path) := FileData(None, None)])
  {
    var key := FileKey(st, path);
    if key in st.fileData then DocumentLookup(st, st.fileData[key].sedDocument)
    else DocumentLookup(st.(fileData := st.fileData[key := FileData(None, None)]), None)
  }

  /** `fileData[valueToFile(path)].sedInstance`, with the same insertion. */
  function ValueToSedInstance(st: NativeState, path: string): (r: InstanceLookup)
    ensures FileKey(st, path) in st.fileData ==>
              r.state == st && r.instance == st.fileData[FileKey(st, path)].sedInstance
    ensures FileKey(st, path) !in st.fileData ==>
              r.instance.None? &&
              r.state == st.(fileData := st.fileData[FileKey(st, path) := FileData(None, None)])
  {
    var key := FileKey(st, path);
    if key in st.fileData then InstanceLookup(st, st.fileData[key].sedInstance)
    else InstanceLookup(st.(fileData := st.fileData[key := FileData(None, None)]), None)
  }

  /** A lookup inserts at most one entry and never changes an existing one. */
  lemma ValueToSedDocumentOnlyAdds(st: NativeState, path: string, key: Option<FileRef>)
    requires key in st.fileData
    ensures var r := ValueToSedDocument(st, path);
            key in r.state.fileData && r.state.fileData[key] == st.fileData[key]
    ensures |ValueToSedDocument(st, path).state.fileData.Keys - st.fileData.Keys| <= 1
  {
    var r := ValueToSedDocument(st, path);
    var k := FileKey(st, path);
    if k !in st.fileData {
      assert r.state.fileData.Keys - st.fileData.Keys == {k};
    } else {
      assert r.state.fileData.Keys - st.fileData.Keys == {};
    }
  }

  /** `untrackFileData`: erase exactly the given file's entry. */
  function UntrackFileData(st: NativeState, file: Option<FileRef>): (r: NativeState)
    ensures file !in r.fileData
    ensures forall k :: k in st.fileData && k != file ==> k in r.fileData && r.fileData[k] == st.fileData[k]
    ensures r.fileData.Keys == st.fileData.Keys - {file}
    ensures r == st.(fileData := r.fileData)
  {
    st.(fileData := st.fileData - {file})
  }

  /** `issues()`: one host object per engine issue, in order, carrying the
      issue's integer kind and its description. */
  method Issues(issues: seq<NativeIssue>) returns (res: seq<HostIssue>)
    ensures |res| == |issues|
    ensures forall i :: 0 <= i < |issues| ==>
              res[i].typeValue == issues[i].kind.Value() && res[i].description == issues[i].description
  {
    res := [];
    var i := 0;
    while i < |issues|
      invariant 0 <= i <= |issues|
      invariant |res| == i
      invariant forall j :: 0 <= j < i ==>
                  res[j].typeValue == issues[j].kind.Value() && res[j].description == issues[j].description
    {
      res := res + [HostIssue(issues[i].kind.Value(), issues[i].description)];
      i := i + 1;
    }
  }

  /** `doublesToNapiArray`: an array of the vector's size whose element i is
      the vector's element i, bit for bit. */
  method DoublesToNapiArray(doubles: seq<Float64>) returns (values: seq<Float64>)
    ensures |values| == |doubles|
    ensures forall i :: 0 <= i < |doubles| ==> values[i] == doubles[i]
  {
    values := [];
    var i := 0;
    while i < |doubles|
      invariant 0 <= i <= |doubles|
      invariant values == doubles[..i]
    {
      values := values + [doubles[i]];
      i := i + 1;
    }
  }
}

=== FILE: native_file.dfy ===
/** The native add-on's file API: releasing a managed file, creating and
    registering a file, and copying a file's (or its `simulation.json` child's)
    contents out to the host. */
module NativeFile {
  import opened Wrappers
  import opened NativeCommon

  /** The managed list with element `i` removed, as `FileManager::unmanage`
      leaves it. */
  function RemoveAt(managed: seq<NativeFile>, i: nat): (r: seq<NativeFile>)
    requires i < |managed|
    ensures |r| == |managed| - 1
    ensures forall j :: 0 <= j < i ==> r[j] == managed[j]
    ensures forall j :: i <= j < |r| ==> r[j] == managed[j + 1]
  {
    managed[..i] + managed[i + 1..]
  }

  /** `fileManagerUnmanage`: scan the managed files in order; at the first one
      whose path is `path`, drop the path's strong reference from `files`,
      release the file from the file manager, and stop. Nothing else changes,
      in particular neither document nor instance registry. */
  method FileManagerUnmanage(st: NativeState, path: string) returns (r: NativeState)
    ensures FirstPathMatch(st.managed, path).Some? ==>
              r == st.(files := st.files - {path},
                       managed := RemoveAt(st.managed, FirstPathMatch(st.managed, path).value))
    ensures FirstPathMatch(st.managed, path).None? ==> r == st
    ensures r.sedDocuments == st.sedDocuments && r.sedInstances == st.sedInstances
  {
    r := st;
    var i := 0;
    while i < |st.managed|
      invariant 0 <= i <= |st.managed|
      invariant forall j :: 0 <= j < i ==> st.managed[j].path != path
      invariant r == st
    {
      if st.managed[i].path == path {
        r := st.(files := st.files - {path}, managed := RemoveAt(st.managed, i));
        return;
      }
      i := i + 1;
    }
  }

  /** After unmanaging, the path has no strong reference left. */
  lemma UnmanageDropsReference(st: NativeState, path: string, r: NativeState)
    requires FirstPathMatch(st.managed, path).Some?
    requires r == st.(files := st.files - {path},
                      managed := RemoveAt(st.managed, FirstPathMatch(st.managed, path).value))
    ensures path !in r.files
    ensures |r.managed| == |st.managed| - 1
    ensures forall p :: p in st.files && p != path ==> p in r.files && r.files[p] == st.files[p]
  {
  }

  /** `fileCreate`: the engine builds `created` for the path; the bytes are
      pushed into it only when a buffer was passed; the file is then held in
      `files` under its own path, replacing any earlier entry there. Building a
      file registers it with the engine's file manager. */
  function FileCreate(st: NativeState, created: NativeFile, contents: Option<seq<byte>>): (r: NativeState)
    ensures created.path in r.files
    ensures contents.Some? ==> r.files[created.path].contents == contents.value
    ensures contents.None? ==> r.files[created.path] == created
    ensures r.files[created.path] == created.(contents := r.files[created.path].contents)
    ensures forall p :: p in st.files && p != created.path ==> p in r.files && r.files[p] == st.files[p]
    ensures r.files.Keys == st.files.Keys + {created.path}
    ensures r.managed == st.managed + [r.files[created.path]]
    ensures r.sedDocuments == st.sedDocuments && r.sedInstances == st.sedInstances
    ensures r.fileData == st.fileData
    ensures r == st.(managed := r.managed, files := r.files)
  {
    var file := match contents
      case Some(bytes) => created.(contents := bytes)
      case None => created;
    st.(managed := st.managed + [file], files := st.files[file.path := file])
  }

  /** Creating the same path twice keeps only the second file's reference. */
  lemma FileCreateOverwrites(st: NativeState, a: NativeFile, b: NativeFile,
                             ca: Option<seq<byte>>, cb: Option<seq<byte>>)
    requires a.path == b.path
    ensures var r := FileCreate(FileCreate(st, a, ca), b, cb);
            r.files[a.path].ref == b.ref && r.files.Keys == st.files.Keys + {a.path}
  {
  }

  /** The first match in a list with one file pushed at the back: the earlier
      match when there is one, otherwise the new file when it has the path. */
  lemma {:induction false} FirstPathMatchPush(managed: seq<NativeFile>, file: NativeFile, path: string)
    ensures FirstPathMatch(managed, path).Some? ==>
              FirstPathMatch(managed + [file], path) == FirstPathMatch(managed, path)
    ensures FirstPathMatch(managed, path).None? && file.path == path ==>
              FirstPathMatch(managed + [file], path) == Some(|managed|)
    ensures FirstPathMatch(managed, path).None? && file.path != path ==>
              FirstPathMatch(managed + [file], path).None?
  {
    var pushed := managed + [file];
    assert forall j :: 0 <= j < |managed| ==> pushed[j] == managed[j];
    match FirstPathMatch(managed, path)
    case Some(k) =>
      assert pushed[k].path == path;
    case None =>
      if file.path == path {
        assert pushed[|managed|].path == path;
      }
  }

  /** `toFile`: the managed file with that path; callers only pass paths of
      files that were created. */
  function ToFile(st: NativeState, path: string): (f: NativeFile)
    requires FirstPathMatch(st.managed, path).Some?
    ensures f in st.managed && f.path == path
  {
    st.managed[FirstPathMatch(st.managed, path).value]
  }

  /** `fileContents`: a copy of the file's bytes, same length, same order.
      Bytes are values here, so the copy is the sequence itself. */
  method FileContents(st: NativeState, path: string) returns (bytes: seq<byte>)
    requires FirstPathMatch(st.managed, path).Some?
    ensures bytes == ToFile(st, path).contents
  {
    bytes := ToFile(st, path).contents;
  }

  const UI_JSON_FILE_NAME: string := "simulation.json"

  /** `fileUiJson`: undefined without a `simulation.json` child, otherwise a
      copy of that child's bytes. */
  method FileUiJson(st: NativeState, path: string) returns (bytes: Option<seq<byte>>)
    requires FirstPathMatch(st.managed, path).Some?
    ensures bytes.None? <==> UI_JSON_FILE_NAME !in ToFile(st, path).children
    ensures bytes.Some? ==> bytes.value == ToFile(st, path).children[UI_JSON_FILE_NAME]
  {
    var file := ToFile(st, path);
    if UI_JSON_FILE_NAME !in file.children {
      return None;
    }
    bytes := Some(file.children[UI_JSON_FILE_NAME]);
  }

  /** A file created at a path no managed file has is the one the path then
      reads back: `fileContents` gives the buffer passed to `fileCreate` (or
      the engine's own contents without one), and `fileUiJson` looks among
      the created file's children. */
  lemma {:induction false} CreatedFileReadsBack(st: NativeState, created: NativeFile, contents: Option<seq<byte>>)
    requires FirstPathMatch(st.managed, created.path).None?
    ensures var r := FileCreate(st, created, contents);
            FirstPathMatch(r.managed, created.path).Some?
            && ToFile(r, created.path).contents == (if contents.Some? then contents.value else created.contents)
            && ToFile(r, created.path).children == created.children
  {
    var r := FileCreate(st, created, contents);
    FirstPathMatchPush(st.managed, r.files[created.path], created.path);
  }

  /** A second file created at a path already managed is held in `files` but
      is not what the path reads back: the earlier managed file still is. */
  lemma {:induction false} EarlierFileShadows(st: NativeState, created: NativeFile, contents: Option<seq<byte>>)
    requires FirstPathMatch(st.managed, created.path).Some?
    ensures var r := FileCreate(st, created, contents);
            FirstPathMatch(r.managed, created.path).Some?
            && ToFile(r, created.path) == ToFile(st, created.path)
  {
    var r := FileCreate(st, created, contents);
    FirstPathMatchPush(st.managed, r.files[created.path], created.path);
  }
}

=== FILE: native_sed.dfy ===
/** The native add-on's SED-ML API: document and instance creation under two
    independent wrapping id counters, the simulation-kind cast chain, and the
    typed field accessors of the resolved simulation. */
module NativeSed {
  import opened Wrappers
  import opened NativeCommon

  datatype Created = Created(state: NativeState, id: SizeT)

  /** `sedDocumentCreate`: pre-increment the document counter, store the
      engine's new document under that id (replacing whatever was there) and
      return the id. Nothing else changes. */
  function SedDocumentCreate(st: NativeState, document: SedDocument): (r: Created)
    ensures r.id as int == (st.documentId as int + 1) % (SIZE_MAX + 1)
    ensures r.state.documentId == r.id
    ensures r.state.sedDocuments == st.sedDocuments[r.id := document]
    ensures r.state == st.(documentId := r.id, sedDocuments := r.state.sedDocuments)
  {
    var id := Increment(st.documentId);
    Created(st.(documentId := id, sedDocuments := st.sedDocuments[id := document]), id)
  }

  /** `toSedDocument`: the registered document with that id. */
  function ToSedDocument(st: NativeState, id: SizeT): SedDocument
    requires id in st.sedDocuments
  {
    st.sedDocuments[id]
  }

  /** `sedDocumentInstantiate`: pre-increment the instance counter and store
      the engine's new instance of document `documentId` under it. The
      document registry and the document counter do not change. */
  function SedDocumentInstantiate(st: NativeState, documentId: SizeT, instance: SedInstance): (r: Created)
    requires documentId in st.sedDocuments
    ensures r.id as int == (st.instanceId as int + 1) % (SIZE_MAX + 1)
    ensures r.state.instanceId == r.id
    ensures r.state.sedInstances == st.sedInstances[r.id := instance]
    ensures r.state == st.(instanceId := r.id, sedInstances := r.state.sedInstances)
  {
    var id := Increment(st.instanceId);
    Created(st.(instanceId := id, sedInstances := st.sedInstances[id := instance]), id)
  }

  /** The first id each counter hands out is 0. */
  lemma FirstIdsAreZero(document: SedDocument, instance: SedInstance)
    ensures SedDocumentCreate(Initial, document).id == 0
    ensures var c := SedDocumentCreate(Initial, document);
            SedDocumentInstantiate(c.state, c.id, instance).id == 0
  {
  }

  /** Instantiating the same document twice yields two distinct ids, both
      registered: the second instance does not replace the first. */
  lemma InstantiateTwice(st: NativeState, documentId: SizeT, a: SedInstance, b: SedInstance)
    requires documentId in st.sedDocuments
    ensures var first := SedDocumentInstantiate(st, documentId, a);
            var second := SedDocumentInstantiate(first.state, documentId, b);
            first.id != second.id
            && first.id in second.state.sedInstances && second.state.sedInstances[first.id] == a
            && second.id in second.state.sedInstances && second.state.sedInstances[second.id] == b
  {
  }

  /** Document creations and instantiations touch disjoint counters: the ids of
      one keyspace do not depend on how often the other was used. */
  lemma KeyspacesIndependent(st: NativeState, document: SedDocument, documentId: SizeT, instance: SedInstance)
    requires documentId in st.sedDocuments
    ensures SedDocumentInstantiate(SedDocumentCreate(st, document).state, documentId, instance).id
            == SedDocumentInstantiate(st, documentId, instance).id
    ensures SedDocumentCreate(SedDocumentInstantiate(st, documentId, instance).state, document).id
            == SedDocumentCreate(st, document).id
  {
  }

  /** Create one document per element of `documents`, in order; return the
      final state and the ids handed out. */
  function CreateAll(st: NativeState, documents: seq<SedDocument>): (r: (NativeState, seq<SizeT>))
    ensures |r.1| == |documents|
    decreases |documents|
  {
    if |documents| == 0 then (st, [])
    else
      var c := SedDocumentCreate(st, documents[0]);
      var rest := CreateAll(c.state, documents[1..]);
      (rest.0, [c.id] + rest.1)
  }

  /** The k-th of a run of creations gets the counter's value plus k + 1,
      modulo 2^64, and the counter ends on the last id handed out. */
  lemma {:induction false} CreateAllIds(st: NativeState, documents: seq<SedDocument>)
    ensures forall k :: 0 <= k < |documents| ==>
              CreateAll(st, documents).1[k] as int == (st.documentId as int + k + 1) % (SIZE_MAX + 1)
    ensures CreateAll(st, documents).0.documentId as int
            == (st.documentId as int + |documents|) % (SIZE_MAX + 1)
    decreases |documents|
  {
    if |documents| > 0 {
      var c := SedDocumentCreate(st, documents[0]);
      CreateAllIds(c.state, documents[1..]);
      var ids := CreateAll(st, documents).1;
      assert ids == [c.id] + CreateAll(c.state, documents[1..]).1;
      forall k | 0 <= k < |documents|
        ensures ids[k] as int == (st.documentId as int + k + 1) % (SIZE_MAX + 1)
      {
        if k > 0 {
          ModAddShift(st.documentId as int, k);
        }
      }
      if |documents| > 1 {
        ModAddShift(st.documentId as int, |documents| - 1);
      }
    }
  }

  lemma ModAddShift(a: int, k: int)
    requires k >= 1
    ensures ((a + 1) % (SIZE_MAX + 1) + k) % (SIZE_MAX + 1) == (a + k + 1) % (SIZE_MAX + 1)
  {
  }

  /** Up to 2^64 consecutive creations never reuse an id; the 2^64 + 1-th
      would land on the first id again and overwrite that document. */
  lemma CreateAllDistinct(st: NativeState, documents: seq<SedDocument>)
    requires |documents| <= SIZE_MAX + 1
    ensures forall i, j :: 0 <= i < j < |documents| ==> CreateAll(st, documents).1[i] != CreateAll(st, documents).1[j]
  {
    CreateAllIds(st, documents);
    var ids := CreateAll(st, documents).1;
    forall i, j | 0 <= i < j < |documents|
      ensures ids[i] != ids[j]
    {
      var base := st.documentId as int;
      if ids[i] == ids[j] {
        assert (base + i + 1) % (SIZE_MAX + 1) == (base + j + 1) % (SIZE_MAX + 1);
        ModEqualClose(base + i + 1, j - i);
        assert false;
      }
    }
  }

  lemma ModEqualClose(x: int, d: int)
    requires 0 < d <= SIZE_MAX
    ensures x % (SIZE_MAX + 1) != (x + d) % (SIZE_MAX + 1)
  {
    var m := SIZE_MAX + 1;
    var q := x / m;
    var r := x % m;
    assert x == q * m + r;
    if r + d < m {
      assert x + d == q * m + (r + d);
      assert (x + d) % m == r + d;
    } else {
      assert x + d == (q + 1) * m + (r + d - m);
      assert (x + d) % m == r + d - m;
    }
  }

  /** The cast chain of `sedDocumentSimulationType`: Analysis, SteadyState and
      OneStep are tried in that order; anything else reads as
      UniformTimeCourse. */
  function SimulationType(simulation: Simulation): (kind: int)
    ensures 0 <= kind <= 3
    ensures kind == 0 <==> simulation.Analysis?
    ensures kind == 1 <==> simulation.SteadyState?
    ensures kind == 2 <==> simulation.OneStep?
    ensures kind == 3 <==> simulation.UniformTimeCourse? || simulation.Unlisted?
  {
    if simulation.Analysis? then 0
    else if simulation.SteadyState? then 1
    else if simulation.OneStep? then 2
    else 3
  }

  /** `sedDocumentSimulationType(documentId, index)`: resolve the document and
      its simulation, then classify it. An index with no simulation gives a
      null pointer, which every cast rejects, so it reads as 3. */
  function SedDocumentSimulationType(st: NativeState, documentId: SizeT, index: int): (kind: int)
    requires documentId in st.sedDocuments
    ensures 0 <= kind <= 3
    ensures 0 <= index < |st.sedDocuments[documentId].simulations| ==>
              kind == SimulationType(st.sedDocuments[documentId].simulations[index])
    ensures !(0 <= index < |st.sedDocuments[documentId].simulations|) ==> kind == 3
  {
    var simulations := ToSedDocument(st, documentId).simulations;
    if 0 <= index < |simulations| then SimulationType(simulations[index]) else 3
  }

  /** Only simulation `index` of document `documentId` may differ between `st`
      and `r`: the files, the instances, the counters, every other document,
      the document's models and other simulations are all as they were. */
  predicate OnlySimulationChanged(st: NativeState, r: NativeState, documentId: SizeT, index: nat) {
    documentId in st.sedDocuments && documentId in r.sedDocuments
    && r == st.(sedDocuments := r.sedDocuments)
    && r.sedDocuments.Keys == st.sedDocuments.Keys
    && (forall id :: id in st.sedDocuments && id != documentId ==> r.sedDocuments[id] == st.sedDocuments[id])
    && r.sedDocuments[documentId] == st.sedDocuments[documentId].(simulations := r.sedDocuments[documentId].simulations)
    && |r.sedDocuments[documentId].simulations| == |st.sedDocuments[documentId].simulations|
    && (forall j :: 0 <= j < |st.sedDocuments[documentId].simulations| && j != index ==>
          r.sedDocuments[documentId].simulations[j] == st.sedDocuments[documentId].simulations[j])
  }

  /** Only model `index` of document `documentId` may differ between `st` and
      `r`, in the same sense. */
  predicate OnlyModelChanged(st: NativeState, r: NativeState, documentId: SizeT, index: nat) {
    documentId in st.sedDocuments && documentId in r.sedDocuments
    && r == st.(sedDocuments := r.sedDocuments)
    && r.sedDocuments.Keys == st.sedDocuments.Keys
    && (forall id :: id in st.sedDocuments && id != documentId ==> r.sedDocuments[id] == st.sedDocuments[id])
    && r.sedDocuments[documentId] == st.sedDocuments[documentId].(models := r.sedDocuments[documentId].models)
    && |r.sedDocuments[documentId].models| == |st.sedDocuments[documentId].models|
    && (forall j :: 0 <= j < |st.sedDocuments[documentId].models| && j != index ==>
          r.sedDocuments[documentId].models[j] == st.sedDocuments[documentId].models[j])
  }

  /** A state where the simulation at (documentId, index) is `simulation` and
      nothing else differs. */
  function UpdateSimulation(st: NativeState, documentId: SizeT, index: nat, simulation: Simulation): (r: NativeState)
    requires documentId in st.sedDocuments
    requires index < |st.sedDocuments[documentId].simulations|
    ensures r.sedDocuments.Keys == st.sedDocuments.Keys
    ensures forall id :: id in st.sedDocuments && id != documentId ==> r.sedDocuments[id] == st.sedDocuments[id]
    ensures |r.sedDocuments[documentId].simulations| == |st.sedDocuments[documentId].simulations|
    ensures r.sedDocuments[documentId].simulations[index] == simulation
    ensures forall j :: 0 <= j < |st.sedDocuments[documentId].simulations| && j != index ==>
              r.sedDocuments[documentId].simulations[j] == st.sedDocuments[documentId].simulations[j]
    ensures r.sedDocuments[documentId] == st.sedDocuments[documentId].(simulations := r.sedDocuments[documentId].simulations)
    ensures r == st.(sedDocuments := r.sedDocuments)
  {
    var document := ToSedDocument(st, documentId);
    st.(sedDocuments := st.sedDocuments[documentId := document.(simulations := document.simulations[index := simulation])])
  }

  predicate HasSimulation(st: NativeState, documentId: SizeT, index: nat) {
    documentId in st.sedDocuments && index < |st.sedDocuments[documentId].simulations|
  }

  function SimulationAt(st: NativeState, documentId: SizeT, index: nat): Simulation
    requires HasSimulation(st, documentId, index)
  {
    st.sedDocuments[documentId].simulations[index]
  }

  /** `sedOneStepStep`; the cast to SedOneStep is only sound on a one-step
      simulation. */
  function SedOneStepStep(st: NativeState, documentId: SizeT, index: nat): Float64
    requires HasSimulation(st, documentId, index) && SimulationAt(st, documentId, index).OneStep?
  {
    SimulationAt(st, documentId, index).step
  }

  predicate IsUniformTimeCourse(st: NativeState, documentId: SizeT, index: nat) {
    HasSimulation(st, documentId, index) && SimulationAt(st, documentId, index).UniformTimeCourse?
  }

  function SedUniformTimeCourseInitialTime(st: NativeState, documentId: SizeT, index: nat): Float64
    requires IsUniformTimeCourse(st, documentId, index)
  {
    SimulationAt(st, documentId, index).initialTime
  }

  function SedUniformTimeCourseOutputStartTime(st: NativeState, documentId: SizeT, index: nat): Float64
    requires IsUniformTimeCourse(st, documentId, index)
  {
    SimulationAt(st, documentId, index).outputStartTime
  }

  function SedUniformTimeCourseOutputEndTime(st: NativeState, documentId: SizeT, index: nat): Float64
    requires IsUniformTimeCourse(st, documentId, index)
  {
    SimulationAt(st, documentId, index).outputEndTime
  }

  function SedUniformTimeCourseNumberOfSteps(st: NativeState, documentId: SizeT, index: nat): Int32
    requires IsUniformTimeCourse(st, documentId, index)
  {
    SimulationAt(st, documentId, index).numberOfSteps
  }

  /** The uniform-time-course setters: each changes one field of the resolved
      simulation; the registries keep their keys and every other entry. */
  function SedUniformTimeCourseSetInitialTime(st: NativeState, documentId: SizeT, index: nat, value: Float64): (r: NativeState)
    requires IsUniformTimeCourse(st, documentId, index)
    ensures IsUniformTimeCourse(r, documentId, index)
    ensures SedUniformTimeCourseInitialTime(r, documentId, index) == value
    ensures SimulationAt(r, documentId, index) == SimulationAt(st, documentId, index).(initialTime := value)
    ensures OnlySimulationChanged(st, r, documentId, index)
  {
    UpdateSimulation(st, documentId, index, SimulationAt(st, documentId, index).(initialTime := value))
  }

  function SedUniformTimeCourseSetOutputStartTime(st: NativeState, documentId: SizeT, index: nat, value: Float64): (r: NativeState)
    requires IsUniformTimeCourse(st, documentId, index)
    ensures IsUniformTimeCourse(r, documentId, index)
    ensures SedUniformTimeCourseOutputStartTime(r, documentId, index) == value
    ensures SimulationAt(r, documentId, index) == SimulationAt(st, documentId, index).(outputStartTime := value)
    ensures OnlySimulationChanged(st, r, documentId, index)
  {
    UpdateSimulation(st, documentId, index, SimulationAt(st, documentId, index).(outputStartTime := value))
  }

  function SedUniformTimeCourseSetOutputEndTime(st: NativeState, documentId: SizeT, index: nat, value: Float64): (r: NativeState)
    requires IsUniformTimeCourse(st, documentId, index)
    ensures IsUniformTimeCourse(r, documentId, index)
    ensures SedUniformTimeCourseOutputEndTime(r, documentId, index) == value
    ensures SimulationAt(r, documentId, index) == SimulationAt(st, documentId, index).(outputEndTime := value)
    ensures OnlySimulationChanged(st, r, documentId, index)
  {
    UpdateSimulation(st, documentId, index, SimulationAt(st, documentId, index).(outputEndTime := value))
  }

  function SedUniformTimeCourseSetNumberOfSteps(st: NativeState, documentId: SizeT, index: nat, value: Int32): (r: NativeState)
    requires IsUniformTimeCourse(st, documentId, index)
    ensures IsUniformTimeCourse(r, documentId, index)
    ensures SedUniformTimeCourseNumberOfSteps(r, documentId, index) == value
    ensures SimulationAt(r, documentId, index) == SimulationAt(st, documentId, index).(numberOfSteps := value)
    ensures OnlySimulationChanged(st, r, documentId, index)
  {
    UpdateSimulation(st, documentId, index, SimulationAt(st, documentId, index).(numberOfSteps := value))
  }

  /** A setter followed by a getter of another field of the same simulation
      reads the old value: setting the start time leaves the end time, and the
      other way round. */
  lemma SettersAreIndependent(st: NativeState, documentId: SizeT, index: nat, value: Float64)
    requires IsUniformTimeCourse(st, documentId, index)
    ensures SedUniformTimeCourseOutputEndTime(SedUniformTimeCourseSetOutputStartTime(st, documentId, index, value), documentId, index)
            == SedUniformTimeCourseOutputEndTime(st, documentId, index)
    ensures SedUniformTimeCourseOutputStartTime(SedUniformTimeCourseSetOutputEndTime(st, documentId, index, value), documentId, index)
            == SedUniformTimeCourseOutputStartTime(st, documentId, index)
    ensures SedUniformTimeCourseInitialTime(SedUniformTimeCourseSetNumberOfSteps(st, documentId, index, 0), documentId, index)
            == SedUniformTimeCourseInitialTime(st, documentId, index)
  {
  }

  predicate HasCvodeSolver(st: NativeState, documentId: SizeT, index: nat) {
    HasSimulation(st, documentId, index) && SimulationAt(st, documentId, index).odeSolver.Cvode?
  }

  /** `solverCvodeMaximumStep`; the cast to SolverCvode is only sound when the
      simulation's ODE solver is CVODE. */
  function SolverCvodeMaximumStep(st: NativeState, documentId: SizeT, index: nat): Float64
    requires HasCvodeSolver(st, documentId, index)
  {
    SimulationAt(st, documentId, index).odeSolver.maximumStep
  }

  function SolverCvodeSetMaximumStep(st: NativeState, documentId: SizeT, index: nat, value: Float64): (r: NativeState)
    requires HasCvodeSolver(st, documentId, index)
    ensures HasCvodeSolver(r, documentId, index)
    ensures SolverCvodeMaximumStep(r, documentId, index) == value
    ensures SimulationType(SimulationAt(r, documentId, index)) == SimulationType(SimulationAt(st, documentId, index))
    ensures SimulationAt(r, documentId, index) == SimulationAt(st, documentId, index).(odeSolver := Cvode(value))
    ensures OnlySimulationChanged(st, r, documentId, index)
  {
    var simulation := SimulationAt(st, documentId, index);
    UpdateSimulation(st, documentId, index, simulation.(odeSolver := Cvode(value)))
  }

  predicate HasModel(st: NativeState, documentId: SizeT, index: nat) {
    documentId in st.sedDocuments && index < |st.sedDocuments[documentId].models|
  }

  function UpdateModel(st: NativeState, documentId: SizeT, index: nat, model: SedModel): (r: NativeState)
    requires HasModel(st, documentId, index)
    ensures HasModel(r, documentId, index)
    ensures r.sedDocuments[documentId].models[index] == model
    ensures OnlyModelChanged(st, r, documentId, index)
  {
    var document := ToSedDocument(st, documentId);
    st.(sedDocuments := st.sedDocuments[documentId := document.(models := document.models[index := model])])
  }

  /** `sedModelAddChange`: append one attribute change to the model. */
  function SedModelAddChange(st: NativeState, documentId: SizeT, index: nat,
                             componentName: string, variableName: string, newValue: string): (r: NativeState)
    requires HasModel(st, documentId, index)
    ensures HasModel(r, documentId, index)
    ensures r.sedDocuments[documentId].models[index].changes
            == st.sedDocuments[documentId].models[index].changes + [ChangeAttribute(componentName, variableName, newValue)]
    ensures r.sedDocuments[documentId].models[index].filePath == st.sedDocuments[documentId].models[index].filePath
    ensures r.sedDocuments[documentId].simulations == st.sedDocuments[documentId].simulations
    ensures OnlyModelChanged(st, r, documentId, index)
  {
    var model := st.sedDocuments[documentId].models[index];
    UpdateModel(st, documentId, index, model.(changes := model.changes + [ChangeAttribute(componentName, variableName, newValue)]))
  }

  /** `sedModelRemoveAllChanges`: the model is left with no change. */
  function SedModelRemoveAllChanges(st: NativeState, documentId: SizeT, index: nat): (r: NativeState)
    requires HasModel(st, documentId, index)
    ensures HasModel(r, documentId, index)
    ensures r.sedDocuments[documentId].models[index].changes == []
    ensures r.sedDocuments[documentId].models[index].filePath == st.sedDocuments[documentId].models[index].filePath
    ensures r.sedDocuments[documentId].simulations == st.sedDocuments[documentId].simulations
    ensures OnlyModelChanged(st, r, documentId, index)
  {
    var model := st.sedDocuments[documentId].models[index];
    UpdateModel(st, documentId, index, model.(changes := []))
  }

  /** `sedDocumentIssues`: the document's issues, converted in order. */
  method SedDocumentIssues(st: NativeState, documentId: SizeT) returns (res: seq<HostIssue>)
    requires documentId in st.sedDocuments
    ensures |res| == |st.sedDocuments[documentId].issues|
    ensures forall i :: 0 <= i < |res| ==> res[i].description == st.sedDocuments[documentId].issues[i].description
    ensures forall i :: 0 <= i < |res| ==> res[i].typeValue == st.sedDocuments[documentId].issues[i].kind.Value()
  {
    res := Issues(ToSedDocument(st, documentId).issues);
  }

  /** `sedInstanceIssues`: the instance's issues, converted in order. */
  method SedInstanceIssues(st: NativeState, instanceId: SizeT) returns (res: seq<HostIssue>)
    requires instanceId in st.sedInstances
    ensures |res| == |st.sedInstances[instanceId].issues|
    ensures forall i :: 0 <= i < |res| ==> res[i].description == st.sedInstances[instanceId].issues[i].description
    ensures forall i :: 0 <= i < |res| ==> res[i].typeValue == st.sedInstances[instanceId].issues[i].kind.Value()
  {
    res := Issues(st.sedInstances[instanceId].issues);
  }
}

=== FILE: scope_plugin.dfy ===
/** The PostCSS plugin that scopes the renderer's CSS rules under a scope
    selector, so that the styles do not leak into a host application.

    A rule is its selector and its parent; the rule filter (`shouldScope`) is
    given as its answer for the rule. */
module ScopePlugin {
  import Text

  const DEFAULT_SCOPE: string := ".opencor-scoped-styles"

  /** The parent of a rule: an at-rule with its name, or anything else. */
  datatype Parent = AtRule(name: string) | OtherParent

  /** The at-rules whose rules are left alone. */
  const UNSCOPED_AT_RULES: set<string> := {"keyframes", "font-face", "-webkit-keyframes"}

  /** `opts.scopeSelector || '.opencor-scoped-styles'`. */
  function Scope(option: string): (scope: string)
    ensures scope != ""
  {
    if option == "" then DEFAULT_SCOPE else option
  }

  /** `selector.split(',').map((s) => s.trim())`. */
  function Selectors(selector: string): (sels: seq<string>)
    ensures |sels| == |Text.Split(selector, ',')|
    ensures forall i :: 0 <= i < |sels| ==> sels[i] == Text.Trim(Text.Split(selector, ',')[i])
    ensures forall i :: 0 <= i < |sels| ==> ',' !in sels[i]
  {
    var parts := Text.Split(selector, ',');
    seq(|parts|, i requires 0 <= i < |parts| => Text.Trim(parts[i]))
  }

  /** Every selector already starts with the scope. */
  predicate AllScoped(sels: seq<string>, scope: string) {
    forall i :: 0 <= i < |sels| ==> Text.StartsWith(sels[i], scope)
  }

  /** A pseudo-element, or a pseudo-class without arguments. */
  predicate IsPseudo(sel: string) {
    Text.StartsWith(sel, "::") || (Text.StartsWith(sel, ":") && '(' !in sel)
  }

  /** The universal selector, alone or followed by a descendant. */
  predicate IsUniversal(sel: string) {
    sel == "*" || Text.StartsWith(sel, "* ")
  }

  /** A simple class or id selector: it starts with `.` or `#` and has no
      space. */
  predicate IsSimple(sel: string) {
    (Text.StartsWith(sel, ".") || Text.StartsWith(sel, "#")) && ' ' !in sel
  }

  /** Whether a selector is expanded into a compound and a descendant. */
  predicate Expands(sel: string) {
    !IsPseudo(sel) && !IsUniversal(sel) && IsSimple(sel)
  }

  /** The scoped forms of one selector: a pseudo selector is attached to the
      scope; a universal one becomes a descendant of it; a simple class or id
      selector gives both the compound and the descendant; anything else
      becomes a descendant. */
  function ScopeSelector(scope: string, sel: string): (r: seq<string>)
    ensures |r| == if Expands(sel) then 2 else 1
    ensures forall i :: 0 <= i < |r| ==>
              Text.StartsWith(r[i], scope) && (r[i][|scope|..] == sel || r[i][|scope|..] == " " + sel)
    ensures IsPseudo(sel) ==> r == [scope + sel]
    ensures Expands(sel) ==> r == [scope + sel, scope + " " + sel]
    ensures !IsPseudo(sel) && !Expands(sel) ==> r == [scope + " " + sel]
  {
    if IsPseudo(sel) then [scope + sel]
    else if IsUniversal(sel) then [scope + " " + sel]
    else if IsSimple(sel) then [scope + sel, scope + " " + sel]
    else [scope + " " + sel]
  }

  /** How many selectors expand. */
  function ExpandCount(sels: seq<string>): nat
    decreases |sels|
  {
    if |sels| == 0 then 0 else ExpandCount(sels[..|sels| - 1]) + (if Expands(sels[|sels| - 1]) then 1 else 0)
  }

  /** `selectors.flatMap(...)`: the scoped forms, selector by selector, in
      order. */
  function ScopeAll(scope: string, sels: seq<string>): (r: seq<string>)
    ensures |r| == |sels| + ExpandCount(sels)
    ensures forall i :: 0 <= i < |r| ==> Text.StartsWith(r[i], scope)
    ensures forall i :: 0 <= i < |r| ==>
              Text.StartsWith(r[i], scope) &&
              exists j :: 0 <= j < |sels| && (r[i][|scope|..] == sels[j] || r[i][|scope|..] == " " + sels[j])
    decreases |sels|
  {
    if |sels| == 0 then []
    else
      var init := sels[..|sels| - 1];
      var last := sels[|sels| - 1];
      var before := ScopeAll(scope, init);
      var r := before + ScopeSelector(scope, last);
      assert forall i :: 0 <= i < |before| ==> r[i] == before[i];
      assert forall j :: 0 <= j < |init| ==> init[j] == sels[j];
      r
  }

  /** Scoping a list of selectors scopes its parts one after the other, so
      the output follows the order of the input selectors. */
  lemma {:induction false} ScopeAllAppend(scope: string, a: seq<string>, b: seq<string>)
    ensures ScopeAll(scope, a + b) == ScopeAll(scope, a) + ScopeAll(scope, b)
    decreases |b|
  {
    if |b| == 0 {
      assert a + b == a;
    } else {
      var init, last := b[..|b| - 1], b[|b| - 1];
      assert (a + b)[..|a + b| - 1] == a + init;
      assert (a + b)[|a + b| - 1] == last;
      ScopeAllAppend(scope, a, init);
    }
  }

  /** Whether the rule is left alone whatever its selector. */
  predicate Skipped(shouldScope: bool, parent: Parent) {
    !shouldScope || (parent.AtRule? && parent.name in UNSCOPED_AT_RULES)
  }

  /** The `Rule` visitor: the rule's selector afterwards. A rule the filter
      rejects, whose selectors are all scoped already, or that sits in a
      keyframes or font-face at-rule is left alone; `:root`, `html` and `body`
      become the scope itself; otherwise the selectors are scoped one by one
      and joined with ", ". */
  function ScopeRule(scopeOption: string, shouldScope: bool, selector: string, parent: Parent): (r: string)
    ensures Skipped(shouldScope, parent) || AllScoped(Selectors(selector), Scope(scopeOption)) ==> r == selector
    ensures !Skipped(shouldScope, parent) && !AllScoped(Selectors(selector), Scope(scopeOption))
            && selector in {":root", "html", "body"} ==>
              r == Scope(scopeOption)
    ensures !Skipped(shouldScope, parent) && !AllScoped(Selectors(selector), Scope(scopeOption))
            && selector !in {":root", "html", "body"} ==>
              r == Text.Join(", ", ScopeAll(Scope(scopeOption), Selectors(selector)))
  {
    var scope := Scope(scopeOption);
    var sels := Selectors(selector);
    if !shouldScope then selector
    else if AllScoped(sels, scope) then selector
    else if parent.AtRule? && parent.name in UNSCOPED_AT_RULES then selector
    else if selector == ":root" then scope
    else if selector == "html" || selector == "body" then scope
    else Text.Join(", ", ScopeAll(scope, sels))
  }

  /** A scope the second pass recognises: no comma in it, and no white space
      at either end, so that splitting and trimming give it back. */
  predicate WellFormedScope(scope: string) {
    scope != "" && ',' !in scope && !Text.IsSpace(scope[0]) && !Text.IsSpace(scope[|scope| - 1])
  }

  lemma DefaultScopeIsWellFormed()
    ensures WellFormedScope(DEFAULT_SCOPE)
  {
  }

  /** The parts after the first, each with a leading space. */
  function Spaced(outs: seq<string>): (r: seq<string>)
    requires |outs| >= 1
    ensures |r| == |outs| && r[0] == outs[0]
    ensures forall i :: 1 <= i < |r| ==> r[i] == " " + outs[i]
  {
    [outs[0]] + seq(|outs| - 1, i requires 0 <= i < |outs| - 1 => " " + outs[i + 1])
  }

  lemma JoinPrefixFirst(sep: string, p: string, x: string, rest: seq<string>)
    ensures Text.Join(sep, [p + x] + rest) == p + Text.Join(sep, [x] + rest)
  {
    if |rest| > 0 {
      assert ([p + x] + rest)[1..] == rest;
      assert ([x] + rest)[1..] == rest;
    }
  }

  /** Joining with ", " is joining with "," the parts spaced. */
  lemma {:induction false} JoinCommaSpace(outs: seq<string>)
    requires |outs| >= 1
    ensures Text.Join(", ", outs) == Text.Join(",", Spaced(outs))
    decreases |outs|
  {
    if |outs| >= 2 {
      var tail := outs[1..];
      JoinCommaSpace(tail);
      var rest := Spaced(outs)[2..];
      assert Spaced(tail) == [outs[1]] + rest;
      assert Spaced(outs) == [outs[0]] + ([" " + outs[1]] + rest);
      JoinPrefixFirst(",", " ", outs[1], rest);
      assert Text.Join(",", Spaced(outs)) == outs[0] + "," + Text.Join(",", [" " + outs[1]] + rest);
    }
  }

  /** Trimming a selector that starts with a well-formed scope, with or
      without a leading space, keeps the scope at its head. */
  lemma TrimKeepsScope(scope: string, out: string)
    requires WellFormedScope(scope) && Text.StartsWith(out, scope)
    ensures Text.StartsWith(Text.Trim(out), scope)
    ensures Text.StartsWith(Text.Trim(" " + out), scope)
  {
    assert out[0] == scope[0];
    assert Text.TrimStart(out) == out;
    assert (" " + out)[1..] == out;
    assert Text.TrimStart(" " + out) == out;
    assert out[|scope| - 1] == scope[|scope| - 1];
    Text.TrimEndKeeps(out, |scope| - 1);
    var t := Text.TrimEnd(out);
    assert t[..|scope|] == out[..|scope|];
  }

  /** A scoped form of comma-free selectors has no comma. */
  lemma ScopedHasNoComma(scope: string, sels: seq<string>, out: string)
    requires ',' !in scope
    requires forall i :: 0 <= i < |sels| ==> ',' !in sels[i]
    requires Text.StartsWith(out, scope)
    requires exists j :: 0 <= j < |sels| && (out[|scope|..] == sels[j] || out[|scope|..] == " " + sels[j])
    ensures ',' !in out && ',' !in " " + out
  {
    var j :| 0 <= j < |sels| && (out[|scope|..] == sels[j] || out[|scope|..] == " " + sels[j]);
    assert out == scope + out[|scope|..];
  }

  /** Everything the plugin writes is recognised as scoped by a second pass. */
  lemma {:induction false} ScopedOutputIsScoped(scope: string, sels: seq<string>)
    requires WellFormedScope(scope)
    requires |sels| >= 1
    requires forall i :: 0 <= i < |sels| ==> ',' !in sels[i]
    ensures AllScoped(Selectors(Text.Join(", ", ScopeAll(scope, sels))), scope)
  {
    var outs := ScopeAll(scope, sels);
    assert |outs| >= 1;
    JoinCommaSpace(outs);
    var spaced := Spaced(outs);
    forall k | 0 <= k < |spaced|
      ensures ',' !in spaced[k]
    {
      ScopedHasNoComma(scope, sels, outs[k]);
    }
    Text.SplitJoin(spaced, ',');
    assert [','] == ",";
    var result := Selectors(Text.Join(", ", outs));
    forall i | 0 <= i < |result|
      ensures Text.StartsWith(result[i], scope)
    {
      TrimKeepsScope(scope, outs[i]);
    }
  }

  /** Scoping is idempotent: applying the plugin to its own output (with the
      same filter answer and parent) changes nothing, provided the scope
      survives splitting and trimming. */
  lemma {:induction false} ScopeRuleIdempotent(scopeOption: string, shouldScope: bool, selector: string, parent: Parent)
    requires WellFormedScope(Scope(scopeOption))
    ensures ScopeRule(scopeOption, shouldScope, ScopeRule(scopeOption, shouldScope, selector, parent), parent)
              == ScopeRule(scopeOption, shouldScope, selector, parent)
  {
    var scope := Scope(scopeOption);
    var sels := Selectors(selector);
    var out := ScopeRule(scopeOption, shouldScope, selector, parent);
    if Skipped(shouldScope, parent) {
      assert out == selector;
    } else if AllScoped(sels, scope) {
      assert out == selector;
      FixedWhenScoped(scopeOption, shouldScope, selector, parent);
    } else if selector in {":root", "html", "body"} {
      assert out == scope;
      ScopeIsScoped(scope);
      FixedWhenScoped(scopeOption, shouldScope, out, parent);
    } else {
      assert out == Text.Join(", ", ScopeAll(scope, sels));
      ScopedOutputIsScoped(scope, sels);
      FixedWhenScoped(scopeOption, shouldScope, out, parent);
    }
  }

  lemma FixedWhenScoped(scopeOption: string, shouldScope: bool, selector: string, parent: Parent)
    requires AllScoped(Selectors(selector), Scope(scopeOption))
    ensures ScopeRule(scopeOption, shouldScope, selector, parent) == selector
  {
  }

  /** A well-formed scope, taken as a selector, counts as scoped. */
  lemma ScopeIsScoped(scope: string)
    requires WellFormedScope(scope)
    ensures AllScoped(Selectors(scope), scope)
  {
    Text.SplitWithoutSeparator(scope, ',');
    TrimKeepsScope(scope, scope);
    assert Selectors(scope) == [Text.Trim(scope)];
  }
}

=== FILE: sed_api.dfy ===
/** The host-side SED-ML API's simulation dispatch: the fixed simulation kind
    discriminants, the classification of a simulation (by the native bridge's
    integer on the native path, by constructor name on the WebAssembly path),
    and the wrapper class chosen for the kind. */
module SedApi {
  import opened Wrappers
  import NativeCommon
  import NativeSed

  /** `ESedSimulationType`. */
  datatype SimulationKind = Analysis | SteadyState | OneStep | UniformTimeCourse {

    function Value(): nat {
      match this
      case Analysis => 0
      case SteadyState => 1
      case OneStep => 2
      case UniformTimeCourse => 3
    }
  }

  /** The simulation kind carrying discriminant `n`, if any. */
  function KindFromValue(n: int): (r: Option<SimulationKind>)
    ensures r.Some? <==> 0 <= n <= 3
    ensures r.Some? ==> r.value.Value() == n
  {
    if n == 0 then Some(Analysis)
    else if n == 1 then Some(SteadyState)
    else if n == 2 then Some(OneStep)
    else if n == 3 then Some(UniformTimeCourse)
    else None
  }

  /** Where `SedDocument.simulation` gets the kind from: the native bridge's
      `sedDocumentSimulationType`, or the WebAssembly object's constructor name. */
  datatype SimulationSource = FromNative(discriminant: int) | FromWasm(constructorName: string)

  /** `SedSimulation` and its subclasses: the class picked and the `_type`
      stored in it. */
  datatype SimulationClass = AnalysisClass | SteadyStateClass | OneStepClass | UniformTimeCourseClass

  datatype SedSimulation = SedSimulation(cls: SimulationClass, kind: int)

  /** The discriminant `SedDocument.simulation` settles on before choosing a
      class: the bridge's integer as is, or a case on the constructor name
      whose default is the uniform time course. */
  function Classify(source: SimulationSource): (kind: int)
    ensures source.FromWasm? ==> 0 <= kind <= 3
    ensures source.FromWasm? ==>
              (kind == 0 <==> source.constructorName == "SedAnalysis") &&
              (kind == 1 <==> source.constructorName == "SedSteadyState") &&
              (kind == 2 <==> source.constructorName == "SedOneStep")
    ensures source.FromNative? ==> kind == source.discriminant
  {
    match source
    case FromNative(n) => n
    case FromWasm(name) =>
      if name == "SedAnalysis" then Analysis.Value()
      else if name == "SedSteadyState" then SteadyState.Value()
      else if name == "SedOneStep" then OneStep.Value()
      else UniformTimeCourse.Value()
  }

  /** The class for a discriminant: the first three kinds have their own class,
      anything else gets the uniform time course class. */
  function ClassFor(kind: int): (cls: SimulationClass)
    ensures cls == AnalysisClass <==> kind == 0
    ensures cls == SteadyStateClass <==> kind == 1
    ensures cls == OneStepClass <==> kind == 2
    ensures cls == UniformTimeCourseClass <==> kind !in {0, 1, 2}
  {
    if kind == Analysis.Value() then AnalysisClass
    else if kind == SteadyState.Value() then SteadyStateClass
    else if kind == OneStep.Value() then OneStepClass
    else UniformTimeCourseClass
  }

  /** `SedDocument.simulation(index)`: the wrapper class matches the type it
      stores, that type is the bridge's integer on the native path, and on the
      WebAssembly path the class matches the engine object's constructor. */
  function Simulation(source: SimulationSource): (w: SedSimulation)
    ensures w.cls == AnalysisClass <==> w.kind == Analysis.Value()
    ensures w.cls == SteadyStateClass <==> w.kind == SteadyState.Value()
    ensures w.cls == OneStepClass <==> w.kind == OneStep.Value()
    ensures w.cls == UniformTimeCourseClass <==> w.kind !in {0, 1, 2}
    ensures source.FromNative? ==> w.kind == source.discriminant
    ensures source.FromWasm? ==>
              KindFromValue(w.kind).Some?
              && (w.cls == AnalysisClass <==> source.constructorName == "SedAnalysis")
              && (w.cls == SteadyStateClass <==> source.constructorName == "SedSteadyState")
              && (w.cls == OneStepClass <==> source.constructorName == "SedOneStep")
              && (w.cls == UniformTimeCourseClass <==>
                    source.constructorName !in {"SedAnalysis", "SedSteadyState", "SedOneStep"})
  {
    SedSimulation(ClassFor(Classify(source)), Classify(source))
  }

  /** `SedSimulation.type()`. */
  function Type(w: SedSimulation): int {
    w.kind
  }

  /** Two sources with the same kind get the same wrapper, and `type()` gives
      back the kind the wrapper was built from. */
  lemma {:induction false} WrapperDependsOnKindOnly(a: SimulationSource, b: SimulationSource)
    requires Classify(a) == Classify(b)
    ensures Simulation(a) == Simulation(b)
    ensures Type(Simulation(a)) == Classify(a)
  {
  }

  /** The class tag and the stored kind always agree on the WebAssembly path,
      and every constructor name lands in exactly one of the four kinds. */
  lemma {:induction false} WasmClassificationTotal(name: string)
    ensures var w := Simulation(FromWasm(name));
            KindFromValue(w.kind).Some?
            && (w.cls == AnalysisClass <==> KindFromValue(w.kind) == Some(Analysis))
            && (w.cls == SteadyStateClass <==> KindFromValue(w.kind) == Some(SteadyState))
            && (w.cls == OneStepClass <==> KindFromValue(w.kind) == Some(OneStep))
            && (w.cls == UniformTimeCourseClass <==> KindFromValue(w.kind) == Some(UniformTimeCourse))
  {
    var w := Simulation(FromWasm(name));
    assert 0 <= w.kind <= 3;
  }

  /** On the native path the discriminant is `sedDocumentSimulationType`'s, so
      the wrapper's class is the one for the engine simulation's own class,
      any unlisted engine class falling to the uniform time course. */
  lemma {:induction false} NativeWrapperMatchesEngine(simulation: NativeCommon.Simulation)
    ensures var w := Simulation(FromNative(NativeSed.SimulationType(simulation)));
            && (w.cls == AnalysisClass <==> simulation.Analysis?)
            && (w.cls == SteadyStateClass <==> simulation.SteadyState?)
            && (w.cls == OneStepClass <==> simulation.OneStep?)
            && (w.cls == UniformTimeCourseClass <==>
                  simulation.UniformTimeCourse? || simulation.Unlisted?)
  {
    var k := NativeSed.SimulationType(simulation);
    assert 0 <= k <= 3;
  }
}

=== FILE: seqs.dfy ===
/** Facts about sequences of any element type, stated once so that proofs
    about sequences of large records need not re-derive them element by
    element. */
module Seqs {

  /** Dropping the last element of `a + b` drops the last element of `b`. */
  lemma DropLastOfAppend<T>(a: seq<T>, b: seq<T>)
    requires |b| > 0
    ensures (a + b)[..|a + b| - 1] == a + b[..|b| - 1]
    ensures (a + b)[|a + b| - 1] == b[|b| - 1]
  {
  }

  lemma AppendAssociative<T>(x: seq<T>, y: seq<T>, z: seq<T>)
    ensures (x + y) + z == x + (y + z)
  {
  }

  /** A non-empty sequence is its front followed by its last element, and
      so is its multiset. */
  lemma SplitLast<T>(s: seq<T>)
    requires |s| > 0
    ensures s == s[..|s| - 1] + [s[|s| - 1]]
    ensures multiset(s) == multiset(s[..|s| - 1]) + multiset{s[|s| - 1]}
  {
    assert s == s[..|s| - 1] + [s[|s| - 1]];
  }

  lemma EmptyAppend<T>(a: seq<T>)
    ensures [] + a == a
  {
  }

  /** The prefixes of a two-element sequence. */
  lemma PrefixesOfTwo<T>(s: seq<T>)
    requires |s| == 2
    ensures s[..0] == [] && s[..1] == [s[0]] && s[..2] == s
  {
  }

  /** How many times `x` occurs in `s`. */
  function Occurrences<T(==)>(s: seq<T>, x: T): nat
    decreases |s|
  {
    if |s| == 0 then 0 else Occurrences(s[..|s| - 1], x) + (if s[|s| - 1] == x then 1 else 0)
  }

  /** The count is the multiplicity of `x` in the multiset of `s`. */
  lemma {:induction false} OccurrencesIsMultiplicity<T>(s: seq<T>, x: T)
    ensures Occurrences(s, x) == multiset(s)[x]
    decreases |s|
  {
    if |s| > 0 {
      OccurrencesIsMultiplicity(s[..|s| - 1], x);
      SplitLast(s);
    }
  }
}

=== FILE: settings.dfy ===
/** The renderer's settings object: its defaults, the queue of callbacks
    waiting for the settings to be loaded, and the loading itself.

    Callbacks are named by numbers; running one is recorded by appending its
    number to `ran`, so that the model can say which ran, how often and in
    which order. What a callback does is outside the model. */
module Settings {
  import opened Wrappers

  datatype General = General(checkForUpdatesAtStartup: bool)

  /** The settings proper (`ISettings`). */
  datatype Values = Values(general: General)

  /** The object's state: the settings, whether they are initialised, the
      callbacks still waiting, and the callbacks run so far. */
  datatype State = State(values: Values, initialised: bool, waiting: seq<nat>, ran: seq<nat>)

  /** Where `load` finds the settings: the desktop bridge, once its promise
      resolves with them, or the `settings` cookie of the web version, which
      may be missing. */
  datatype Source = Desktop(loaded: Values) | Cookie(data: Option<string>)

  const DEFAULTS: Values := Values(General(true))

  /** Once the settings are initialised, no callback waits. */
  predicate Settled(s: State) {
    s.initialised ==> s.waiting == []
  }

  /** `reset`: back to the defaults, which check for updates at startup. */
  function Reset(s: State): (t: State)
    ensures t.values.general.checkForUpdatesAtStartup
    ensures t.initialised == s.initialised && t.waiting == s.waiting && t.ran == s.ran
    ensures Settled(s) ==> Settled(t)
  {
    s.(values := DEFAULTS)
  }

  /** `emitInitialised`: mark the settings initialised and run the waiting
      callbacks, each once and in the order they were registered. */
  function EmitInitialised(s: State): (t: State)
    ensures t.initialised && t.waiting == [] && Settled(t)
    ensures t.ran == s.ran + s.waiting
    ensures t.values == s.values
  {
    State(s.values, true, [], s.ran + s.waiting)
  }

  /** `onInitialised(callback)`: run it now if the settings are initialised,
      otherwise queue it behind the others. */
  function OnInitialised(s: State, callback: nat): (t: State)
    ensures s.initialised ==> t.ran == s.ran + [callback] && t.waiting == s.waiting
    ensures !s.initialised ==> t.waiting == s.waiting + [callback] && t.ran == s.ran
    ensures Settled(s) ==> t.ran + t.waiting == s.ran + s.waiting + [callback]
    ensures t.values == s.values && t.initialised == s.initialised
    ensures Settled(s) ==> Settled(t)
  {
    if s.initialised then s.(ran := s.ran + [callback]) else s.(waiting := s.waiting + [callback])
  }

  /** `load`: the desktop version takes the settings the bridge resolves
      with; the web version parses the cookie, if there is one, and falls
      back to the defaults when it does not parse. Either way the settings
      are then initialised. */
  function Load(s: State, source: Source, parse: string -> Option<Values>): (t: State)
    ensures t == EmitInitialised(t.(initialised := s.initialised, waiting := s.waiting, ran := s.ran))
    ensures source.Desktop? ==> t.values == source.loaded
    ensures source == Cookie(None) ==> t.values == s.values
    ensures source.Cookie? && source.data.Some? && parse(source.data.value).None? ==> t.values == DEFAULTS
    ensures source.Cookie? && source.data.Some? && parse(source.data.value).Some? ==>
              t.values == parse(source.data.value).value
  {
    match source
    case Desktop(loaded) => EmitInitialised(s.(values := loaded))
    case Cookie(None) => EmitInitialised(s)
    case Cookie(Some(data)) =>
      match parse(data)
      case Some(values) => EmitInitialised(s.(values := values))
      case None => EmitInitialised(Reset(s))
  }

  /** The constructor: the defaults, nothing waiting, nothing run. Loading
      follows separately, since the desktop bridge answers later. */
  function Fresh(): (s: State)
    ensures s.values.general.checkForUpdatesAtStartup && !s.initialised && Settled(s)
    ensures s.waiting == [] && s.ran == []
  {
    Reset(State(Values(General(false)), false, [], []))
  }

  /** `Settings.instance()`: the object already made, or a new one, which is
      then kept. */
  function Instance(slot: Option<State>, make: State): (r: (Option<State>, State))
    ensures r.0 == Some(r.1)
    ensures slot.Some? ==> r.1 == slot.value
  {
    match slot
    case Some(s) => (slot, s)
    case None => (Some(make), make)
  }

  /** Asking twice gives the same object, whatever the second request would
      have made. */
  lemma InstanceIsShared(slot: Option<State>, make1: State, make2: State)
    ensures Instance(Instance(slot, make1).0, make2).1 == Instance(slot, make1).1
  {
  }

  /** What can happen to the object: a callback is registered, or the
      settings are loaded. */
  datatype Event = Register(callback: nat) | Loaded(source: Source)

  function Step(s: State, e: Event, parse: string -> Option<Values>): State {
    match e
    case Register(callback) => OnInitialised(s, callback)
    case Loaded(source) => Load(s, source, parse)
  }

  function Run(s: State, events: seq<Event>, parse: string -> Option<Values>): State
    decreases |events|
  {
    if |events| == 0 then s else Step(Run(s, events[..|events| - 1], parse), events[|events| - 1], parse)
  }

  /** The callbacks registered by `events`, in order. */
  function Registered(events: seq<Event>): seq<nat>
    decreases |events|
  {
    if |events| == 0 then []
    else Registered(events[..|events| - 1])
         + (match events[|events| - 1] case Register(c) => [c] case Loaded(_) => [])
  }

  /** Over any run, no callback is lost, run twice or run out of order: the
      callbacks run followed by those still waiting are exactly the
      callbacks registered, in registration order. The object stays
      settled. */
  lemma {:induction false} RunKeepsRegistrationOrder(s: State, events: seq<Event>, parse: string -> Option<Values>)
    requires Settled(s)
    ensures Settled(Run(s, events, parse))
    ensures Run(s, events, parse).ran + Run(s, events, parse).waiting == s.ran + s.waiting + Registered(events)
    decreases |events|
  {
    if |events| > 0 {
      RunKeepsRegistrationOrder(s, events[..|events| - 1], parse);
    }
  }

  /** Once the settings have been loaded, every callback registered from
      the start has run, in registration order. */
  lemma {:induction false} AllRunAfterLoad(events: seq<Event>, parse: string -> Option<Values>)
    requires |events| > 0 && events[|events| - 1].Loaded?
    ensures Run(Fresh(), events, parse).ran == Registered(events)
  {
    RunKeepsRegistrationOrder(Fresh(), events, parse);
    var before := Run(Fresh(), events[..|events| - 1], parse);
    var after := Run(Fresh(), events, parse);
    assert after == Load(before, events[|events| - 1].source, parse);
    assert after.waiting == [];
    assert after.ran + after.waiting == after.ran;
    assert Fresh().ran + Fresh().waiting == [];
  }

  /** Before the settings are loaded, no callback runs: they all wait. */
  lemma {:induction false} NothingRunsBeforeLoad(events: seq<Event>, parse: string -> Option<Values>)
    requires forall i :: 0 <= i < |events| ==> events[i].Register?
    ensures Run(Fresh(), events, parse).ran == []
    ensures Run(Fresh(), events, parse).waiting == Registered(events)
    ensures !Run(Fresh(), events, parse).initialised
    decreases |events|
  {
    if |events| > 0 {
      NothingRunsBeforeLoad(events[..|events| - 1], parse);
    }
  }

  /** A settings cookie that does not parse leaves the defaults, and the
      waiting callbacks still run. */
  lemma UnparsableCookieFallsBack(s: State, data: string, parse: string -> Option<Values>)
    requires parse(data).None?
    ensures Load(s, Cookie(Some(data)), parse).values == DEFAULTS
    ensures Load(s, Cookie(Some(data)), parse).ran == s.ran + s.waiting
  {
  }
}

=== FILE: text.dfy ===
/** String helpers shared by the host-side utilities: ASCII case mapping,
    prefix and suffix tests, splitting on one character, joining, trimming and
    decimal printing of integers.

    JavaScript's `toUpperCase`/`toLowerCase` and `trim` act on all of Unicode;
    this model maps only the ASCII letters and trims only ASCII white space. */
module Text {

  /** Upper-case an ASCII letter; every other character is left alone. */
  function UpperChar(c: char): char {
    if 'a' <= c <= 'z' then (c as int - 32) as char else c
  }

  /** Lower-case an ASCII letter; every other character is left alone. */
  function LowerChar(c: char): char {
    if 'A' <= c <= 'Z' then (c as int + 32) as char else c
  }

  lemma UpperCharIdempotent(c: char)
    ensures UpperChar(UpperChar(c)) == UpperChar(c)
  {
  }

  /** Lower-case every ASCII letter of `s`. */
  function Lower(s: string): (r: string)
    ensures |r| == |s|
    ensures forall i :: 0 <= i < |s| ==> r[i] == LowerChar(s[i])
  {
    seq(|s|, i requires 0 <= i < |s| => LowerChar(s[i]))
  }

  /** `s.charAt(0).toUpperCase() + s.slice(1)`. */
  function Capitalise(s: string): string {
    if |s| == 0 then s else [UpperChar(s[0])] + s[1..]
  }

  /** A text that already starts with a capital (or with no letter) is its
      own capitalisation. */
  lemma CapitaliseFixed(s: string)
    requires |s| > 0 && UpperChar(s[0]) == s[0]
    ensures Capitalise(s) == s
  {
    assert [s[0]] + s[1..] == s;
  }

  /** `s.charAt(0).toLowerCase() + s.slice(1)`. */
  function Decapitalise(s: string): string {
    if |s| == 0 then s else [LowerChar(s[0])] + s[1..]
  }

  /** Lower-casing the first character keeps the length and a final ".". */
  lemma {:induction false} DecapitaliseKeepsPeriod(s: string)
    ensures |Decapitalise(s)| == |s|
    ensures EndsWith(Decapitalise(s), ".") <==> EndsWith(s, ".")
  {
    var d := Decapitalise(s);
    if |s| > 0 {
      assert d[|d| - 1..] == [d[|d| - 1]] && s[|s| - 1..] == [s[|s| - 1]];
      if |s| > 1 {
        assert d == [LowerChar(s[0])] + s[1..];
        assert d[|d| - 1] == s[1..][|s| - 2] == s[|s| - 1];
      } else {
        assert d == [LowerChar(s[0])];
        assert LowerChar('.') == '.';
        assert d[0] == '.' <==> s[0] == '.';
      }
    }
  }

  predicate StartsWith(s: string, prefix: string) {
    |prefix| <= |s| && s[..|prefix|] == prefix
  }

  predicate EndsWith(s: string, suffix: string) {
    |suffix| <= |s| && s[|s| - |suffix|..] == suffix
  }

  /** `s.includes(needle)`. */
  predicate Contains(s: string, needle: string)
    decreases |s|
  {
    StartsWith(s, needle) || (|s| > 0 && Contains(s[1..], needle))
  }

  /** A case-insensitive `includes`, as a regular expression with the `i` flag
      tests a literal alternative. */
  predicate ContainsIgnoringCase(s: string, needle: string) {
    Contains(Lower(s), Lower(needle))
  }

  /** `s.split(sep)` for a one-character separator: always at least one part,
      and no part contains the separator. */
  function Split(s: string, sep: char): (parts: seq<string>)
    ensures |parts| >= 1
    ensures forall k :: 0 <= k < |parts| ==> sep !in parts[k]
    decreases |s|
  {
    if |s| == 0 then [""]
    else
      var rest := Split(s[1..], sep);
      if s[0] == sep then [""] + rest else [[s[0]] + rest[0]] + rest[1..]
  }

  /** `parts.join(sep)`. */
  function Join(sep: string, parts: seq<string>): string
    decreases |parts|
  {
    if |parts| == 0 then ""
    else if |parts| == 1 then parts[0]
    else parts[0] + sep + Join(sep, parts[1..])
  }

  /** Splitting text that does not contain the separator yields the text itself. */
  lemma {:induction false} SplitWithoutSeparator(s: string, sep: char)
    requires sep !in s
    ensures Split(s, sep) == [s]
    decreases |s|
  {
    if |s| > 0 {
      SplitWithoutSeparator(s[1..], sep);
      assert [s[0]] + s[1..] == s;
    }
  }

  /** Splitting at the first separator peels off the text before it. */
  lemma {:induction false} SplitAtFirstSeparator(a: string, sep: char, b: string)
    requires sep !in a
    ensures Split(a + [sep] + b, sep) == [a] + Split(b, sep)
    decreases |a|
  {
    if |a| == 0 {
      assert a + [sep] + b == [sep] + b;
      assert ([sep] + b)[1..] == b;
    } else {
      var s := a + [sep] + b;
      assert s[0] == a[0];
      assert s[1..] == a[1..] + [sep] + b;
      SplitAtFirstSeparator(a[1..], sep, b);
      assert [a[0]] + a[1..] == a;
    }
  }

  /** Splitting at a separator splits the text on either side independently. */
  lemma {:induction false} SplitAppend(a: string, sep: char, b: string)
    ensures Split(a + [sep] + b, sep) == Split(a, sep) + Split(b, sep)
    decreases |a|
  {
    if |a| == 0 {
      assert a + [sep] + b == [sep] + b;
      assert ([sep] + b)[1..] == b;
    } else {
      var s := a + [sep] + b;
      assert s[0] == a[0];
      assert s[1..] == a[1..] + [sep] + b;
      SplitAppend(a[1..], sep, b);
    }
  }

  /** Splitting a join of separator-free parts gives the parts back. */
  lemma {:induction false} SplitJoin(parts: seq<string>, sep: char)
    requires |parts| >= 1
    requires forall k :: 0 <= k < |parts| ==> sep !in parts[k]
    ensures Split(Join([sep], parts), sep) == parts
    decreases |parts|
  {
    if |parts| == 1 {
      SplitWithoutSeparator(parts[0], sep);
    } else {
      SplitJoin(parts[1..], sep);
      SplitAtFirstSeparator(parts[0], sep, Join([sep], parts[1..]));
      assert [parts[0]] + parts[1..] == parts;
    }
  }

  predicate IsSpace(c: char) {
    c == ' ' || c == '\t' || c == '\n' || c == '\r' || c == '\U{B}' || c == '\U{C}'
  }

  function TrimStart(s: string): (r: string)
    ensures |r| == 0 || !IsSpace(r[0])
    ensures |r| <= |s| && r == s[|s| - |r|..]
    decreases |s|
  {
    if |s| > 0 && IsSpace(s[0]) then TrimStart(s[1..]) else s
  }

  function TrimEnd(s: string): (r: string)
    ensures |r| == 0 || !IsSpace(r[|r| - 1])
    ensures |r| <= |s| && r == s[..|r|]
    decreases |s|
  {
    if |s| > 0 && IsSpace(s[|s| - 1]) then TrimEnd(s[..|s| - 1]) else s
  }

  /** `s.trim()`: no white space left at either end. */
  function Trim(s: string): (r: string)
    ensures forall c :: c in r ==> c in s
  {
    var start := TrimStart(s);
    var r := TrimEnd(start);
    assert forall c :: c in r ==> c in start;
    r
  }

  /** Trimming keeps everything up to the last character that is not white
      space. */
  lemma {:induction false} TrimEndKeeps(s: string, j: nat)
    requires j < |s| && !IsSpace(s[j])
    ensures |TrimEnd(s)| > j
    decreases |s|
  {
    if IsSpace(s[|s| - 1]) {
      TrimEndKeeps(s[..|s| - 1], j);
    }
  }

  function Digit(d: nat): char
    requires d < 10
  {
    "0123456789"[d]
  }

  /** The decimal form of a natural number, as `String(n)` prints it. */
  function NatToString(n: nat): (r: string)
    ensures |r| >= 1
    ensures forall i :: 0 <= i < |r| ==> '0' <= r[i] <= '9'
    decreases n
  {
    if n < 10 then [Digit(n)] else NatToString(n / 10) + [Digit(n % 10)]
  }

  /** The decimal form of an integer, with a leading `-` when negative. */
  function IntToString(i: int): string {
    if i < 0 then "-" + NatToString(-i) else NatToString(i)
  }

  /** The value of a non-empty string of decimal digits. */
  function DigitsValue(s: string): nat
    requires forall i :: 0 <= i < |s| ==> '0' <= s[i] <= '9'
    decreases |s|
  {
    if |s| == 0 then 0 else DigitsValue(s[..|s| - 1]) * 10 + (s[|s| - 1] as int - '0' as int)
  }

  predicate IsDigits(s: string) {
    |s| > 0 && forall i :: 0 <= i < |s| ==> '0' <= s[i] <= '9'
  }

  lemma DigitValue(d: nat)
    requires d < 10
    ensures Digit(d) as int - '0' as int == d
  {
    if d == 0 {} else if d == 1 {} else if d == 2 {} else if d == 3 {} else if d == 4 {}
    else if d == 5 {} else if d == 6 {} else if d == 7 {} else if d == 8 {} else {}
  }

  /** Reading back the decimal form of a number gives the number. */
  lemma {:induction false} NatToStringRoundTrip(n: nat)
    ensures IsDigits(NatToString(n))
    ensures DigitsValue(NatToString(n)) == n
    decreases n
  {
    var s := NatToString(n);
    if n < 10 {
      DigitValue(n);
      assert s[..0] == [];
    } else {
      NatToStringRoundTrip(n / 10);
      assert s[..|s| - 1] == NatToString(n / 10);
      DigitValue(n % 10);
    }
  }
}

=== FILE: ui_json_api.dfy ===
/** The renderer's `validateUiJson`: a missing (falsy) UI JSON gives a single
    warning; otherwise the document is cleaned, checked against the schema
    (whose report, if any, becomes the warnings) and, if it passes, put
    through the semantic checks.

    The JSON schema validator is not modelled: it is a parameter that says
    whether the cleaned document is valid and, if so, how it reads as a typed
    document. */
module UiJsonApi {
  import opened Logger
  import Text
  import Common
  import Json
  import opened UiJsonChecks

  /** `common.formatMessage(line)`, self-contained. */
  function SentenceForm(line: string): string {
    Common.FormatMessage(line, true)
  }

  /** `validateUiJson`. */
  method ValidateUiJson(uiJson: Json.Json, schema: Json.Json -> SchemaVerdict, show: real -> string)
    returns (issues: seq<Issue>)
    ensures Json.Falsy(uiJson) ==> issues == [Issue(Warning, NO_UI_JSON)]
    ensures AllWarnings(issues)
    ensures !Json.Falsy(uiJson) ==>
              match schema(Json.CleanValue(uiJson))
              case Invalid(report) => issues == SchemaWarnings(Text.Split(report, '\n'), SentenceForm)
              case Valid(doc) => issues == Warnings(DocumentFindings(Renderer, doc), show)
  {
    if Json.Falsy(uiJson) {
      return [Issue(Warning, NO_UI_JSON)];
    }
    var cleaned := Json.CleanValue(uiJson);
    match schema(cleaned)
    case Invalid(report) =>
      issues := SchemaWarnings(Text.Split(report, '\n'), SentenceForm);
    case Valid(doc) =>
      var findings := CheckDocument(Renderer, doc);
      issues := Warnings(findings, show);
  }
}

=== FILE: ui_json_checks.dfy ===
/** The semantic checks both UI JSON validators run once a document has passed
    the schema: the renderer's `validateUiJson` and the main process's older
    `uiJsonIssues`. The two walk the document in the same order (inputs, output
    data, output plots, parameters) and mostly apply the same rules; where they
    differ, the `Flavour` says which one is meant.

    Each check is first described by a finding (what is wrong and with which
    values) and then rendered as the warning text the validators push. */
module UiJsonChecks {
  import opened Wrappers
  import opened Logger
  import Text
  import Common
  import Seqs

  /** Which validator: the renderer's or the main process's. */
  datatype Flavour = Renderer | MainProcess

  /** A possible value of a discrete input. */
  datatype PossibleValue = PossibleValue(name: string, value: real)

  /** An input as the schema admits it: a discrete input carries possible
      values, a scalar input a minimum and a maximum value. */
  datatype Input = Input(defaultValue: real, id: Option<string>, name: string,
                         possibleValues: Option<seq<PossibleValue>>,
                         minimumValue: Option<real>, maximumValue: Option<real>,
                         stepValue: Option<real>, visible: Option<string>)
  {
    /** `'possibleValues' in input` / `input.possibleValues !== undefined`. */
    predicate IsDiscrete() {
      possibleValues.Some?
    }

    /** Both bounds are there. */
    predicate IsScalar() {
      minimumValue.Some? && maximumValue.Some?
    }
  }

  datatype OutputData = OutputData(id: Option<string>, name: string)

  datatype Trace = Trace(xValue: string, yValue: string, name: Option<string>)

  datatype Plot = Plot(xAxisTitle: Option<string>, xValue: string, yAxisTitle: Option<string>,
                       yValue: string, name: Option<string>, additionalTraces: Option<seq<Trace>>)

  datatype Parameter = Parameter(name: string, value: string)

  /** A UI JSON document that passed the schema. */
  datatype Document = Document(input: seq<Input>, data: seq<OutputData>, plots: seq<Plot>,
                               parameters: Option<seq<Parameter>>)

  /** What the schema validator says about a document: it is valid (and then
      reads as a typed document) or it is not, with a report whose lines are
      the individual problems. */
  datatype SchemaVerdict = Valid(document: Document) | Invalid(report: string)

  /** One problem found by the semantic checks. */
  datatype Finding =
    | InputIdEmpty
    | InputIdNotUnique(id: string)
    | InputNameEmpty
    | PossibleValueNameEmpty
    | PossibleValueNotUnique(value: real)
    | DefaultNotPossible(defaultValue: real, values: seq<real>)
    | MinimumNotBelowMaximum(minimum: real, maximum: real)
    | DefaultOutOfRange(defaultValue: real, minimum: real, maximum: real)
    | StepOutOfRange(step: real, range: real)
    | StepNotFactor(step: real, range: real)
    | DefaultStepNotFactor(range: real)
    | VisibleEmpty
    | OutputIdEmpty
    | OutputIdNotUnique(key: string)
    | OutputNameEmpty
    | PlotXAxisTitleEmpty
    | PlotXValueEmpty
    | PlotYAxisTitleEmpty
    | PlotYValueEmpty
    | TraceXValueEmpty
    | TraceYValueEmpty
    | ParameterNameEmpty
    | ParameterValueEmpty

  const PREFIX: string := "UI JSON: "
  const NO_UI_JSON: string := "UI JSON: no UI JSON was provided."

  const INPUT_ID_EMPTY: string := "an input id must not be empty"
  const INPUT_ID_UNIQUE: string := "an input id must be unique ("
  const USED_MORE_THAN_ONCE: string := " is used more than once)"
  const INPUT_NAME_EMPTY: string := "an input name must not be empty"
  const POSSIBLE_VALUE_NAME_EMPTY: string := "an input possible value name must not be empty"
  const POSSIBLE_VALUE_UNIQUE: string := "an input possible value must have a unique value ("
  const DEFAULT_VALUE: string := "an input default value ("
  const ONE_OF_POSSIBLE_VALUES: string := ") must be one of the possible values ("
  const MINIMUM_VALUE: string := "an input minimum value ("
  const LOWER_THAN_MAXIMUM: string := ") must be lower than the maximum value ("
  const AT_LEAST_MINIMUM: string := ") must be greater or equal than the minimum value ("
  const AT_MOST_MAXIMUM: string := ") and lower or equal than the maximum value ("
  const STEP_VALUE: string := "an input step value ("
  const STEP_IN_RANGE: string := ") must be greater than zero and lower or equal than the range value ("
  const STEP_FACTOR: string := ") must be a factor of the range value ("
  const DEFAULT_STEP_FACTOR: string := "a (default) input step value (1) must be a factor of the range value ("
  const CLOSE: string := ")"
  const VISIBLE_EMPTY: string := "an input visible must not be empty"
  const OUTPUT_ID_EMPTY: string := "an output data id must not be empty"
  const OUTPUT_ID_UNIQUE: string := "an output data id must be unique ("
  const OUTPUT_NAME_EMPTY: string := "an output data name must not be empty"
  const PLOT_X_AXIS_TITLE_EMPTY: string := "an output plot X axis title must not be empty"
  const PLOT_X_VALUE_EMPTY: string := "an output plot X value must not be empty"
  const PLOT_Y_AXIS_TITLE_EMPTY: string := "an output plot Y axis title must not be empty"
  const PLOT_Y_VALUE_EMPTY: string := "an output plot Y value must not be empty"
  const TRACE_X_VALUE_EMPTY: string := "an output plot additional trace X value must not be empty"
  const TRACE_Y_VALUE_EMPTY: string := "an output plot additional trace Y value must not be empty"
  const PARAMETER_NAME_EMPTY: string := "a parameter name must not be empty"
  const PARAMETER_VALUE_EMPTY: string := "a parameter value must not be empty"

  /** `values.join(', ')`, each value printed with `show`. */
  function ShowValues(values: seq<real>, show: real -> string): string {
    Text.Join(", ", seq(|values|, i requires 0 <= i < |values| => show(values[i])))
  }

  /** The text of a finding, after the "UI JSON: " prefix; numbers are printed
      with `show` (`String(number)`). */
  function Message(f: Finding, show: real -> string): (r: string)
    ensures Text.EndsWith(r, ".")
  {
    Sentence(match f
    case InputIdEmpty => INPUT_ID_EMPTY
    case InputIdNotUnique(id) => INPUT_ID_UNIQUE + id + USED_MORE_THAN_ONCE
    case InputNameEmpty => INPUT_NAME_EMPTY
    case PossibleValueNameEmpty => POSSIBLE_VALUE_NAME_EMPTY
    case PossibleValueNotUnique(v) => POSSIBLE_VALUE_UNIQUE + show(v) + USED_MORE_THAN_ONCE
    case DefaultNotPossible(d, vs) => DEFAULT_VALUE + show(d) + ONE_OF_POSSIBLE_VALUES + ShowValues(vs, show) + CLOSE
    case MinimumNotBelowMaximum(lo, hi) => MINIMUM_VALUE + show(lo) + LOWER_THAN_MAXIMUM + show(hi) + CLOSE
    case DefaultOutOfRange(d, lo, hi) =>
      DEFAULT_VALUE + show(d) + AT_LEAST_MINIMUM + show(lo) + AT_MOST_MAXIMUM + show(hi) + CLOSE
    case StepOutOfRange(s, range) => STEP_VALUE + show(s) + STEP_IN_RANGE + show(range) + CLOSE
    case StepNotFactor(s, range) => STEP_VALUE + show(s) + STEP_FACTOR + show(range) + CLOSE
    case DefaultStepNotFactor(range) => DEFAULT_STEP_FACTOR + show(range) + CLOSE
    case VisibleEmpty => VISIBLE_EMPTY
    case OutputIdEmpty => OUTPUT_ID_EMPTY
    case OutputIdNotUnique(key) => OUTPUT_ID_UNIQUE + key + USED_MORE_THAN_ONCE
    case OutputNameEmpty => OUTPUT_NAME_EMPTY
    case PlotXAxisTitleEmpty => PLOT_X_AXIS_TITLE_EMPTY
    case PlotXValueEmpty => PLOT_X_VALUE_EMPTY
    case PlotYAxisTitleEmpty => PLOT_Y_AXIS_TITLE_EMPTY
    case PlotYValueEmpty => PLOT_Y_VALUE_EMPTY
    case TraceXValueEmpty => TRACE_X_VALUE_EMPTY
    case TraceYValueEmpty => TRACE_Y_VALUE_EMPTY
    case ParameterNameEmpty => PARAMETER_NAME_EMPTY
    case ParameterValueEmpty => PARAMETER_VALUE_EMPTY)
  }

  /** A text closed with a full stop. */
  function Sentence(text: string): (r: string)
    ensures Text.EndsWith(r, ".") && |r| == |text| + 1 && r[..|text|] == text
  {
    text + "."
  }

  /** The warnings pushed for the findings, in the same order. */
  function Warnings(findings: seq<Finding>, show: real -> string): (r: seq<Issue>)
    ensures |r| == |findings|
    ensures AllWarnings(r)
    ensures forall i :: 0 <= i < |r| ==>
              Text.StartsWith(r[i].description, PREFIX) && Text.EndsWith(r[i].description, ".")
  {
    seq(|findings|, i requires 0 <= i < |findings| => Issue(Warning, PREFIX + Message(findings[i], show)))
  }

  /** Whether the validator records an input's id as used: the renderer only
      a non-empty one, the main process any id that is there. */
  predicate Recorded(flavour: Flavour, id: Option<string>) {
    id.Some? && (flavour == MainProcess || id.value != "")
  }

  /** The findings about an input's id, given the ids recorded before it. The
      renderer reports a missing or empty id as empty and checks only the
      others for uniqueness; the main process checks an id only when there is
      one, and then both for emptiness and for uniqueness. */
  function IdFindings(flavour: Flavour, id: Option<string>, used: set<string>): (r: seq<Finding>)
    ensures InputIdEmpty in r <==> id == Some("") || (flavour == Renderer && id.None?)
    ensures forall k :: 0 <= k < |r| ==> r[k] == InputIdEmpty || r[k].InputIdNotUnique?
  {
    match flavour
    case Renderer =>
      if id.Some? && id.value != "" then (if id.value in used then [InputIdNotUnique(id.value)] else [])
      else [InputIdEmpty]
    case MainProcess =>
      if id.Some? then
        (if id.value == "" then [InputIdEmpty] else [])
        + (if id.value in used then [InputIdNotUnique(id.value)] else [])
      else []
  }

  /** The values of the possible values, in order. */
  function ValuesOf(pvs: seq<PossibleValue>): (vs: seq<real>)
    ensures |vs| == |pvs|
    ensures forall i :: 0 <= i < |pvs| ==> vs[i] == pvs[i].value
  {
    seq(|pvs|, i requires 0 <= i < |pvs| => pvs[i].value)
  }

  /** One warning per possible value whose name is empty. */
  function EmptyNameFindings(pvs: seq<PossibleValue>): (r: seq<Finding>)
    ensures forall k :: 0 <= k < |r| ==> r[k] == PossibleValueNameEmpty
    ensures r == [] <==> forall i :: 0 <= i < |pvs| ==> pvs[i].name != ""
    ensures |r| <= |pvs|
    decreases |pvs|
  {
    if |pvs| == 0 then []
    else
      var init := pvs[..|pvs| - 1];
      assert forall i :: 0 <= i < |init| ==> init[i] == pvs[i];
      EmptyNameFindings(init) + (if pvs[|pvs| - 1].name == "" then [PossibleValueNameEmpty] else [])
  }

  /** Reference for the repeated values: walking the values in order, one
      warning for each value that already occurred earlier. */
  function RepeatFindings(values: seq<real>): (r: seq<Finding>)
    ensures forall k :: 0 <= k < |r| ==> r[k].PossibleValueNotUnique? && r[k].value in values
    decreases |values|
  {
    if |values| == 0 then []
    else
      var init, last := values[..|values| - 1], values[|values| - 1];
      RepeatFindings(init) + (if last in init then [PossibleValueNotUnique(last)] else [])
  }

  /** Every occurrence of a value after its first gets exactly one warning, and
      a value that occurs once gets none. */
  lemma {:induction false} RepeatFindingsCount(values: seq<real>, v: real)
    ensures multiset(RepeatFindings(values))[PossibleValueNotUnique(v)]
              == if multiset(values)[v] == 0 then 0 else multiset(values)[v] - 1
    decreases |values|
  {
    if |values| > 0 {
      var init, last := values[..|values| - 1], values[|values| - 1];
      RepeatFindingsCount(init, v);
      Seqs.SplitLast(values);
      var tail := if last in init then [PossibleValueNotUnique(last)] else [];
      assert RepeatFindings(values) == RepeatFindings(init) + tail;
      assert multiset(RepeatFindings(values)) == multiset(RepeatFindings(init)) + multiset(tail);
      assert last in init <==> multiset(init)[last] > 0;
    }
  }

  /** The loop over the possible values, recording each value as used. */
  method RepeatedValues(values: seq<real>) returns (r: seq<Finding>)
    ensures r == RepeatFindings(values)
  {
    r := [];
    var used: set<real> := {};
    var i := 0;
    while i < |values|
      invariant 0 <= i <= |values|
      invariant forall v :: v in used <==> v in values[..i]
      invariant r == RepeatFindings(values[..i])
    {
      assert values[..i + 1][..i] == values[..i];
      if values[i] in used {
        r := r + [PossibleValueNotUnique(values[i])];
      }
      used := used + {values[i]};
      i := i + 1;
    }
    assert values[..|values|] == values;
  }

  /** The checks on a discrete input: empty possible value names, repeated
      possible values, and a default value that is not one of them. */
  function DiscreteFindings(input: Input): (r: seq<Finding>)
    ensures !input.IsDiscrete() ==> r == []
    ensures input.IsDiscrete() ==>
              var values := ValuesOf(input.possibleValues.value);
              (DefaultNotPossible(input.defaultValue, values) in r <==> input.defaultValue !in values)
    ensures forall k :: 0 <= k < |r| ==>
              r[k] == PossibleValueNameEmpty || r[k].PossibleValueNotUnique? || r[k].DefaultNotPossible?
  {
    if !input.IsDiscrete() then []
    else
      var pvs := input.possibleValues.value;
      var values := ValuesOf(pvs);
      var names, repeats := EmptyNameFindings(pvs), RepeatFindings(values);
      var default := if input.defaultValue in values then [] else [DefaultNotPossible(input.defaultValue, values)];
      assert DefaultNotPossible(input.defaultValue, values) !in names + repeats;
      names + repeats + default
  }

  /** The checks on a scalar input, in order: the minimum must be below the
      maximum, the default must lie between them, and the step (1 when there
      is none) must be positive, at most the range, and divide the range. */
  function ScalarFindings(input: Input): (r: seq<Finding>)
    ensures !input.IsScalar() ==> r == []
    ensures forall k :: 0 <= k < |r| ==>
              r[k].MinimumNotBelowMaximum? || r[k].DefaultOutOfRange? || r[k].StepOutOfRange?
              || r[k].StepNotFactor? || r[k].DefaultStepNotFactor?
  {
    if !input.IsScalar() then []
    else
      var lo, hi := input.minimumValue.value, input.maximumValue.value;
      BoundsFindings(lo, hi, input.defaultValue) + StepFindings(input.stepValue, hi - lo)
  }

  /** A scalar input is reported for its bounds exactly when the minimum is
      not below the maximum, or the default is outside them. */
  lemma ScalarBoundsChecks(input: Input)
    requires input.IsScalar()
    ensures var r, lo, hi := ScalarFindings(input), input.minimumValue.value, input.maximumValue.value;
            (MinimumNotBelowMaximum(lo, hi) in r <==> lo >= hi)
            && (DefaultOutOfRange(input.defaultValue, lo, hi) in r <==> !(lo <= input.defaultValue <= hi))
  {
  }

  /** A scalar input is reported for its step exactly when the step is not
      positive, exceeds the range or does not divide it; without a step, when
      the range is not a whole number. */
  lemma ScalarStepChecks(input: Input)
    requires input.IsScalar()
    ensures var r, range := ScalarFindings(input), input.maximumValue.value - input.minimumValue.value;
            input.stepValue.Some? ==>
              var step := input.stepValue.value;
              (StepOutOfRange(step, range) in r <==> step <= 0.0 || step > range)
              && (StepNotFactor(step, range) in r <==>
                    step == 0.0 || forall k: int :: Common.Multiple(k, step) != range)
              && DefaultStepNotFactor(range) !in r
    ensures var r, range := ScalarFindings(input), input.maximumValue.value - input.minimumValue.value;
            input.stepValue.None? ==>
              (DefaultStepNotFactor(range) in r <==> range.Floor as real != range)
              && forall k :: 0 <= k < |r| ==> !r[k].StepOutOfRange? && !r[k].StepNotFactor?
  {
  }

  /** The minimum must be below the maximum, and the default between them. */
  function BoundsFindings(lo: real, hi: real, d: real): (r: seq<Finding>)
    ensures MinimumNotBelowMaximum(lo, hi) in r <==> lo >= hi
    ensures DefaultOutOfRange(d, lo, hi) in r <==> !(lo <= d <= hi)
    ensures forall k :: 0 <= k < |r| ==> r[k].MinimumNotBelowMaximum? || r[k].DefaultOutOfRange?
  {
    (if lo >= hi then [MinimumNotBelowMaximum(lo, hi)] else [])
    + (if d < lo || d > hi then [DefaultOutOfRange(d, lo, hi)] else [])
  }

  /** The step (1 when there is none) must be positive, at most the range,
      and divide the range; a missing step is only checked for dividing. */
  function StepFindings(step: Option<real>, range: real): (r: seq<Finding>)
    ensures step.Some? ==>
              (StepOutOfRange(step.value, range) in r <==> step.value <= 0.0 || step.value > range)
              && (StepNotFactor(step.value, range) in r <==>
                    step.value == 0.0 || forall k: int :: Common.Multiple(k, step.value) != range)
              && forall k :: 0 <= k < |r| ==> r[k].StepOutOfRange? || r[k].StepNotFactor?
    ensures step.None? ==>
              (DefaultStepNotFactor(range) in r <==> range.Floor as real != range)
              && forall k :: 0 <= k < |r| ==> r[k].DefaultStepNotFactor?
  {
    match step
    case Some(s) =>
      Common.IsDivisibleCharacterised(range, s);
      (if s <= 0.0 || s > range then [StepOutOfRange(s, range)] else [])
      + (if !Common.IsDivisible(range, s) then [StepNotFactor(s, range)] else [])
    case None =>
      if !Common.IsDivisible(range, 1.0) then [DefaultStepNotFactor(range)] else []
  }

  /** The findings about one input after its id: name, discrete checks,
      scalar checks, visibility. */
  function InputRest(input: Input): (r: seq<Finding>)
    ensures NotAboutIds(r)
  {
    var name := if input.name == "" then [InputNameEmpty] else [];
    var discrete, scalar := DiscreteFindings(input), ScalarFindings(input);
    var visible := if input.visible == Some("") then [VisibleEmpty] else [];
    assert NotAboutIds(discrete) && NotAboutIds(scalar);
    NotAboutIdsAppend(name, discrete);
    NotAboutIdsAppend(name + discrete, scalar);
    NotAboutIdsAppend(name + discrete + scalar, visible);
    name + discrete + scalar + visible
  }

  predicate NotAboutIds(r: seq<Finding>) {
    forall k :: 0 <= k < |r| ==> !r[k].InputIdNotUnique? && r[k] != InputIdEmpty
  }

  lemma NotAboutIdsAppend(a: seq<Finding>, b: seq<Finding>)
    requires NotAboutIds(a) && NotAboutIds(b)
    ensures NotAboutIds(a + b)
  {
  }

  /** The findings about one input, in the order the validators check: id,
      name, discrete checks, scalar checks, visibility. */
  function InputBlock(flavour: Flavour, input: Input, used: set<string>): seq<Finding> {
    IdFindings(flavour, input.id, used) + InputRest(input)
  }

  /** An id is reported as a repeat at most once, and only when it is
      recorded and was recorded before. */
  lemma IdFindingsRepeats(flavour: Flavour, id: Option<string>, used: set<string>, x: string)
    ensures multiset(IdFindings(flavour, id, used))[InputIdNotUnique(x)]
              == if Recorded(flavour, id) && x == id.value && x in used then 1 else 0
  {
  }

  /** Of an input's findings, only the id checks can report a repeat. */
  lemma InputBlockRepeats(flavour: Flavour, input: Input, used: set<string>, x: string)
    ensures multiset(InputBlock(flavour, input, used))[InputIdNotUnique(x)]
              == if Recorded(flavour, input.id) && x == input.id.value && x in used then 1 else 0
  {
    var rest := InputRest(input);
    assert NotAboutIds(rest);
    assert InputIdNotUnique(x) !in rest;
    IdFindingsRepeats(flavour, input.id, used, x);
  }

  /** The ids recorded as used by the time the inputs have been walked. */
  function IdsOf(flavour: Flavour, inputs: seq<Input>): set<string> {
    set i | 0 <= i < |inputs| && Recorded(flavour, inputs[i].id) :: inputs[i].id.value
  }

  /** Reference for the input checks: each input's findings, in order, with
      uniqueness judged against the ids recorded for the inputs before it. */
  function InputsFindings(flavour: Flavour, inputs: seq<Input>): seq<Finding>
    decreases |inputs|
  {
    if |inputs| == 0 then []
    else
      var init := inputs[..|inputs| - 1];
      InputsFindings(flavour, init) + InputBlock(flavour, inputs[|inputs| - 1], IdsOf(flavour, init))
  }

  /** How many inputs carry the recorded id `x`. */
  function RecordedCount(flavour: Flavour, inputs: seq<Input>, x: string): nat
    decreases |inputs|
  {
    if |inputs| == 0 then 0
    else
      var last := inputs[|inputs| - 1];
      RecordedCount(flavour, inputs[..|inputs| - 1], x) + (if Recorded(flavour, last.id) && last.id.value == x then 1 else 0)
  }

  lemma {:induction false} IdsOfCounted(flavour: Flavour, inputs: seq<Input>, x: string)
    ensures x in IdsOf(flavour, inputs) <==> RecordedCount(flavour, inputs, x) > 0
    decreases |inputs|
  {
    if |inputs| > 0 {
      var init, last := inputs[..|inputs| - 1], inputs[|inputs| - 1];
      IdsOfCounted(flavour, init, x);
      if x in IdsOf(flavour, inputs) {
        var i :| 0 <= i < |inputs| && Recorded(flavour, inputs[i].id) && inputs[i].id.value == x;
        if i < |init| {
          assert init[i] == inputs[i];
          assert x in IdsOf(flavour, init);
        }
      }
      if x in IdsOf(flavour, init) {
        var i :| 0 <= i < |init| && Recorded(flavour, init[i].id) && init[i].id.value == x;
        assert inputs[i] == init[i];
      }
    }
  }

  /** Each occurrence of a recorded input id after its first produces exactly
      one "must be unique" warning; an id used once produces none. */
  lemma {:induction false} InputIdRepeatsCounted(flavour: Flavour, inputs: seq<Input>, x: string)
    ensures Seqs.Occurrences(InputsFindings(flavour, inputs), InputIdNotUnique(x))
              == if RecordedCount(flavour, inputs, x) == 0 then 0 else RecordedCount(flavour, inputs, x) - 1
    decreases |inputs|
  {
    Seqs.OccurrencesIsMultiplicity(InputsFindings(flavour, inputs), InputIdNotUnique(x));
    if |inputs| > 0 {
      var init := inputs[..|inputs| - 1];
      InputIdRepeatsCounted(flavour, init, x);
      Seqs.OccurrencesIsMultiplicity(InputsFindings(flavour, init), InputIdNotUnique(x));
      IdsOfCounted(flavour, init, x);
      InputBlockRepeats(flavour, inputs[|inputs| - 1], IdsOf(flavour, init), x);
    }
  }

  lemma IdsOfStep(flavour: Flavour, inputs: seq<Input>, i: nat)
    requires i < |inputs|
    ensures IdsOf(flavour, inputs[..i + 1])
              == IdsOf(flavour, inputs[..i]) + (if Recorded(flavour, inputs[i].id) then {inputs[i].id.value} else {})
  {
    var prev, next := inputs[..i], inputs[..i + 1];
    forall x
      ensures x in IdsOf(flavour, next) <==>
                x in IdsOf(flavour, prev) || (Recorded(flavour, inputs[i].id) && x == inputs[i].id.value)
    {
      if x in IdsOf(flavour, next) {
        var j :| 0 <= j < |next| && Recorded(flavour, next[j].id) && next[j].id.value == x;
        if j < i {
          assert prev[j] == next[j];
        }
      }
      if x in IdsOf(flavour, prev) {
        var j :| 0 <= j < i && Recorded(flavour, prev[j].id) && prev[j].id.value == x;
        assert next[j] == prev[j];
      }
      if Recorded(flavour, inputs[i].id) && x == inputs[i].id.value {
        assert next[i] == inputs[i];
      }
    }
  }

  lemma InputsFindingsStep(flavour: Flavour, inputs: seq<Input>, i: nat)
    requires i < |inputs|
    ensures InputsFindings(flavour, inputs[..i + 1])
              == InputsFindings(flavour, inputs[..i]) + InputBlock(flavour, inputs[i], IdsOf(flavour, inputs[..i]))
  {
    assert inputs[..i + 1][..i] == inputs[..i];
  }

  /** The input loop: check each input against the ids recorded so far, then
      record its id. */
  method CheckInputs(flavour: Flavour, inputs: seq<Input>) returns (r: seq<Finding>)
    ensures r == InputsFindings(flavour, inputs)
  {
    r := [];
    var used: set<string> := {};
    var i := 0;
    while i < |inputs|
      invariant 0 <= i <= |inputs|
      invariant used == IdsOf(flavour, inputs[..i])
      invariant r == InputsFindings(flavour, inputs[..i])
    {
      var input := inputs[i];
      InputsFindingsStep(flavour, inputs, i);
      IdsOfStep(flavour, inputs, i);
      r := r + InputBlock(flavour, input, used);
      if Recorded(flavour, input.id) {
        used := used + {input.id.value};
      }
      i := i + 1;
    }
    assert inputs[..|inputs|] == inputs;
  }

  /** The property name an output data id is recorded under: a missing id is
      recorded as "undefined". */
  function OutputKey(id: Option<string>): string {
    if id.None? then "undefined" else id.value
  }

  /** Whether an output data id is reported as empty: the renderer tests the
      id for falsiness, the main process for the empty string. */
  predicate OutputIdIsEmpty(flavour: Flavour, id: Option<string>) {
    id == Some("") || (flavour == Renderer && id.None?)
  }

  /** The findings about one output data, given the keys recorded before it:
      an empty id, a repeated id (an empty one too, since every id is
      recorded), an empty name. */
  function OutputBlock(flavour: Flavour, d: OutputData, used: set<string>): (r: seq<Finding>)
    ensures OutputIdEmpty in r <==> OutputIdIsEmpty(flavour, d.id)
    ensures OutputNameEmpty in r <==> d.name == ""
  {
    (if OutputIdIsEmpty(flavour, d.id) then [OutputIdEmpty] else [])
    + (if OutputKey(d.id) in used then [OutputIdNotUnique(OutputKey(d.id))] else [])
    + (if d.name == "" then [OutputNameEmpty] else [])
  }

  /** One output data is reported as a repeat at most once, and only under
      its own key, when that key was recorded before. */
  lemma OutputBlockRepeats(flavour: Flavour, d: OutputData, used: set<string>, k: string)
    ensures multiset(OutputBlock(flavour, d, used))[OutputIdNotUnique(k)]
              == if k == OutputKey(d.id) && k in used then 1 else 0
  {
  }

  /** The keys recorded once the output data have been walked. */
  function KeysOf(data: seq<OutputData>): set<string> {
    set i | 0 <= i < |data| :: OutputKey(data[i].id)
  }

  /** Reference for the output data checks: each output data's findings, in
      order, against the keys of the output data before it. */
  function OutputFindings(flavour: Flavour, data: seq<OutputData>): seq<Finding>
    decreases |data|
  {
    if |data| == 0 then []
    else
      var init := data[..|data| - 1];
      OutputFindings(flavour, init) + OutputBlock(flavour, data[|data| - 1], KeysOf(init))
  }

  /** How many output data are recorded under `k`. */
  function KeyCount(data: seq<OutputData>, k: string): nat
    decreases |data|
  {
    if |data| == 0 then 0
    else KeyCount(data[..|data| - 1], k) + (if OutputKey(data[|data| - 1].id) == k then 1 else 0)
  }

  lemma {:induction false} KeysOfCounted(data: seq<OutputData>, k: string)
    ensures k in KeysOf(data) <==> KeyCount(data, k) > 0
    decreases |data|
  {
    if |data| > 0 {
      var init := data[..|data| - 1];
      KeysOfCounted(init, k);
      if k in KeysOf(data) {
        var i :| 0 <= i < |data| && OutputKey(data[i].id) == k;
        if i < |init| {
          assert init[i] == data[i];
          assert k in KeysOf(init);
        }
      }
      if k in KeysOf(init) {
        var i :| 0 <= i < |init| && OutputKey(init[i].id) == k;
        assert data[i] == init[i];
      }
    }
  }

  /** Each occurrence of an output data id after its first produces exactly
      one "must be unique" warning; an id used once produces none. */
  lemma {:induction false} OutputIdRepeatsCounted(flavour: Flavour, data: seq<OutputData>, k: string)
    ensures Seqs.Occurrences(OutputFindings(flavour, data), OutputIdNotUnique(k))
              == if KeyCount(data, k) == 0 then 0 else KeyCount(data, k) - 1
    decreases |data|
  {
    Seqs.OccurrencesIsMultiplicity(OutputFindings(flavour, data), OutputIdNotUnique(k));
    if |data| > 0 {
      var init := data[..|data| - 1];
      OutputIdRepeatsCounted(flavour, init, k);
      Seqs.OccurrencesIsMultiplicity(OutputFindings(flavour, init), OutputIdNotUnique(k));
      KeysOfCounted(init, k);
      OutputBlockRepeats(flavour, data[|data| - 1], KeysOf(init), k);
    }
  }

  /** Two output data with empty ids: each is reported as empty, and the
      second also as a repeat of the first. */
  lemma EmptyOutputIdsTwice(flavour: Flavour, a: string, b: string)
    requires a != "" && b != ""
    ensures OutputFindings(flavour, [OutputData(Some(""), a), OutputData(Some(""), b)])
              == [OutputIdEmpty, OutputIdEmpty, OutputIdNotUnique("")]
  {
    var d0, d1 := OutputData(Some(""), a), OutputData(Some(""), b);
    OutputFindingsOfTwo(flavour, d0, d1);
    EmptyIdBlock(flavour, d0, {});
    EmptyIdBlock(flavour, d1, {""});
  }

  /** The findings about two output data: the first against nothing, the
      second against the first's key. */
  lemma OutputFindingsOfTwo(flavour: Flavour, d0: OutputData, d1: OutputData)
    ensures OutputFindings(flavour, [d0, d1])
              == OutputBlock(flavour, d0, {}) + OutputBlock(flavour, d1, {OutputKey(d0.id)})
  {
    var data := [d0, d1];
    Seqs.PrefixesOfTwo(data);
    assert KeysOf(data[..0]) == {};
    OutputFindingsStep(flavour, data, 0);
    KeysOfStep(data, 0);
    OutputFindingsStep(flavour, data, 1);
    var b0 := OutputBlock(flavour, d0, {});
    assert OutputFindings(flavour, data[..0]) == [];
    Seqs.EmptyAppend(b0);
    assert OutputFindings(flavour, data[..1]) == b0;
  }

  /** The findings about a named output data with an empty id. */
  lemma EmptyIdBlock(flavour: Flavour, d: OutputData, used: set<string>)
    requires d.id == Some("") && d.name != ""
    ensures OutputBlock(flavour, d, used)
              == if "" in used then [OutputIdEmpty, OutputIdNotUnique("")] else [OutputIdEmpty]
  {
  }

  lemma KeysOfStep(data: seq<OutputData>, i: nat)
    requires i < |data|
    ensures KeysOf(data[..i + 1]) == KeysOf(data[..i]) + {OutputKey(data[i].id)}
  {
    var prev, next := data[..i], data[..i + 1];
    forall k
      ensures k in KeysOf(next) <==> k in KeysOf(prev) || k == OutputKey(data[i].id)
    {
      if k in KeysOf(next) {
        var j :| 0 <= j < |next| && OutputKey(next[j].id) == k;
        if j < i {
          assert prev[j] == next[j];
        }
      }
      if k in KeysOf(prev) {
        var j :| 0 <= j < i && OutputKey(prev[j].id) == k;
        assert next[j] == prev[j];
      }
      if k == OutputKey(data[i].id) {
        assert next[i] == data[i];
      }
    }
  }

  lemma OutputFindingsStep(flavour: Flavour, data: seq<OutputData>, i: nat)
    requires i < |data|
    ensures OutputFindings(flavour, data[..i + 1])
              == OutputFindings(flavour, data[..i]) + OutputBlock(flavour, data[i], KeysOf(data[..i]))
  {
    assert data[..i + 1][..i] == data[..i];
  }

  /** The output data loop: check each output data against the keys recorded
      so far, then record its key, empty or missing ones included. */
  method CheckOutputData(flavour: Flavour, data: seq<OutputData>) returns (r: seq<Finding>)
    ensures r == OutputFindings(flavour, data)
  {
    r := [];
    var used: set<string> := {};
    var i := 0;
    while i < |data|
      invariant 0 <= i <= |data|
      invariant used == KeysOf(data[..i])
      invariant r == OutputFindings(flavour, data[..i])
    {
      OutputFindingsStep(flavour, data, i);
      KeysOfStep(data, i);
      r := r + OutputBlock(flavour, data[i], used);
      used := used + {OutputKey(data[i].id)};
      i := i + 1;
    }
    assert data[..|data|] == data;
  }

  /** The checks on a plot's additional traces: one warning per empty X value
      and one per empty Y value, trace by trace. */
  function TraceFindings(traces: seq<Trace>): (r: seq<Finding>)
    ensures forall x :: x in r ==> x == TraceXValueEmpty || x == TraceYValueEmpty
    ensures r == [] <==> forall i :: 0 <= i < |traces| ==> traces[i].xValue != "" && traces[i].yValue != ""
    decreases |traces|
  {
    if |traces| == 0 then []
    else
      var init, last := traces[..|traces| - 1], traces[|traces| - 1];
      assert forall i :: 0 <= i < |init| ==> init[i] == traces[i];
      TraceFindings(init)
      + (if last.xValue == "" then [TraceXValueEmpty] else [])
      + (if last.yValue == "" then [TraceYValueEmpty] else [])
  }

  /** The checks on one plot. The renderer checks the X and Y values and the
      additional traces; the main process checks the X axis title, the X
      value, the Y axis title and the Y value, and ignores the traces. */
  function PlotBlock(flavour: Flavour, p: Plot): seq<Finding> {
    match flavour
    case Renderer =>
      (if p.xValue == "" then [PlotXValueEmpty] else [])
      + (if p.yValue == "" then [PlotYValueEmpty] else [])
      + (if p.additionalTraces.Some? then TraceFindings(p.additionalTraces.value) else [])
    case MainProcess =>
      (if p.xAxisTitle == Some("") then [PlotXAxisTitleEmpty] else [])
      + (if p.xValue == "" then [PlotXValueEmpty] else [])
      + (if p.yAxisTitle == Some("") then [PlotYAxisTitleEmpty] else [])
      + (if p.yValue == "" then [PlotYValueEmpty] else [])
  }

  /** What the checks on one plot report: an empty X or Y value under both
      flavours; empty axis titles only in the main process; empty trace
      values only in the renderer, and exactly when some trace has one. */
  lemma PlotBlockChecks(flavour: Flavour, p: Plot)
    ensures var r := PlotBlock(flavour, p);
            (PlotXValueEmpty in r <==> p.xValue == "")
            && (PlotYValueEmpty in r <==> p.yValue == "")
    ensures var r := PlotBlock(flavour, p);
            flavour == Renderer ==>
              PlotXAxisTitleEmpty !in r && PlotYAxisTitleEmpty !in r
              && ((TraceXValueEmpty in r || TraceYValueEmpty in r) <==>
                    p.additionalTraces.Some? && TraceFindings(p.additionalTraces.value) != [])
    ensures var r := PlotBlock(flavour, p);
            flavour == MainProcess ==>
              (PlotXAxisTitleEmpty in r <==> p.xAxisTitle == Some(""))
              && (PlotYAxisTitleEmpty in r <==> p.yAxisTitle == Some(""))
              && TraceXValueEmpty !in r && TraceYValueEmpty !in r
  {
    if flavour == Renderer {
      RendererPlotChecks(p);
    } else {
      MainProcessPlotChecks(p);
    }
  }

  lemma RendererPlotChecks(p: Plot)
    ensures var r := PlotBlock(Renderer, p);
            (PlotXValueEmpty in r <==> p.xValue == "")
            && (PlotYValueEmpty in r <==> p.yValue == "")
            && PlotXAxisTitleEmpty !in r && PlotYAxisTitleEmpty !in r
            && ((TraceXValueEmpty in r || TraceYValueEmpty in r) <==>
                  p.additionalTraces.Some? && TraceFindings(p.additionalTraces.value) != [])
  {
    if p.additionalTraces.Some? {
      TracesReported(p.additionalTraces.value);
    }
  }

  /** Trace findings, when there are any, include a trace value warning. */
  lemma TracesReported(traces: seq<Trace>)
    ensures var r := TraceFindings(traces);
            TraceXValueEmpty in r || TraceYValueEmpty in r <==> r != []
  {
    var r := TraceFindings(traces);
    if r != [] {
      assert r[0] in r;
    }
  }

  lemma MainProcessPlotChecks(p: Plot)
    ensures var r := PlotBlock(MainProcess, p);
            (PlotXValueEmpty in r <==> p.xValue == "")
            && (PlotYValueEmpty in r <==> p.yValue == "")
            && (PlotXAxisTitleEmpty in r <==> p.xAxisTitle == Some(""))
            && (PlotYAxisTitleEmpty in r <==> p.yAxisTitle == Some(""))
            && TraceXValueEmpty !in r && TraceYValueEmpty !in r
  {
  }

  /** The plot loop: each plot's findings, in order. */
  function PlotsFindings(flavour: Flavour, plots: seq<Plot>): (r: seq<Finding>)
    decreases |plots|
  {
    if |plots| == 0 then []
    else PlotsFindings(flavour, plots[..|plots| - 1]) + PlotBlock(flavour, plots[|plots| - 1])
  }

  /** The plot loop reports plot by plot, in order: the findings for two
      runs of plots are those of the first run followed by those of the
      second. */
  lemma {:induction false} PlotsFindingsAppend(flavour: Flavour, a: seq<Plot>, b: seq<Plot>)
    ensures PlotsFindings(flavour, a + b) == PlotsFindings(flavour, a) + PlotsFindings(flavour, b)
    decreases |b|
  {
    if |b| == 0 {
      assert a + b == a;
    } else {
      var init, ab := b[..|b| - 1], a + b;
      var x, y, z := PlotsFindings(flavour, a), PlotsFindings(flavour, init), PlotBlock(flavour, b[|b| - 1]);
      Seqs.DropLastOfAppend(a, b);
      PlotsFindingsLast(flavour, ab);
      PlotsFindingsAppend(flavour, a, init);
      PlotsFindingsLast(flavour, b);
      Seqs.AppendAssociative(x, y, z);
    }
  }

  lemma PlotsFindingsLast(flavour: Flavour, plots: seq<Plot>)
    requires |plots| > 0
    ensures PlotsFindings(flavour, plots)
              == PlotsFindings(flavour, plots[..|plots| - 1]) + PlotBlock(flavour, plots[|plots| - 1])
  {
  }

  /** The parameter loop: one warning per empty name and one per empty value,
      parameter by parameter. */
  function ParametersFindings(parameters: seq<Parameter>): (r: seq<Finding>)
    ensures forall k :: 0 <= k < |r| ==> r[k] == ParameterNameEmpty || r[k] == ParameterValueEmpty
    ensures r == [] <==> forall i :: 0 <= i < |parameters| ==> parameters[i].name != "" && parameters[i].value != ""
    decreases |parameters|
  {
    if |parameters| == 0 then []
    else
      var init, last := parameters[..|parameters| - 1], parameters[|parameters| - 1];
      assert forall i :: 0 <= i < |init| ==> init[i] == parameters[i];
      ParametersFindings(init)
      + (if last.name == "" then [ParameterNameEmpty] else [])
      + (if last.value == "" then [ParameterValueEmpty] else [])
  }

  /** Reference for the semantic pass: the inputs' findings, then the output
      data's, then the plots', then the parameters' (none when there are no
      parameters). */
  function DocumentFindings(flavour: Flavour, doc: Document): seq<Finding> {
    InputsFindings(flavour, doc.input) + OutputFindings(flavour, doc.data) + PlotsFindings(flavour, doc.plots)
    + (if doc.parameters.Some? then ParametersFindings(doc.parameters.value) else [])
  }

  /** The semantic pass of both validators, walking the document in order. */
  method CheckDocument(flavour: Flavour, doc: Document) returns (r: seq<Finding>)
    ensures r == DocumentFindings(flavour, doc)
  {
    r := CheckInputs(flavour, doc.input);
    var data := CheckOutputData(flavour, doc.data);
    r := r + data;
    r := r + PlotsFindings(flavour, doc.plots);
    if doc.parameters.Some? {
      r := r + ParametersFindings(doc.parameters.value);
    }
  }

  /** The property names every plain JavaScript object inherits from
      `Object.prototype`: looking one of them up in a fresh `{}` record gives
      a function or an object, which is truthy. */
  const INHERITED_KEYS: set<string> := {
    "constructor", "hasOwnProperty", "isPrototypeOf", "propertyIsEnumerable", "toLocaleString",
    "toString", "valueOf", "__proto__", "__defineGetter__", "__defineSetter__", "__lookupGetter__",
    "__lookupSetter__"
  }

  /** `used[key]` is truthy, as the validators write it: the key was recorded,
      or it names an inherited property. */
  predicate LookupAsWritten(used: set<string>, key: string) {
    key in used || key in INHERITED_KEYS
  }

  /** The input id checks with the record lookup as written. */
  function IdFindingsAsWritten(flavour: Flavour, id: Option<string>, used: set<string>): seq<Finding> {
    match flavour
    case Renderer =>
      if id.Some? && id.value != "" then (if LookupAsWritten(used, id.value) then [InputIdNotUnique(id.value)] else [])
      else [InputIdEmpty]
    case MainProcess =>
      if id.Some? then
        (if id.value == "" then [InputIdEmpty] else [])
        + (if LookupAsWritten(used, id.value) then [InputIdNotUnique(id.value)] else [])
      else []
  }

  /** The output data checks with the record lookup as written. */
  function OutputBlockAsWritten(flavour: Flavour, d: OutputData, used: set<string>): seq<Finding> {
    (if OutputIdIsEmpty(flavour, d.id) then [OutputIdEmpty] else [])
    + (if LookupAsWritten(used, OutputKey(d.id)) then [OutputIdNotUnique(OutputKey(d.id))] else [])
    + (if d.name == "" then [OutputNameEmpty] else [])
  }

  /** As written, the first input whose id is "toString" (and the first output
      data whose id is "constructor") is reported as used more than once,
      although nothing was recorded before it; the intended checks report
      nothing. */
  lemma InheritedKeyReportedAsRepeat(flavour: Flavour, name: string)
    requires name != ""
    ensures IdFindingsAsWritten(flavour, Some("toString"), {}) == [InputIdNotUnique("toString")]
    ensures IdFindings(flavour, Some("toString"), {}) == []
    ensures OutputBlockAsWritten(flavour, OutputData(Some("constructor"), name), {})
              == [OutputIdNotUnique("constructor")]
    ensures OutputBlock(flavour, OutputData(Some("constructor"), name), {}) == []
  {
    assert "toString" in INHERITED_KEYS;
    assert "constructor" in INHERITED_KEYS;
    assert "toString" != "";
    assert "constructor" != "";
  }

  /** The schema validator's report as warnings: one per non-empty line, in
      order, each line put in sentence form by `format` and prefixed. */
  function SchemaWarnings(lines: seq<string>, format: string -> string): (r: seq<Issue>)
    ensures AllWarnings(r)
    ensures |r| <= |lines|
    ensures r == [] <==> forall i :: 0 <= i < |lines| ==> lines[i] == ""
    ensures forall i :: 0 <= i < |r| ==> Text.StartsWith(r[i].description, PREFIX)
    decreases |lines|
  {
    if |lines| == 0 then []
    else
      var init, last := lines[..|lines| - 1], lines[|lines| - 1];
      assert forall i :: 0 <= i < |init| ==> init[i] == lines[i];
      SchemaWarnings(init, format) + (if last == "" then [] else [Issue(Warning, PREFIX + format(last))])
  }
}

=== FILE: version.dfy ===
/** The renderer's version comparison: two dotted version strings compared
    component by component, numerically, missing components reading as 0.

    `Number(component)` is modelled for what version strings hold: a component
    that is, after trimming white space, a non-empty run of decimal digits
    reads as its value; every other component (empty, or `NaN` through the
    `|| 0` fallback) reads as 0. */
module Version {
  import Text

  /** `Number(component) || 0`. */
  function ComponentValue(component: string): (n: nat)
    ensures !Text.IsDigits(Text.Trim(component)) ==> n == 0
  {
    var trimmed := Text.Trim(component);
    if Text.IsDigits(trimmed) then Text.DigitsValue(trimmed) else 0
  }

  /** `version.split('.').map(Number)`, with the `|| 0` fallback applied. */
  function Parts(version: string): (ps: seq<nat>)
    ensures |ps| == |Text.Split(version, '.')|
    ensures forall i :: 0 <= i < |ps| ==> ps[i] == ComponentValue(Text.Split(version, '.')[i])
  {
    var components := Text.Split(version, '.');
    seq(|components|, i requires 0 <= i < |components| => ComponentValue(components[i]))
  }

  /** Component `i`, 0 past the end. */
  function PartAt(ps: seq<nat>, i: nat): nat {
    if i < |ps| then ps[i] else 0
  }

  /** The components agree before position `i`. */
  predicate AgreeBefore(pa: seq<nat>, pb: seq<nat>, i: nat) {
    forall j :: 0 <= j < i ==> PartAt(pa, j) == PartAt(pb, j)
  }

  /** The intended ordering: at the first position where the components
      differ, the first version's is the larger. */
  predicate NewerParts(pa: seq<nat>, pb: seq<nat>) {
    exists i :: 0 <= i < |pa| + |pb| && AgreeBefore(pa, pb, i) && PartAt(pa, i) > PartAt(pb, i)
  }

  predicate NewerVersion(versionA: string, versionB: string) {
    NewerParts(Parts(versionA), Parts(versionB))
  }

  /** The first position where the components differ decides. */
  lemma {:induction false} FirstDifferenceDecides(pa: seq<nat>, pb: seq<nat>, i: nat)
    requires AgreeBefore(pa, pb, i)
    requires PartAt(pa, i) != PartAt(pb, i)
    ensures NewerParts(pa, pb) <==> PartAt(pa, i) > PartAt(pb, i)
  {
    assert i < |pa| + |pb|;
    if PartAt(pa, i) < PartAt(pb, i) {
      forall k | 0 <= k < |pa| + |pb| && AgreeBefore(pa, pb, k)
        ensures k <= i
      {
      }
    }
  }

  /** Versions whose components agree up to both lengths are not newer. */
  lemma {:induction false} AgreementIsNotNewer(pa: seq<nat>, pb: seq<nat>, n: nat)
    requires |pa| <= n && |pb| <= n
    requires AgreeBefore(pa, pb, n)
    ensures !NewerParts(pa, pb)
  {
    forall k | 0 <= k < |pa| + |pb| && AgreeBefore(pa, pb, k)
      ensures PartAt(pa, k) == PartAt(pb, k)
    {
      if k >= n {
        assert k >= |pa| && k >= |pb|;
      }
    }
  }

  /** The loop of `isNewerVersion` on the component lists. */
  method CompareParts(partsA: seq<nat>, partsB: seq<nat>) returns (r: bool)
    ensures r <==> NewerParts(partsA, partsB)
  {
    var n := if |partsA| > |partsB| then |partsA| else |partsB|;
    var i := 0;
    while i < n
      invariant 0 <= i <= n
      invariant AgreeBefore(partsA, partsB, i)
    {
      var partA := PartAt(partsA, i);
      var partB := PartAt(partsB, i);
      if partA > partB {
        FirstDifferenceDecides(partsA, partsB, i);
        return true;
      }
      if partA < partB {
        FirstDifferenceDecides(partsA, partsB, i);
        return false;
      }
      i := i + 1;
    }
    AgreementIsNotNewer(partsA, partsB, n);
    return false;
  }

  /** `isNewerVersion`: walk the positions up to the longer length; the first
      position where the components differ decides; equal all along is not
      newer. */
  method IsNewerVersion(versionA: string, versionB: string) returns (r: bool)
    ensures r <==> NewerVersion(versionA, versionB)
  {
    r := CompareParts(Parts(versionA), Parts(versionB));
  }

  /** No version is newer than itself. */
  lemma {:induction false} NewerIsIrreflexive(version: string)
    ensures !NewerVersion(version, version)
  {
  }

  /** Of two versions, at most one is newer than the other. */
  lemma {:induction false} NewerIsAsymmetric(versionA: string, versionB: string)
    ensures !(NewerVersion(versionA, versionB) && NewerVersion(versionB, versionA))
  {
    var pa, pb := Parts(versionA), Parts(versionB);
    if NewerParts(pa, pb) {
      var i :| 0 <= i < |pa| + |pb| && AgreeBefore(pa, pb, i) && PartAt(pa, i) > PartAt(pb, i);
      FirstDifferenceDecides(pa, pb, i);
      assert AgreeBefore(pb, pa, i);
      FirstDifferenceDecides(pb, pa, i);
    }
  }

  lemma DigitComponent(c: char)
    requires '0' <= c <= '9'
    ensures ComponentValue([c]) == c as int - '0' as int
  {
    assert Text.TrimStart([c]) == [c];
    assert Text.TrimEnd([c]) == [c];
    assert Text.Trim([c]) == [c];
    assert Text.IsDigits([c]);
    assert [c][..0] == [];
    assert Text.DigitsValue([c]) == Text.DigitsValue([]) * 10 + (c as int - '0' as int);
  }

  /** The components of `a.b` are those of `a` followed by those of `b`. */
  lemma {:induction false} PartsAppend(a: string, b: string)
    ensures Parts(a + ['.'] + b) == Parts(a) + Parts(b)
  {
    Text.SplitAppend(a, '.', b);
    var ps, qs := Parts(a + ['.'] + b), Parts(a) + Parts(b);
    assert |ps| == |qs|;
    forall i | 0 <= i < |ps|
      ensures ps[i] == qs[i]
    {
      if i < |Parts(a)| {
        assert Text.Split(a + ['.'] + b, '.')[i] == Text.Split(a, '.')[i];
      } else {
        assert Text.Split(a + ['.'] + b, '.')[i] == Text.Split(b, '.')[i - |Parts(a)|];
      }
    }
  }

  lemma ZeroParts()
    ensures Parts("0") == [0]
  {
    Text.SplitWithoutSeparator("0", '.');
    DigitComponent('0');
  }

  /** `v + ".0"` has the components of `v` and one more, worth 0. */
  lemma {:induction false} TrailingZeroComponent(version: string)
    ensures Parts(version + ".0") == Parts(version) + [0]
  {
    assert version + ".0" == version + ['.'] + "0";
    PartsAppend(version, "0");
    ZeroParts();
  }

  /** Appending zero components changes nothing: a version is neither newer
      nor older than the same version with a trailing ".0". */
  lemma {:induction false} TrailingZeroIsEqual(pa: seq<nat>)
    ensures !NewerParts(pa, pa + [0]) && !NewerParts(pa + [0], pa)
  {
    var pb := pa + [0];
    assert AgreeBefore(pa, pb, |pb|) by {
      forall j | 0 <= j < |pb|
        ensures PartAt(pa, j) == PartAt(pb, j)
      {
        if j < |pa| {
          assert pb[j] == pa[j];
        }
      }
    }
    AgreementIsNotNewer(pa, pb, |pb|);
    assert AgreeBefore(pb, pa, |pb|);
    AgreementIsNotNewer(pb, pa, |pb|);
  }

  /** A version is neither newer nor older than itself with ".0" appended;
      for instance "1.2" and "1.2.0". */
  lemma {:induction false} TrailingZeroVersionIsEqual(version: string)
    ensures !NewerVersion(version, version + ".0") && !NewerVersion(version + ".0", version)
  {
    TrailingZeroComponent(version);
    TrailingZeroIsEqual(Parts(version));
  }
}

=== FILE: wrappers.dfy ===
/** Optional values, used wherever the modelled code has `undefined`, `null` or a
    missing key. */
module Wrappers {

  datatype Option<+T> = None | Some(value: T) {

    /** The wrapped value, or `default` when there is none. */
    function GetOr(default: T): T {
      match this
      case Some(v) => v
      case None => default
    }
  }
}
